=== FILE: README.md ===
# Linked containers and tree indexes of git_sim

git_sim is a small simulation of a version-control system. Its
repository keeps its state in a few hand-written data structures:

- `git_sim/data_structures.py` has a FIFO `Queue`, a LIFO `Stack` and a
  singly linked `LinkedList`, all built from `Node(data, next)` cells.
- `git_sim/tree_structures.py` has four trees and one manager:
  - the N-ary branch hierarchy `BranchNode`;
  - the contributor binary search tree `ContributorNode`;
  - the B-tree file index `BTree`/`BTreeNode`, of minimum degree t;
  - the AVL tree `AVLTree`/`AVLNode`, which maps user e-mails to role names;
  - the `RoleManager`, which combines a role-to-permissions table with that AVL tree.

This project models each of them as immutable Dafny datatypes and pure
functions, one module per structure:

| module | file | models |
|---|---|---|
| `Options` | options.dfy | the `None`/value results and the raised `ValueError` |
| `Containers` | containers.dfy | `Queue`, `Stack`, `LinkedList` |
| `BranchTree` | branch_tree.dfy | `BranchNode`, and how the repository creates and deletes branches |
| `ContributorTree` | contributor_tree.dfy | `ContributorNode` |
| `BTree` | btree.dfy | `BTreeNode`, the shape invariants, the in-order view `Flat` |
| `BTreeSearch` | btree_search.dfy | `BTree.search` |
| `BTreeInsert` | btree_insert.dfy | `insert`, `_split_child`, `_insert_non_full` |
| `BTreeDelete` | btree_delete.dfy | `delete` and its helpers |
| `BTreeTraverse` | btree_traverse.dfy | `traverse_preorder` |
| `BTreeDeleteRuns` | btree_delete_runs.dfy | concrete deletions and the deletion of an absent key |
| `AvlTree` | avl_tree.dfy | `AVLNode`, `AVLTree` |
| `RoleManager` | role_manager.dfy | `RoleManager` |

Each operation is paired with a reference model and related to it by
lemmas that hold for all inputs:

- **Stack and linked list:** the sequence of their cells.
- **Queue:** the sequence reached by walking from `front`. The queue is
  modelled as an arena of cells, because `rear` aliases the last cell of
  the chain.
- **Branch tree:** the preorder sequence of its nodes, and the multiset
  of their names.
- **Contributor tree:** the multiset of its entries and the
  binary-search-tree ordering.
- **B-tree:**
  - the in-order sequence of its items (`Flat`);
  - the shape invariant: every leaf at the same depth, and an internal
    node with one more child than keys;
  - the degree bounds: at most 2t-1 keys per node, and at least t-1
    except at the root.
- **AVL tree:**
  - a strictly sorted association list;
  - the AVL balance condition on the cached heights.
- **Role manager:** the pairing of roles and users.

### Behaviour of the code worth knowing

The model follows the code, including three places where it does not do
what a reader of its comments, or of a textbook B-tree, would expect:

- **Duplicate B-tree keys.** Keys are not kept strictly increasing:
  inserting a stored key adds a second copy. Where the copy lands depends
  on the splits on the way down:
  - in a leaf, it goes after the old copy
    (`BTreeInsert.DuplicateInsertKeepsFirstValue`);
  - when the old copy becomes a split median, the strict `k > median`
    test sends the new copy before it
    (`BTreeInsert.DuplicateOfMedianGoesFirst`).

  In both examples the search still returns the old value. Shapes, bounds
  and sortedness are therefore proved for any keys. Exact contents after
  deletion are proved for strictly increasing keys.
- **Deleting an absent B-tree key.** One would expect this to change
  nothing. The code still fills under-full children, merging them on the
  way down. The items are kept, but the shape and the preorder listing
  can change (`BTreeDeleteRuns.DeleteAbsentChangesTraversal`,
  `BTreeDeleteRuns.DeleteAbsentKeepsItems`). The AVL tree, by contrast,
  returns the very same tree (`AvlTree.DeleteAbsentIsIdentity`).
- **Contributor listing order.** The listing is documented as
  alphabetical, but the code produces a preorder walk; see Findings.

One worked example shows a split as the textbook describes it. With t = 3,
five ascending insertions fill the root leaf. The sixth insertion splits it
2 | 3 | 2: the middle key moves up to a new root, and the sixth key then
joins the right child, which ends with 3 keys
(`BTreeInsert.SixthInsertSplitsRoot`).

## Model

| member | source | states |
|---|---|---|
| Containers.EmptyStack | git_sim/data_structures.py:62-64 | a new stack holds nothing and its size counter is 0 |
| Containers.Push | git_sim/data_structures.py:66-71 | the pushed element becomes the top, the rest follow unchanged, the size grows by one and stays equal to the cell count |
| Containers.Pop | git_sim/data_structures.py:73-80 | on an empty stack returns None and changes nothing; otherwise returns the top element and leaves the remaining elements with the size one less |
| Containers.StackPeek | git_sim/data_structures.py:82-84 | None exactly when the stack is empty, otherwise the top element |
| Containers.StackIsEmpty | git_sim/data_structures.py:86-88 | the size test answers true exactly when no element is stored |
| Containers.StackClear | git_sim/data_structures.py:90-93 | a cleared stack holds nothing and has size 0 |
| Containers.PopUndoesPush | git_sim/data_structures.py:66-80 | pop after push returns the pushed element and the original stack |
| Containers.AppendChain | git_sim/data_structures.py:100-109 | walking to the last cell and linking a new one adds the element at the end |
| Containers.Append | git_sim/data_structures.py:100-109 | the list's elements become the old elements followed by the new one |
| Containers.RemoveChain | git_sim/data_structures.py:111-126 | reports success exactly when the element occurs; then exactly its first occurrence is unlinked, otherwise the chain is unchanged |
| Containers.Remove | git_sim/data_structures.py:111-126 | the list-level remove, with the same promise |
| Containers.Find | git_sim/data_structures.py:128-135 | None exactly when the element is absent; otherwise the cell of its first occurrence, whose chain is the list's tail from there |
| Containers.ToList | git_sim/data_structures.py:137-144 | the loop collects the elements in link order, as many as there are cells |
| Containers.EmptyQueue | git_sim/data_structures.py:16-19 | a new queue is well formed and empty |
| Containers.LinkExtendsWalk | git_sim/data_structures.py:27-29 | linking a new cell after the last one extends the walk from the front by that element and makes it the new last cell |
| Containers.Enqueue | git_sim/data_structures.py:21-30 | the queue stays well formed, its contents gain the element at the rear, the size grows by one |
| Containers.Dequeue | git_sim/data_structures.py:32-44 | on an empty queue returns None and changes nothing; otherwise returns the front element and keeps the rest in order, with rear cleared when the queue empties |
| Containers.QueuePeek | git_sim/data_structures.py:46-48 | None exactly when the queue is empty, otherwise the front element |
| Containers.QueueIsEmpty | git_sim/data_structures.py:50-52 | the size test answers true exactly when the queue holds nothing |
| Containers.QueueClear | git_sim/data_structures.py:54-58 | a cleared queue is well formed, empty, size 0, with no front or rear |
| Containers.EnqueueThenDequeue | git_sim/data_structures.py:21-44 | FIFO: after an enqueue, dequeue returns the oldest element (the new one if the queue was empty) and keeps the others in order |
| BranchTree.Nodes | git_sim/tree_structures.py:36-46 | the preorder node sequence starts at the branch itself |
| BranchTree.NameBagMatchesNodes | git_sim/tree_structures.py:36-46 | a name occurs in the tree's name multiset exactly when some node in preorder carries it |
| BranchTree.AddChild | git_sim/tree_structures.py:19-23 | the new child is a fresh, unmerged branch without commits, appended after the existing children; nothing else changes |
| BranchTree.RemoveChild | git_sim/tree_structures.py:25-34 | removes exactly when the first child with that name is merged, and then removes only that child; otherwise the branch is unchanged |
| BranchTree.AddCommit | git_sim/tree_structures.py:48-50 | the commit is appended after the existing ones; name, children and merged flag are unchanged |
| BranchTree.FindBranch | git_sim/tree_structures.py:36-46 | None exactly when no node has the name; otherwise the first such node in preorder |
| BranchTree.FindIn | git_sim/tree_structures.py:41-45 | the same for the children, searched left to right |
| BranchTree.OutlineFollowsNodes | git_sim/tree_structures.py:52-58 | the listing's outline names the nodes in preorder, starting with the branch itself at depth 0 |
| BranchTree.ListingIsIndentedPreorder | git_sim/tree_structures.py:52-58 | the listing is the preorder of the names, each indented by two spaces per level, one line per node |
| BranchTree.ListingOfIsIndentedPreorder | git_sim/tree_structures.py:55-57 | the children's listings together are their outlines rendered one level deeper |
| BranchTree.AddChildListing | git_sim/tree_structures.py:19-58 | adding a child appends exactly one line, the child's name indented once, to the listing |
| BranchTree.AddUnder | git_sim/repository.py:117-126 | creating a branch under the first node with the parent's name succeeds exactly when that name exists, and then adds exactly one name; otherwise the tree is unchanged |
| BranchTree.AddUnderKeepsNamesUnique | git_sim/repository.py:117-126 | creating a branch whose name is not yet used keeps all names distinct, and the new branch can then be found |
| BranchTree.RemoveMergedChild | git_sim/repository.py:143-153 | the step `delete_branch` takes at the parent: removing a direct child happens exactly when the first child with that name is merged; afterwards the name can no longer be found and the names stay distinct; an unmerged or missing child changes nothing |
| ContributorTree.Insert | git_sim/tree_structures.py:69-81 | the tree gains exactly the new entry, the root stays the root, and the search-tree order is kept |
| ContributorTree.Find | git_sim/tree_structures.py:83-93 | a found entry carries the name and is stored; in an ordered tree something is found exactly when an entry has the name |
| ContributorTree.ListAll | git_sim/tree_structures.py:95-105 | the listing holds every entry exactly once and starts with the root |
| ContributorTree.ListAlphabetical | git_sim/tree_structures.py:95-96 | the corrected listing holds every entry exactly once and is sorted by name in an ordered tree |
| ContributorTree.PreorderListingIsNotAlphabetical | git_sim/tree_structures.py:95-105 | after inserting "2" then "1" the listing as written is not sorted, while the corrected one is |
| ContributorTree.MinEntry | git_sim/tree_structures.py:107-112 | the leftmost entry is stored and, in an ordered tree, has the smallest name |
| ContributorTree.FindMinEntry | git_sim/tree_structures.py:83-112 | searching for the minimum's name finds the minimum itself |
| ContributorTree.Delete | git_sim/tree_structures.py:114-141 | deleting an absent name changes nothing; deleting the only node leaves the empty tree |
| ContributorTree.DeleteKeepsOrder | git_sim/tree_structures.py:114-141 | deletion keeps the search-tree order and removes exactly the entries it claims to remove |
| ContributorTree.DeleteLeftKeepsOrder | git_sim/tree_structures.py:116-118 | the same when the name is smaller than the root's |
| ContributorTree.DeleteRightKeepsOrder | git_sim/tree_structures.py:119-121 | the same when the name is larger than the root's |
| ContributorTree.DeleteTrivial | git_sim/tree_structures.py:122-131 | the same when the root has the name and at most one child |
| ContributorTree.DeleteBySuccessorKeepsOrder | git_sim/tree_structures.py:133-139 | the same when the root has two children and takes its in-order successor's entry |
| ContributorTree.DeleteRemovesOneEntry | git_sim/tree_structures.py:114-141 | in an ordered tree, deleting a present name removes exactly one entry with that name; an absent name leaves the tree unchanged |
| BTree.LowerBound | git_sim/tree_structures.py:166-168 | the scan stops at the first key not smaller than the sought key, every key before it being smaller |
| BTree.Lift | git_sim/tree_structures.py:181-185 | a new root over the old one keeps the shape and the in-order items and adds one level |
| BTree.Glue | git_sim/tree_structures.py:369-389 | joining two equally deep nodes around a separator keeps their items in order around it, with the shape and depth |
| BTreeSearch.SearchFindsStored | git_sim/tree_structures.py:161-176 | whatever the search returns is stored in the tree under that key |
| BTreeSearch.SearchMissesOnlyAbsent | git_sim/tree_structures.py:161-176 | in a sorted tree the search reports None only for keys that are not stored |
| BTreeSearch.SearchFindsPresent | git_sim/tree_structures.py:161-176 | in a sorted tree the search finds something exactly when the key is stored |
| BTreeSearch.SearchIsMembership | git_sim/tree_structures.py:161-176 | with strictly increasing keys the search returns v exactly when (key, v) is stored |
| BTreeInsert.UpperSlot | git_sim/tree_structures.py:219-221 | the descent index lies after every key not larger than the new key and before every larger key |
| BTreeInsert.LowerHalf | git_sim/tree_structures.py:203-207 | the left half of a split full node keeps its depth and t-1 keys |
| BTreeInsert.UpperHalf | git_sim/tree_structures.py:195-201 | the new right sibling keeps the depth and gets t-1 keys |
| BTreeInsert.SplitChild | git_sim/tree_structures.py:189-207 | the median moves up between the two halves at the child's position; the other keys and children keep their places; shape and height are kept |
| BTreeInsert.SplitKeepsFlat | git_sim/tree_structures.py:189-207 | splitting a child leaves the in-order items unchanged |
| BTreeInsert.HalvesRejoin | git_sim/tree_structures.py:189-207 | gluing the two halves back around the median gives the original node: split is undone by merge |
| BTreeInsert.SplitBounds | git_sim/tree_structures.py:189-207 | splitting keeps the degree bounds |
| BTreeInsert.Descend | git_sim/tree_structures.py:218-228 | the descent slot lies between the keys around the new key; the node keeps its items, shape and bounds, and the chosen child has room when the node was within bounds |
| BTreeInsert.InsertNonFull | git_sim/tree_structures.py:209-230 | insertion below a node keeps its shape and height |
| BTreeInsert.Insert | git_sim/tree_structures.py:178-187 | the result is well shaped and one level deeper exactly when the root was full |
| BTreeInsert.InsertNonFullIsInsertion | git_sim/tree_structures.py:209-230 | the in-order items gain exactly the new item, at some position; that the keys stay sorted is `BTreeInsert.InsertNonFullSorted` |
| BTreeInsert.InsertIsInsertion | git_sim/tree_structures.py:178-230 | the same for the whole insert, including the split of a full root |
| BTreeInsert.InsertNonFullShape | git_sim/tree_structures.py:209-230 | the node keeps its shape and height and gains at most one key, a leaf exactly one |
| BTreeInsert.InsertNonFullAtMost | git_sim/tree_structures.py:209-230 | no node exceeds 2t-1 keys after insertion into a non-full node |
| BTreeInsert.InsertNonFullAtLeast | git_sim/tree_structures.py:209-230 | no non-root node drops below t-1 keys |
| BTreeInsert.InsertNonFullSorted | git_sim/tree_structures.py:209-230 | insertion keeps the in-order keys sorted |
| BTreeInsert.InsertKeepsValid | git_sim/tree_structures.py:178-230 | insertion keeps the B-tree invariant and grows the height only when the root was full |
| BTreeInsert.InsertThenSearch | git_sim/tree_structures.py:161-230 | after inserting a fresh key the search returns its value |
| BTreeInsert.InsertFreshKeepsStrict | git_sim/tree_structures.py:178-230 | inserting a fresh key keeps the keys strictly increasing |
| BTreeInsert.AppendToLeaf | git_sim/tree_structures.py:209-215 | into a non-full leaf, a key not smaller than all stored ones is appended at the end |
| BTreeInsert.SixthInsertSplitsRoot | git_sim/tree_structures.py:178-230 | with t = 3, six ascending insertions give root [3] over children [1, 2] and [4, 5, 6] |
| BTreeInsert.DuplicateInsertKeepsFirstValue | git_sim/tree_structures.py:209-215 | with t = 2, inserting key 1 twice into an empty tree gives one leaf with the first copy then the second, and the search returns the first value |
| BTreeInsert.DuplicateOfMedianGoesFirst | git_sim/tree_structures.py:209-230 | with t = 2, inserting again a key that a full leaf holds in its middle splits the leaf, moves the old copy up and puts the new copy before it in key order; the search still returns the old value |
| BTreeDelete.Predecessor | git_sim/tree_structures.py:302-307 | the rightmost walk ends on the last in-order item of the subtree |
| BTreeDelete.Successor | git_sim/tree_structures.py:309-314 | the leftmost walk ends on the first in-order item of the subtree |
| BTreeDelete.Merge | git_sim/tree_structures.py:369-389 | the two children and their separator become one child; the node loses one key and one child; shape and height are kept |
| BTreeDelete.MergeThenExpand | git_sim/tree_structures.py:369-389 | splitting the merged child back around the separator gives the original node |
| BTreeDelete.MergeKeepsFlat | git_sim/tree_structures.py:369-389 | merging leaves the in-order items unchanged |
| BTreeDelete.MergeAtLeast | git_sim/tree_structures.py:369-389 | merging keeps the lower degree bound |
| BTreeDelete.MergeAtMost | git_sim/tree_structures.py:369-389 | merging two children with fewer than t keys keeps the upper bound |
| BTreeDelete.BorrowFromPrev | git_sim/tree_structures.py:335-350 | the child gains one key and its left sibling loses one, through the separator |
| BTreeDelete.BorrowFromPrevShape | git_sim/tree_structures.py:335-350 | borrowing from the left keeps the shape and height |
| BTreeDelete.BorrowFromPrevKeepsFlat | git_sim/tree_structures.py:335-350 | borrowing from the left leaves the in-order items unchanged |
| BTreeDelete.BorrowFromPrevAtLeast | git_sim/tree_structures.py:335-350 | borrowing from a left sibling with at least t keys keeps the lower bound |
| BTreeDelete.BorrowFromPrevAtMost | git_sim/tree_structures.py:335-350 | borrowing into a child with fewer than t keys keeps the upper bound |
| BTreeDelete.BorrowFromNext | git_sim/tree_structures.py:352-367 | the child gains one key and its right sibling loses one, through the separator |
| BTreeDelete.BorrowFromNextShape | git_sim/tree_structures.py:352-367 | borrowing from the right keeps the shape and height |
| BTreeDelete.BorrowFromNextKeepsFlat | git_sim/tree_structures.py:352-367 | borrowing from the right leaves the in-order items unchanged |
| BTreeDelete.BorrowFromNextAtLeast | git_sim/tree_structures.py:352-367 | borrowing from a right sibling with at least t keys keeps the lower bound |
| BTreeDelete.BorrowFromNextAtMost | git_sim/tree_structures.py:352-367 | borrowing into a child with fewer than t keys keeps the upper bound |
| BTreeDelete.Fill | git_sim/tree_structures.py:316-333 | filling a child loses at most one key of the node and keeps its shape and height |
| BTreeDelete.FillKeepsFlat | git_sim/tree_structures.py:316-333 | filling leaves the in-order items unchanged |
| BTreeDelete.FillAtLeast | git_sim/tree_structures.py:316-333 | filling keeps the lower degree bound |
| BTreeDelete.FillAtMost | git_sim/tree_structures.py:316-333 | filling an under-full child keeps the upper bound |
| BTreeDelete.FillRoom | git_sim/tree_structures.py:316-333 | after filling, the child that now covers the old child's items holds at least t keys |
| BTreeDelete.Prepare | git_sim/tree_structures.py:258-274 | before descending, the node keeps its items and bounds and the chosen child holds at least t keys and everything the old child held, including after a merge with the last child |
| BTreeDelete.DeleteShape | git_sim/tree_structures.py:240-274 | deletion below a node keeps the shape, the height and the lower bound, and the node loses at most one key |
| BTreeDelete.DeleteInternalShape | git_sim/tree_structures.py:276-300 | the same for deleting a key held by an internal node |
| BTreeDelete.DeleteAtMost | git_sim/tree_structures.py:240-274 | deletion keeps the upper degree bound |
| BTreeDelete.DeleteInternalAtMost | git_sim/tree_structures.py:276-300 | the same for an internal node's key |
| BTreeDelete.DeleteRemoves | git_sim/tree_structures.py:240-274 | with strictly increasing keys, deletion removes exactly the item with the key, if any |
| BTreeDelete.DeleteInternalRemoves | git_sim/tree_structures.py:276-300 | an internal node's key is removed exactly, whether it is replaced by the predecessor, by the successor, or merged away |
| BTreeDelete.PredecessorStep | git_sim/tree_structures.py:283-289 | replacing the key by its predecessor and deleting that from the left child removes exactly the key |
| BTreeDelete.SuccessorStep | git_sim/tree_structures.py:291-297 | replacing the key by its successor and deleting that from the right child removes exactly the key |
| BTreeDelete.MergeStep | git_sim/tree_structures.py:298-300 | merging around the key and deleting it from the merged child removes exactly the key |
| BTreeDelete.DeleteTree | git_sim/tree_structures.py:232-238 | the root left by delete is well shaped, also when an emptied internal root is replaced by its only child |
| BTreeDelete.DeleteTreeShape | git_sim/tree_structures.py:232-238 | the new root is deletable again, at the same height or one lower, and keeps the upper bound |
| BTreeDelete.DeleteTreeRemoves | git_sim/tree_structures.py:232-300 | with strictly increasing keys, delete removes exactly the item with the key |
| BTreeDelete.DeleteKeepsValid | git_sim/tree_structures.py:232-300 | delete keeps the B-tree invariant and strictly increasing keys |
| BTreeDelete.DeleteThenSearch | git_sim/tree_structures.py:232-300 | after delete the key is no longer found, and every other key is found exactly as before |
| BTreeTraverse.LeafWalkBag | git_sim/tree_structures.py:396-400 | at a leaf the walk lists exactly the remaining keys |
| BTreeTraverse.InnerWalkBag | git_sim/tree_structures.py:396-404 | at an internal node the walk lists the remaining keys and every item of the children it passes |
| BTreeTraverse.PreorderBag | git_sim/tree_structures.py:391-405 | the traversal lists every stored item exactly once |
| BTreeTraverse.WalkLevels | git_sim/tree_structures.py:396-404 | the walk's levels lie between the node's level and the leaves' level |
| BTreeTraverse.PreorderLevels | git_sim/tree_structures.py:391-405 | every listed level lies between the root's level and the root's level plus the height |
| BTreeTraverse.LeafWalkLeveled | git_sim/tree_structures.py:396-398 | at a leaf the walk lists exactly the remaining keys, each at the leaf's level |
| BTreeTraverse.InnerWalkLeveled | git_sim/tree_structures.py:396-400 | at an internal node the walk lists the remaining keys at the node's level and every item of the children it passes, each at the depth of the node holding it |
| BTreeTraverse.PreorderLeveled | git_sim/tree_structures.py:391-405 | the traversal lists every stored item exactly once, paired with the depth of the node holding it (the reference `Leveled`) |
| BTreeTraverse.RootKeysAtStart | git_sim/tree_structures.py:397-398 | every key of the starting node is listed at the starting level |
| BTreeDeleteRuns.DeleteRootKeyTakesSuccessor | git_sim/tree_structures.py:276-297 | with t = 3, deleting root key 3 from [3] over [1, 2], [4, 5, 6] moves 4 up: root [4] over [1, 2], [5, 6] |
| BTreeDeleteRuns.DeleteAbsentFromSmall | git_sim/tree_structures.py:240-274 | with t = 2, deleting a key larger than all three in a root over two one-key leaves merges everything into one leaf |
| BTreeDeleteRuns.DeleteAbsentChangesTraversal | git_sim/tree_structures.py:232-274 | deleting an absent key keeps the items but changes the tree and its preorder listing |
| BTreeDeleteRuns.DeleteAbsentKeepsItems | git_sim/tree_structures.py:232-274 | with strictly increasing keys, deleting an absent key keeps the in-order items |
| AvlTree.Mk | git_sim/tree_structures.py:481-482 | a rebuilt node caches one more than the larger child height, lists its left subtree, itself and its right subtree in order, and is AVL when its subtrees are AVL and differ in height by at most one |
| AvlTree.CachedHeightIsDepth | git_sim/tree_structures.py:426-430 | in an AVL tree the cached heights equal the real depths |
| AvlTree.AvlHasMinNodes | git_sim/tree_structures.py:416-420 | an AVL tree of height h has at least the minimum node count of that height |
| AvlTree.AvlIsShallow | git_sim/tree_structures.py:416-420 | an AVL tree with n nodes has height at most about 2 log2(n + 1) |
| AvlTree.RightRotate | git_sim/tree_structures.py:432-445 | the right rotation keeps the in-order sequence |
| AvlTree.LeftRotate | git_sim/tree_structures.py:447-460 | the left rotation keeps the in-order sequence |
| AvlTree.Rebalance | git_sim/tree_structures.py:542-564 | rebalancing keeps the in-order sequence and leaves a node with balance in -1..1 unchanged |
| AvlTree.RebalanceIsAvl | git_sim/tree_structures.py:542-564 | rebalancing a node whose subtrees are AVL and differ by at most 2 gives an AVL tree of the same height or one less |
| AvlTree.SingleRightIsAvl | git_sim/tree_structures.py:547-548 | the left-left case ends balanced |
| AvlTree.DoubleRightIsAvl | git_sim/tree_structures.py:551-553 | the left-right case ends balanced and one level lower |
| AvlTree.SingleLeftIsAvl | git_sim/tree_structures.py:556-557 | the right-right case ends balanced |
| AvlTree.DoubleLeftIsAvl | git_sim/tree_structures.py:560-562 | the right-left case ends balanced and one level lower |
| AvlTree.RebalanceInsert | git_sim/tree_structures.py:484-506 | after an insertion, choosing the rotation by comparing the new key with the child's key does what the balance-based choice does |
| AvlTree.Insert | git_sim/tree_structures.py:466-506 | insertion keeps the tree AVL and grows its height by at most one |
| AvlTree.SetValue | git_sim/tree_structures.py:472-479 | the reference for re-inserting a stored key: only that node's value changes, so the height and the AVL property are kept |
| AvlTree.InsertPresentIsSetValue | git_sim/tree_structures.py:466-506 | inserting a key the tree holds changes that node's value and nothing else: no rotation, no height change |
| AvlTree.SetValuePostorder | git_sim/tree_structures.py:592-603 | after such a value change the postorder listing is the same sequence with only that key's pair carrying the new value |
| AvlTree.InsertIsUpsert | git_sim/tree_structures.py:466-506 | in an ordered tree the in-order pairs are updated at the key, or gain the pair, and stay ordered |
| AvlTree.MinPair | git_sim/tree_structures.py:572-577 | the leftmost node holds the first in-order pair |
| AvlTree.DeleteIsRemoveKey | git_sim/tree_structures.py:512-564 | in an ordered tree deletion removes exactly the pair with the key from the in-order sequence |
| AvlTree.DeleteKeepsOrder | git_sim/tree_structures.py:512-564 | deletion keeps the tree ordered |
| AvlTree.DeleteKeepsAvl | git_sim/tree_structures.py:512-564 | deletion keeps the tree AVL and lowers its height by at most one |
| AvlTree.Search | git_sim/tree_structures.py:583-590 | a found value is stored under the key |
| AvlTree.SearchIsLookup | git_sim/tree_structures.py:583-590 | in an ordered tree the search is association-list lookup |
| AvlTree.InsertThenSearch | git_sim/tree_structures.py:462-590 | after insertion the key maps to the new value and every other key keeps its lookup |
| AvlTree.DeleteThenSearch | git_sim/tree_structures.py:508-590 | after deletion the key is absent and every other key keeps its lookup |
| AvlTree.DeleteAbsentIsIdentity | git_sim/tree_structures.py:512-564 | deleting a key an AVL tree does not hold gives back the same tree, so its postorder listing is unchanged too |
| AvlTree.Postorder | git_sim/tree_structures.py:592-603 | the postorder listing holds every pair exactly once and ends with the root |
| AvlTree.LookupUpsert | git_sim/tree_structures.py:476-479 | the reference update: the key maps to the new value, others keep theirs |
| AvlTree.LookupRemoveKey | git_sim/tree_structures.py:522-533 | the reference removal: the key maps to nothing, others keep theirs |
| RoleManager.NewManager | git_sim/tree_structures.py:607-609 | a new manager is valid, with no roles; no user has a role and the user listing is empty |
| RoleManager.AddRole | git_sim/tree_structures.py:611-613 | the role is defined, or redefined, with exactly the given permissions; other roles and the users are unchanged |
| RoleManager.AssignRole | git_sim/tree_structures.py:615-620 | fails with the undefined-role error exactly when the role is not defined; otherwise stays valid and keeps the roles |
| RoleManager.GetUserRole | git_sim/tree_structures.py:622-625 | a returned role is the one stored for the user |
| RoleManager.CheckPermission | git_sim/tree_structures.py:627-633 | a permission is granted only to a user whose role name is non-empty and whose role has it |
| RoleManager.ListUsersWithRoles | git_sim/tree_structures.py:635-637 | the listing holds every user-role pair exactly once |
| RoleManager.AssignThenGet | git_sim/tree_structures.py:615-625 | assigning a defined role succeeds, the user then has that role, and every other user keeps theirs |
| RoleManager.DefinedRoleGrantsItsPermissions | git_sim/tree_structures.py:611-633 | a user given a role with a non-empty name has exactly that role's permissions |
| RoleManager.EmptyRoleNameGrantsNothing | git_sim/tree_structures.py:627-633 | a role named by the empty string grants nothing, whatever its permissions |
| RoleManager.ListedUsersHoldTheirRoles | git_sim/tree_structures.py:622-637 | a user-role pair is listed exactly when the user holds that role |
| RoleManager.ReassignOnlyRelabels | git_sim/tree_structures.py:615-637 | giving a new role to a user who has one keeps the user tree's shape, and the user listing keeps its order with only that user's role replaced |

## Left out

- Persistence, the command line, configuration and the rest of
  `git_sim/repository.py` are not part of this model. Branch creation
  under the current branch is modelled by `BranchTree.AddUnder`. For
  branch deletion only the step at the parent is modelled
  (`BranchTree.RemoveMergedChild`). The search for that parent at any
  depth through `find_branch` and the `parent` reference is not.
- Keys are integers. The source orders Python strings (names, e-mails,
  hashes); only their total order matters here.
- The B-tree's minimum degree is a parameter of each operation rather
  than a field of each node. The `leaf` flag is derived from the
  children list.
- `BranchNode.parent` is not stored. A branch's parent is the node whose
  children contain it.
- Mutation through shared references becomes returned values. The
  alias `find_branch` returns, later changed by `add_child`, becomes
  `BranchTree.AddUnder`, which adds under the first node in preorder
  with the parent's name.
- The `ValueError` raised by `assign_role` becomes a failure result
  carrying the error text.
- Commit objects are represented by their identifiers.
- BTreeDelete.DeleteTreeRemoves: states the removed content only for
  strictly increasing keys. With duplicate keys the predecessor or
  successor step can move a copy of the key, and the code does not
  promise which item goes.
- BTreeDelete.DeleteKeepsValid: same restriction to strictly increasing
  keys. The shape and bound facts alone (`BTreeDelete.DeleteTreeShape`)
  hold for any keys.
- BTreeDelete.DeleteThenSearch: same restriction to strictly increasing
  keys.
- BTreeDelete.DeleteShape: requires a minimum degree of at least 2. With
  t = 1, `_delete` can index an empty node.
- BTreeInsert.InsertThenSearch: requires the key to be absent. For a
  present key the search can return an older value, as the two
  duplicate-key examples show.
- BTreeInsert.DuplicateInsertKeepsFirstValue: shows one leaf instance only, and
  `BTreeInsert.DuplicateOfMedianGoesFirst` one split instance. No lemma
  over all inputs says where a second copy lands or which value the
  search returns for a duplicated key.
- AvlTree.Insert: requires an AVL tree, which every tree the class
  builds is. The rebalancing by key comparison is only correct under
  that condition.
- AvlTree.Delete: the function carries no contract of its own. Its
  properties are the lemmas `AvlTree.DeleteIsRemoveKey`,
  `AvlTree.DeleteKeepsOrder` and `AvlTree.DeleteKeepsAvl`.
- BTreeDelete.Delete: likewise has no contract of its own. Its
  properties are `BTreeDelete.DeleteShape` and `BTreeDelete.DeleteRemoves`.
- BTreeDelete.DeleteInternal (`_delete_internal_node`,
  git_sim/tree_structures.py:276-300): no contract of its own. Its
  properties are `BTreeDelete.DeleteInternalShape`,
  `BTreeDelete.DeleteInternalAtMost` and `BTreeDelete.DeleteInternalRemoves`.
- BTreeSearch.Search (`BTree.search`): no contract of its own. Its
  properties are `BTreeSearch.SearchFindsStored`,
  `BTreeSearch.SearchMissesOnlyAbsent`, `BTreeSearch.SearchFindsPresent`
  and `BTreeSearch.SearchIsMembership`.
- BTreeTraverse.Preorder and BTreeTraverse.Walk (`traverse_preorder`):
  no contract of their own. Their properties are
  `BTreeTraverse.PreorderBag`, `BTreeTraverse.PreorderLevels`,
  `BTreeTraverse.InnerWalkBag`, `BTreeTraverse.LeafWalkBag`,
  `BTreeTraverse.WalkLevels` and, for the exact level of each item,
  `BTreeTraverse.PreorderLeveled`, `BTreeTraverse.InnerWalkLeveled` and
  `BTreeTraverse.LeafWalkLeveled`.
- BranchTree.Listing (`get_all_branches`): no contract of its own. Its
  properties are `BranchTree.ListingIsIndentedPreorder` and
  `BranchTree.AddChildListing`.
- `get_balance` and `_height` are folded into the height and balance
  functions that the AVL contracts use.

## Findings

| source | as written | input that shows it | evidently intended | confidence | as-written member | corrected member |
|---|---|---|---|---|---|---|
| git_sim/tree_structures.py:95-105 | `get_all_contributors` lists the root, then the left subtree, then the right subtree (preorder) | insert contributors "2" then "1": the listing is 2, 1 | the documented alphabetical order, which the in-order walk of a binary search tree gives | medium; not executed | ContributorTree.PreorderListingIsNotAlphabetical | ContributorTree.ListAlphabetical |

=== FILE: avl_tree.dfy ===
/** The AVL tree of `git_sim/tree_structures.py` (`AVLNode`, `AVLTree`),
    which the role manager uses to map user e-mails to role names.

    Every node caches its height; an empty subtree (Python `None`) has
    height 0 and a fresh node height 1.  Keys are the e-mails; they are
    integers here, ordered the way the source orders its e-mail strings.
    The value type is left open.

    The reference model is a strictly sorted association list: in-order
    traversal of the tree must behave like that list under update, removal
    and lookup. */
module AvlTree {
  import opened Options

  type Key = int

  datatype Tree<V> = Leaf | Node(left: Tree<V>, key: Key, value: V, right: Tree<V>, height: nat)

  datatype Pair<V> = Pair(key: Key, value: V)

  function Max(a: int, b: int): int { if a < b then b else a }

  /** `_height`: the cached height, 0 for an empty subtree. */
  function H<V>(t: Tree<V>): nat
  {
    if t.Leaf? then 0 else t.height
  }

  /** A node whose height is recomputed from its children, as the source
      does after every structural change. */
  function Mk<V>(l: Tree<V>, k: Key, v: V, r: Tree<V>): (n: Tree<V>)
    ensures n.Node? && H(n) == 1 + Max(H(l), H(r))
    ensures InOrder(n) == InOrder(l) + [Pair(k, v)] + InOrder(r)
    ensures Avl(l) && Avl(r) && -1 <= H(l) - H(r) <= 1 ==> Avl(n)
  {
    Node(l, k, v, r, 1 + Max(H(l), H(r)))
  }

  /** `get_balance` / `_get_balance`: left height minus right height, 0 for
      an empty subtree. */
  function GetBalance<V>(t: Tree<V>): int
  {
    if t.Leaf? then 0 else H(t.left) - H(t.right)
  }

  /** The height counted edge by edge, independent of the cached field. */
  function Depth<V>(t: Tree<V>): nat
  {
    if t.Leaf? then 0 else 1 + Max(Depth(t.left), Depth(t.right))
  }

  function Size<V>(t: Tree<V>): nat
  {
    if t.Leaf? then 0 else Size(t.left) + 1 + Size(t.right)
  }

  /** The AVL invariant: every cached height is right and the two subtrees
      of every node differ in height by at most one. */
  predicate Avl<V>(t: Tree<V>)
  {
    match t
    case Leaf => true
    case Node(l, _, _, r, h) =>
      && Avl(l) && Avl(r)
      && h == 1 + Max(H(l), H(r))
      && -1 <= H(l) - H(r) <= 1
  }

  /** The cached heights of an AVL tree are its true heights. */
  lemma {:induction false} CachedHeightIsDepth<V>(t: Tree<V>)
    requires Avl(t)
    ensures H(t) == Depth(t)
  {
    if t.Node? {
      CachedHeightIsDepth(t.left);
      CachedHeightIsDepth(t.right);
    }
  }

  /** The fewest nodes an AVL tree of height `h` can hold. */
  function MinNodes(h: nat): nat
  {
    if h == 0 then 0 else if h == 1 then 1 else 1 + MinNodes(h - 1) + MinNodes(h - 2)
  }

  lemma {:induction false} MinNodesGrows(h: nat)
    ensures MinNodes(h) <= MinNodes(h + 1)
  {
    if h >= 1 {
      MinNodesGrows(h - 1);
    }
  }

  function Pow2(n: nat): nat { if n == 0 then 1 else 2 * Pow2(n - 1) }

  lemma {:induction false} MinNodesDoubles(h: nat)
    ensures MinNodes(h) + 1 >= Pow2(h / 2)
  {
    if h >= 2 {
      MinNodesDoubles(h - 2);
      MinNodesGrows(h - 2);
      assert h / 2 == (h - 2) / 2 + 1;
    }
  }

  /** An AVL tree of height `h` holds at least `MinNodes(h)` entries. */
  lemma {:induction false} AvlHasMinNodes<V>(t: Tree<V>)
    requires Avl(t)
    ensures Size(t) >= MinNodes(H(t))
  {
    if t.Node? {
      AvlHasMinNodes(t.left);
      AvlHasMinNodes(t.right);
      var hl, hr, h := H(t.left), H(t.right), H(t);
      assert Size(t) == Size(t.left) + 1 + Size(t.right);
      if h >= 2 {
        assert MinNodes(h) == 1 + MinNodes(h - 1) + MinNodes(h - 2);
        MinNodesGrows(h - 2);
        if hl < hr {
          assert hr == h - 1 && hl == h - 2;
        } else if hr < hl {
          assert hl == h - 1 && hr == h - 2;
        } else {
          assert hl == h - 1 && hr == h - 1;
        }
      }
    }
  }

  /** Hence an AVL tree of height `h` holds at least 2^(h/2) - 1 entries:
      searches walk a logarithmic path. */
  lemma AvlIsShallow<V>(t: Tree<V>)
    requires Avl(t)
    ensures Size(t) + 1 >= Pow2(H(t) / 2)
  {
    AvlHasMinNodes(t);
    MinNodesDoubles(H(t));
  }

  // ---------------------------------------------------------------------
  // the reference model: a strictly sorted association list
  // ---------------------------------------------------------------------

  function InOrder<V>(t: Tree<V>): seq<Pair<V>>
  {
    if t.Leaf? then [] else InOrder(t.left) + [Pair(t.key, t.value)] + InOrder(t.right)
  }

  ghost predicate Sorted<V>(s: seq<Pair<V>>)
  {
    forall i, j :: 0 <= i < j < |s| ==> s[i].key < s[j].key
  }

  /** Search-tree order: the in-order keys strictly increase. */
  ghost predicate Ordered<V>(t: Tree<V>)
  {
    Sorted(InOrder(t))
  }

  /** Put `Pair(k, v)` in its place, replacing the pair with key `k`. */
  function Upsert<V>(s: seq<Pair<V>>, k: Key, v: V): seq<Pair<V>>
  {
    if s == [] then [Pair(k, v)]
    else if k < s[0].key then [Pair(k, v)] + s
    else if k == s[0].key then [Pair(k, v)] + s[1..]
    else [s[0]] + Upsert(s[1..], k, v)
  }

  function RemoveKey<V>(s: seq<Pair<V>>, k: Key): seq<Pair<V>>
  {
    if s == [] then []
    else if s[0].key == k then RemoveKey(s[1..], k)
    else [s[0]] + RemoveKey(s[1..], k)
  }

  function Lookup<V>(s: seq<Pair<V>>, k: Key): Option<V>
  {
    if s == [] then None
    else if s[0].key == k then Some(s[0].value)
    else Lookup(s[1..], k)
  }

  /** The association list behaves as a map under `Upsert`. */
  lemma {:induction false} LookupUpsert<V>(s: seq<Pair<V>>, k: Key, v: V, k': Key)
    ensures Lookup(Upsert(s, k, v), k') == if k' == k then Some(v) else Lookup(s, k')
  {
    if s != [] && k > s[0].key {
      LookupUpsert(s[1..], k, v, k');
    }
  }

  /** The association list behaves as a map under `RemoveKey`. */
  lemma {:induction false} LookupRemoveKey<V>(s: seq<Pair<V>>, k: Key, k': Key)
    ensures Lookup(RemoveKey(s, k), k') == if k' == k then None else Lookup(s, k')
  {
    if s != [] {
      LookupRemoveKey(s[1..], k, k');
    }
  }

  ghost predicate Above<V>(s: seq<Pair<V>>, lo: Key)
  {
    forall i :: 0 <= i < |s| ==> lo < s[i].key
  }

  lemma {:induction false} UpsertAbove<V>(s: seq<Pair<V>>, k: Key, v: V, lo: Key)
    requires Above(s, lo) && lo < k
    ensures Above(Upsert(s, k, v), lo)
  {
    if s != [] && k > s[0].key {
      UpsertAbove(s[1..], k, v, lo);
    }
  }

  lemma SortedCons<V>(p: Pair<V>, s: seq<Pair<V>>)
    requires Sorted(s) && Above(s, p.key)
    ensures Sorted([p] + s)
  {
    assert forall j :: 0 < j < |[p] + s| ==> ([p] + s)[j] == s[j - 1];
  }

  lemma SortedTail<V>(s: seq<Pair<V>>)
    requires Sorted(s) && s != []
    ensures Sorted(s[1..]) && Above(s[1..], s[0].key)
  {
    assert forall j :: 0 <= j < |s[1..]| ==> s[1..][j] == s[j + 1];
  }

  lemma {:induction false} UpsertSorted<V>(s: seq<Pair<V>>, k: Key, v: V)
    requires Sorted(s)
    ensures Sorted(Upsert(s, k, v))
  {
    if s != [] {
      SortedTail(s);
      if k < s[0].key {
        assert Above(s, k);
        SortedCons(Pair(k, v), s);
      } else if k == s[0].key {
        SortedCons(Pair(k, v), s[1..]);
      } else {
        UpsertSorted(s[1..], k, v);
        UpsertAbove(s[1..], k, v, s[0].key);
        SortedCons(s[0], Upsert(s[1..], k, v));
      }
    }
  }

  lemma {:induction false} RemoveKeyAbove<V>(s: seq<Pair<V>>, k: Key, lo: Key)
    requires Above(s, lo)
    ensures Above(RemoveKey(s, k), lo)
  {
    if s != [] {
      RemoveKeyAbove(s[1..], k, lo);
    }
  }

  lemma {:induction false} RemoveKeySorted<V>(s: seq<Pair<V>>, k: Key)
    requires Sorted(s)
    ensures Sorted(RemoveKey(s, k))
  {
    if s != [] {
      SortedTail(s);
      RemoveKeySorted(s[1..], k);
      if s[0].key != k {
        RemoveKeyAbove(s[1..], k, s[0].key);
        SortedCons(s[0], RemoveKey(s[1..], k));
      }
    }
  }

  /** In a sorted list, a pair is present exactly when looking up its key
      yields its value. */
  lemma {:induction false} SortedLookup<V>(s: seq<Pair<V>>, k: Key, v: V)
    requires Sorted(s)
    ensures Pair(k, v) in s <==> Lookup(s, k) == Some(v)
  {
    if s != [] {
      SortedTail(s);
      SortedLookup(s[1..], k, v);
      if s[0].key == k {
        assert Pair(k, v) !in s[1..] by {
          assert forall i :: 0 <= i < |s[1..]| ==> s[1..][i].key != k;
        }
      }
      assert s == [s[0]] + s[1..];
    }
  }

  // list algebra used by the tree proofs

  lemma {:induction false} UpsertBefore<V>(a: seq<Pair<V>>, b: seq<Pair<V>>, k: Key, v: V)
    requires |b| > 0 && k < b[0].key
    ensures Upsert(a + b, k, v) == Upsert(a, k, v) + b
  {
    if a != [] {
      assert a + b == [a[0]] + (a[1..] + b);
      UpsertBefore(a[1..], b, k, v);
    }
  }

  lemma {:induction false} UpsertAfter<V>(a: seq<Pair<V>>, b: seq<Pair<V>>, k: Key, v: V)
    requires forall i :: 0 <= i < |a| ==> a[i].key < k
    ensures Upsert(a + b, k, v) == a + Upsert(b, k, v)
  {
    if a != [] {
      assert a + b == [a[0]] + (a[1..] + b);
      UpsertAfter(a[1..], b, k, v);
    } else {
      assert a + b == b;
    }
  }

  lemma {:induction false} RemoveKeyAppend<V>(a: seq<Pair<V>>, b: seq<Pair<V>>, k: Key)
    ensures RemoveKey(a + b, k) == RemoveKey(a, k) + RemoveKey(b, k)
  {
    if a != [] {
      assert a + b == [a[0]] + (a[1..] + b);
      RemoveKeyAppend(a[1..], b, k);
    } else {
      assert a + b == b;
    }
  }

  lemma {:induction false} RemoveAbsentKey<V>(a: seq<Pair<V>>, k: Key)
    requires forall i :: 0 <= i < |a| ==> a[i].key != k
    ensures RemoveKey(a, k) == a
  {
    if a != [] {
      RemoveAbsentKey(a[1..], k);
    }
  }

  lemma {:induction false} LookupAppend<V>(a: seq<Pair<V>>, b: seq<Pair<V>>, k: Key)
    requires forall i :: 0 <= i < |a| ==> a[i].key != k
    ensures Lookup(a + b, k) == Lookup(b, k)
  {
    if a != [] {
      assert a + b == [a[0]] + (a[1..] + b);
      LookupAppend(a[1..], b, k);
    } else {
      assert a + b == b;
    }
  }

  // ---------------------------------------------------------------------
  // rotations
  // ---------------------------------------------------------------------

  /** `_right_rotate`: the left child becomes the root; its right subtree
      moves under the old root.  Both heights are recomputed. */
  function RightRotate<V>(y: Tree<V>): (r: Tree<V>)
    requires y.Node? && y.left.Node?
    ensures InOrder(r) == InOrder(y)
  {
    var x := y.left;
    Mk(x.left, x.key, x.value, Mk(x.right, y.key, y.value, y.right))
  }

  /** `_left_rotate`: the mirror image. */
  function LeftRotate<V>(x: Tree<V>): (r: Tree<V>)
    requires x.Node? && x.right.Node?
    ensures InOrder(r) == InOrder(x)
  {
    var y := x.right;
    Mk(Mk(x.left, x.key, x.value, y.left), y.key, y.value, y.right)
  }

  /** The subtrees of a freshly re-heighted node are AVL and differ in
      height by at most two: the situation every rebalancing step starts
      from. */
  predicate NearlyAvl<V>(n: Tree<V>)
  {
    && n.Node? && Avl(n.left) && Avl(n.right)
    && n.height == 1 + Max(H(n.left), H(n.right))
    && -2 <= H(n.left) - H(n.right) <= 2
  }

  /** The rebalancing step of `_delete`: single rotation when the heavy
      child leans the same way or not at all, double rotation otherwise. */
  function Rebalance<V>(n: Tree<V>): (r: Tree<V>)
    requires n.Node?
    ensures InOrder(r) == InOrder(n)
    ensures -1 <= GetBalance(n) <= 1 ==> r == n
  {
    var balance := GetBalance(n);
    if balance > 1 && GetBalance(n.left) >= 0 then RightRotate(n)
    else if balance > 1 then RightRotate(n.(left := LeftRotate(n.left)))
    else if balance < -1 && GetBalance(n.right) <= 0 then LeftRotate(n)
    else if balance < -1 then LeftRotate(n.(right := RightRotate(n.right)))
    else n
  }

  /** Rebalancing restores the AVL invariant and lowers the height by at
      most one; the height drops exactly when the heavy child leans. */
  lemma RebalanceIsAvl<V>(n: Tree<V>)
    requires NearlyAvl(n)
    ensures Avl(Rebalance(n))
    ensures H(Rebalance(n)) == H(n) || H(Rebalance(n)) == H(n) - 1
    ensures GetBalance(n) == 2 && GetBalance(n.left) != 0 ==> H(Rebalance(n)) == H(n) - 1
    ensures GetBalance(n) == -2 && GetBalance(n.right) != 0 ==> H(Rebalance(n)) == H(n) - 1
  {
    var balance := GetBalance(n);
    if balance > 1 {
      if GetBalance(n.left) >= 0 {
        SingleRightIsAvl(n);
      } else {
        DoubleRightIsAvl(n);
      }
    } else if balance < -1 {
      if GetBalance(n.right) <= 0 {
        SingleLeftIsAvl(n);
      } else {
        DoubleLeftIsAvl(n);
      }
    }
  }

  lemma SingleRightIsAvl<V>(n: Tree<V>)
    requires NearlyAvl(n) && GetBalance(n) == 2 && GetBalance(n.left) >= 0
    ensures Avl(RightRotate(n))
    ensures H(RightRotate(n)) == if GetBalance(n.left) == 0 then H(n) else H(n) - 1
  {
    var Node(x, yk, yv, c, _) := n;
    var Node(a, xk, xv, b, _) := x;
    var y' := Mk(b, yk, yv, c);
    assert Avl(y');
    assert RightRotate(n) == Mk(a, xk, xv, y');
  }

  lemma DoubleRightIsAvl<V>(n: Tree<V>)
    requires NearlyAvl(n) && GetBalance(n) == 2 && GetBalance(n.left) < 0
    ensures n.left.right.Node?
    ensures Avl(RightRotate(n.(left := LeftRotate(n.left))))
    ensures H(RightRotate(n.(left := LeftRotate(n.left)))) == H(n) - 1
  {
    var Node(x, yk, yv, d, _) := n;
    var Node(a, xk, xv, z, _) := x;
    var Node(b, zk, zv, c, _) := z;
    assert Avl(z) && H(z) == 1 + Max(H(b), H(c)) && -1 <= H(b) - H(c) <= 1;
    assert H(a) == H(d) && H(z) == H(d) + 1;
    var x' := Mk(a, xk, xv, b);
    var y' := Mk(c, yk, yv, d);
    assert Avl(x') && Avl(y');
    assert RightRotate(n.(left := LeftRotate(n.left))) == Mk(x', zk, zv, y');
  }

  lemma SingleLeftIsAvl<V>(n: Tree<V>)
    requires NearlyAvl(n) && GetBalance(n) == -2 && GetBalance(n.right) <= 0
    ensures Avl(LeftRotate(n))
    ensures H(LeftRotate(n)) == if GetBalance(n.right) == 0 then H(n) else H(n) - 1
  {
    var Node(a, xk, xv, y, _) := n;
    var Node(b, yk, yv, c, _) := y;
    var x' := Mk(a, xk, xv, b);
    assert Avl(x');
    assert LeftRotate(n) == Mk(x', yk, yv, c);
  }

  lemma DoubleLeftIsAvl<V>(n: Tree<V>)
    requires NearlyAvl(n) && GetBalance(n) == -2 && GetBalance(n.right) > 0
    ensures n.right.left.Node?
    ensures Avl(LeftRotate(n.(right := RightRotate(n.right))))
    ensures H(LeftRotate(n.(right := RightRotate(n.right)))) == H(n) - 1
  {
    var Node(a, xk, xv, y, _) := n;
    var Node(z, yk, yv, d, _) := y;
    var Node(b, zk, zv, c, _) := z;
    assert Avl(z) && H(z) == 1 + Max(H(b), H(c)) && -1 <= H(b) - H(c) <= 1;
    assert H(a) == H(d) && H(z) == H(d) + 1;
    var x' := Mk(a, xk, xv, b);
    var y' := Mk(c, yk, yv, d);
    assert Avl(x') && Avl(y');
    assert LeftRotate(n.(right := RightRotate(n.right))) == Mk(x', zk, zv, y');
  }

  // ---------------------------------------------------------------------
  // insert
  // ---------------------------------------------------------------------

  /** What `_insert` knows about the subtree it just returned when that
      subtree grew: the key is not at its root and the side the key went
      to is the taller one by exactly one. */
  predicate LeansToward<V>(n: Tree<V>, k: Key)
  {
    n.Node? && n.key != k
    && (k < n.key ==> GetBalance(n) == 1)
    && (k > n.key ==> GetBalance(n) == -1)
  }

  /** The rebalancing step of `_insert`, which picks the rotation by
      comparing the new key with the heavy child's key. */
  function RebalanceInsert<V>(n: Tree<V>, k: Key): (r: Tree<V>)
    requires NearlyAvl(n)
    requires GetBalance(n) == 2 ==> LeansToward(n.left, k)
    requires GetBalance(n) == -2 ==> LeansToward(n.right, k)
    ensures r == Rebalance(n)
  {
    var balance := GetBalance(n);
    if balance > 1 && k < n.left.key then RightRotate(n)
    else if balance < -1 && k > n.right.key then LeftRotate(n)
    else if balance > 1 && k > n.left.key then RightRotate(n.(left := LeftRotate(n.left)))
    else if balance < -1 && k < n.right.key then LeftRotate(n.(right := RightRotate(n.right)))
    else n
  }

  /** `insert` / `_insert`: plain search-tree insertion, replacing the value
      of an existing key (the node is then returned as it was, height
      untouched), followed by rebalancing on the way up. */
  function Insert<V>(t: Tree<V>, k: Key, v: V): (r: Tree<V>)
    requires Avl(t)
    ensures Avl(r)
    ensures H(r) == H(t) || H(r) == H(t) + 1
    ensures t.Node? && H(r) == H(t) + 1 ==> LeansToward(r, k)
    ensures t.Leaf? ==> r.Node? && r.left.Leaf? && r.right.Leaf?
  {
    match t
    case Leaf => Mk(Leaf, k, v, Leaf)
    case Node(l, key, val, rt, h) =>
      if k < key then
        var l' := Insert(l, k, v);
        InsertedLeft(t, k, l');
        RebalanceInsert(Mk(l', key, val, rt), k)
      else if k > key then
        var r' := Insert(rt, k, v);
        InsertedRight(t, k, r');
        RebalanceInsert(Mk(l, key, val, r'), k)
      else
        Node(l, key, v, rt, h)
  }

  /** Reference for inserting a key the tree already holds: the node with
      the key takes the new value, and nothing else changes, neither the
      shape nor any cached height. */
  function SetValue<V>(t: Tree<V>, k: Key, v: V): (r: Tree<V>)
    ensures H(r) == H(t) && (Avl(t) ==> Avl(r))
  {
    match t
    case Leaf => Leaf
    case Node(l, key, val, rt, h) =>
      if k < key then Node(SetValue(l, k, v), key, val, rt, h)
      else if k > key then Node(l, key, val, SetValue(rt, k, v), h)
      else Node(l, key, v, rt, h)
  }

  /** A node whose two subtrees differ in height by at most one is left
      alone by `_insert`'s rebalancing step. */
  lemma BalancedStays<V>(n: Tree<V>, k: Key)
    requires NearlyAvl(n) && -1 <= GetBalance(n) <= 1
    ensures RebalanceInsert(n, k) == n
  {
  }

  /** Inserting a key the tree already holds only replaces that node's
      value: the rebalancing on the way up finds every node as balanced as
      before and changes nothing. */
  lemma {:induction false} InsertPresentIsSetValue<V>(t: Tree<V>, k: Key, v: V)
    requires Avl(t) && Search(t, k).Some?
    ensures Insert(t, k, v) == SetValue(t, k, v)
  {
    if t.Node? && k != t.key {
      if k < t.key {
        InsertPresentIsSetValue(t.left, k, v);
        var n := Mk(SetValue(t.left, k, v), t.key, t.value, t.right);
        assert n == SetValue(t, k, v);
        BalancedStays(n, k);
      } else {
        InsertPresentIsSetValue(t.right, k, v);
        var n := Mk(t.left, t.key, t.value, SetValue(t.right, k, v));
        assert n == SetValue(t, k, v);
        BalancedStays(n, k);
      }
    }
  }

  lemma SortedSlice<V>(s: seq<Pair<V>>, lo: nat, hi: nat)
    requires Sorted(s) && lo <= hi <= |s|
    ensures Sorted(s[lo..hi])
  {
    assert forall i :: 0 <= i < hi - lo ==> s[lo..hi][i] == s[lo + i];
  }

  /** One step up from an insertion into the left subtree: the node
      meets the rebalancing preconditions and the result keeps the
      promises `Insert` makes. */
  lemma InsertedLeft<V>(t: Tree<V>, k: Key, l': Tree<V>)
    requires Avl(t) && t.Node? && k < t.key && Avl(l')
    requires H(l') == H(t.left) || H(l') == H(t.left) + 1
    requires t.left.Node? && H(l') == H(t.left) + 1 ==> LeansToward(l', k)
    requires t.left.Leaf? ==> l'.Node? && l'.left.Leaf? && l'.right.Leaf?
    ensures var n := Mk(l', t.key, t.value, t.right);
            && NearlyAvl(n) && GetBalance(n) != -2
            && (GetBalance(n) == 2 ==> LeansToward(l', k))
            && Avl(Rebalance(n))
            && (H(Rebalance(n)) == H(t) || H(Rebalance(n)) == H(t) + 1)
            && (H(Rebalance(n)) == H(t) + 1 ==> LeansToward(Rebalance(n), k))
  {
    var n := Mk(l', t.key, t.value, t.right);
    RebalanceIsAvl(n);
  }

  lemma InsertedRight<V>(t: Tree<V>, k: Key, r': Tree<V>)
    requires Avl(t) && t.Node? && k > t.key && Avl(r')
    requires H(r') == H(t.right) || H(r') == H(t.right) + 1
    requires t.right.Node? && H(r') == H(t.right) + 1 ==> LeansToward(r', k)
    requires t.right.Leaf? ==> r'.Node? && r'.left.Leaf? && r'.right.Leaf?
    ensures var n := Mk(t.left, t.key, t.value, r');
            && NearlyAvl(n) && GetBalance(n) != 2
            && (GetBalance(n) == -2 ==> LeansToward(r', k))
            && Avl(Rebalance(n))
            && (H(Rebalance(n)) == H(t) || H(Rebalance(n)) == H(t) + 1)
            && (H(Rebalance(n)) == H(t) + 1 ==> LeansToward(Rebalance(n), k))
  {
    var n := Mk(t.left, t.key, t.value, r');
    RebalanceIsAvl(n);
  }

  /** The in-order pieces of an ordered node. */
  lemma OrderedNode<V>(t: Tree<V>)
    requires t.Node? && Ordered(t)
    ensures Ordered(t.left) && Ordered(t.right)
    ensures forall i :: 0 <= i < |InOrder(t.left)| ==> InOrder(t.left)[i].key < t.key
    ensures Above(InOrder(t.right), t.key)
  {
    var a, p, b := InOrder(t.left), Pair(t.key, t.value), InOrder(t.right);
    var s := InOrder(t);
    var n := |a|;
    assert s[..n] == a;
    assert s[n + 1..] == b;
    assert s[n] == p;
    SortedSlice(s, 0, n);
    SortedSlice(s, n + 1, |s|);
    assert forall i :: 0 <= i < n ==> a[i] == s[i];
    assert forall i :: 0 <= i < |b| ==> b[i] == s[n + 1 + i];
  }

  /** Insertion updates the in-order list exactly as `Upsert` updates the
      sorted association list, so the tree stays ordered. */
  lemma {:induction false} InsertIsUpsert<V>(t: Tree<V>, k: Key, v: V)
    requires Avl(t) && Ordered(t)
    ensures InOrder(Insert(t, k, v)) == Upsert(InOrder(t), k, v)
    ensures Ordered(Insert(t, k, v))
  {
    if t.Node? {
      OrderedNode(t);
      UpsertAroundNode(InOrder(t.left), Pair(t.key, t.value), InOrder(t.right), k, v);
      if k < t.key {
        InsertIsUpsert(t.left, k, v);
      } else if k > t.key {
        InsertIsUpsert(t.right, k, v);
      }
    }
    UpsertSorted(InOrder(t), k, v);
  }

  /** What `Upsert` does to the in-order list of an ordered node. */
  lemma UpsertAroundNode<V>(a: seq<Pair<V>>, p: Pair<V>, b: seq<Pair<V>>, k: Key, v: V)
    requires forall i :: 0 <= i < |a| ==> a[i].key < p.key
    ensures k < p.key ==> Upsert(a + [p] + b, k, v) == Upsert(a, k, v) + [p] + b
    ensures k == p.key ==> Upsert(a + [p] + b, k, v) == a + [Pair(k, v)] + b
    ensures k > p.key ==> Upsert(a + [p] + b, k, v) == a + [p] + Upsert(b, k, v)
  {
    assert a + [p] + b == a + ([p] + b);
    if k < p.key {
      UpsertBefore(a, [p] + b, k, v);
    } else if k > p.key {
      UpsertAfter(a + [p], b, k, v);
    } else {
      UpsertAfter(a, [p] + b, k, v);
    }
  }

  // ---------------------------------------------------------------------
  // delete
  // ---------------------------------------------------------------------

  /** `_get_min_value_node`: follow left links to the end. */
  function MinPair<V>(t: Tree<V>): (p: Pair<V>)
    requires t.Node?
    ensures |InOrder(t)| > 0 && p == InOrder(t)[0]
  {
    if t.left.Leaf? then Pair(t.key, t.value) else MinPair(t.left)
  }

  /** `delete` / `_delete`: search-tree deletion (a node with a missing child
      is replaced by the other child; a node with two children takes its
      in-order successor's key and value, and the successor is deleted from
      the right subtree), then the height is recomputed and the node
      rebalanced. */
  function Delete<V>(t: Tree<V>, k: Key): Tree<V>
  {
    match t
    case Leaf => Leaf
    case Node(l, key, val, rt, h) =>
      if k < key then Rebalance(Mk(Delete(l, k), key, val, rt))
      else if k > key then Rebalance(Mk(l, key, val, Delete(rt, k)))
      else if l.Leaf? then rt
      else if rt.Leaf? then l
      else
        var m := MinPair(rt);
        Rebalance(Mk(l, m.key, m.value, Delete(rt, m.key)))
  }

  /** Deletion updates the in-order list exactly as `RemoveKey` updates the
      sorted association list, so the tree stays ordered. */
  lemma {:induction false} DeleteIsRemoveKey<V>(t: Tree<V>, k: Key)
    requires Ordered(t)
    ensures InOrder(Delete(t, k)) == RemoveKey(InOrder(t), k)
    decreases t, 1
  {
    if t.Node? {
      OrderedNode(t);
      if k < t.key {
        DeleteLeftIsRemoveKey(t, k);
      } else if k > t.key {
        DeleteRightIsRemoveKey(t, k);
      } else {
        DeleteAtRootIsRemoveKey(t, k);
      }
    }
  }

  /** Deleting a key the tree does not hold gives back the very same tree:
      every node on the search path is rebuilt with its cached height and
      needs no rotation.  So the postorder listing is unchanged too. */
  lemma {:induction false} DeleteAbsentIsIdentity<V>(t: Tree<V>, k: Key)
    requires Avl(t)
    requires forall i :: 0 <= i < |InOrder(t)| ==> InOrder(t)[i].key != k
    ensures Delete(t, k) == t
    decreases t
  {
    if t.Node? {
      var a, b := InOrder(t.left), InOrder(t.right);
      assert InOrder(t) == a + [Pair(t.key, t.value)] + b;
      assert InOrder(t)[|a|].key == t.key;
      if k < t.key {
        forall i | 0 <= i < |a|
          ensures a[i].key != k
        {
          assert a[i] == InOrder(t)[i];
        }
        DeleteAbsentIsIdentity(t.left, k);
      } else {
        forall i | 0 <= i < |b|
          ensures b[i].key != k
        {
          assert b[i] == InOrder(t)[|a| + 1 + i];
        }
        DeleteAbsentIsIdentity(t.right, k);
      }
    }
  }

  /** The facts about an ordered node that the deletion cases use. */
  ghost predicate SplitsAt<V>(t: Tree<V>)
  {
    && t.Node? && Ordered(t.left) && Ordered(t.right)
    && (forall i :: 0 <= i < |InOrder(t.left)| ==> InOrder(t.left)[i].key < t.key)
    && Above(InOrder(t.right), t.key)
  }

  lemma {:induction false} DeleteLeftIsRemoveKey<V>(t: Tree<V>, k: Key)
    requires SplitsAt(t) && k < t.key
    ensures InOrder(Delete(t, k)) == RemoveKey(InOrder(t), k)
    decreases t, 0
  {
    var a, p, b := InOrder(t.left), Pair(t.key, t.value), InOrder(t.right);
    RemoveAroundNode(a, p, b, k);
    RemoveAbsentKey(b, k);
    DeleteIsRemoveKey(t.left, k);
    var n := Mk(Delete(t.left, k), t.key, t.value, t.right);
    assert Delete(t, k) == Rebalance(n);
  }

  lemma {:induction false} DeleteRightIsRemoveKey<V>(t: Tree<V>, k: Key)
    requires SplitsAt(t) && k > t.key
    ensures InOrder(Delete(t, k)) == RemoveKey(InOrder(t), k)
    decreases t, 0
  {
    var a, p, b := InOrder(t.left), Pair(t.key, t.value), InOrder(t.right);
    RemoveAroundNode(a, p, b, k);
    RemoveAbsentKey(a, k);
    DeleteIsRemoveKey(t.right, k);
    var n := Mk(t.left, t.key, t.value, Delete(t.right, k));
    assert Delete(t, k) == Rebalance(n);
  }

  lemma {:induction false} DeleteAtRootIsRemoveKey<V>(t: Tree<V>, k: Key)
    requires SplitsAt(t) && k == t.key
    ensures InOrder(Delete(t, k)) == RemoveKey(InOrder(t), k)
    decreases t, 0
  {
    var a, p, b := InOrder(t.left), Pair(t.key, t.value), InOrder(t.right);
    RemoveAroundNode(a, p, b, k);
    RemoveAbsentKey(a, k);
    RemoveAbsentKey(b, k);
    if t.left.Node? && t.right.Node? {
      var m := MinPair(t.right);
      var d := Delete(t.right, m.key);
      DeleteIsRemoveKey(t.right, m.key);
      SuccessorSplit(a, t.right);
      assert Delete(t, k) == Rebalance(Mk(t.left, m.key, m.value, d));
    }
  }

  /** Putting a subtree's minimum in front of the rest of its in-order list
      restores the list. */
  lemma SuccessorSplit<V>(a: seq<Pair<V>>, r: Tree<V>)
    requires r.Node? && Ordered(r)
    ensures a + [MinPair(r)] + RemoveKey(InOrder(r), MinPair(r).key) == a + InOrder(r)
  {
    RemoveFirstKey(InOrder(r));
    assert InOrder(r) == [MinPair(r)] + InOrder(r)[1..];
  }

  lemma DeleteKeepsOrder<V>(t: Tree<V>, k: Key)
    requires Ordered(t)
    ensures Ordered(Delete(t, k))
  {
    DeleteIsRemoveKey(t, k);
    RemoveKeySorted(InOrder(t), k);
  }

  /** Removal from the in-order list of a node works piece by piece. */
  lemma RemoveAroundNode<V>(a: seq<Pair<V>>, p: Pair<V>, b: seq<Pair<V>>, k: Key)
    ensures RemoveKey(a + [p] + b, k)
            == RemoveKey(a, k) + (if p.key == k then [] else [p]) + RemoveKey(b, k)
  {
    RemoveKeyAppend(a + [p], b, k);
    RemoveKeyAppend(a, [p], k);
    assert [p][1..] == [];
  }

  /** Removing the smallest key of a sorted list drops its head. */
  lemma RemoveFirstKey<V>(b: seq<Pair<V>>)
    requires Sorted(b) && b != []
    ensures RemoveKey(b, b[0].key) == b[1..]
  {
    SortedTail(b);
    RemoveAbsentKey(b[1..], b[0].key);
  }

  /** Deletion keeps the AVL invariant and lowers the height by at most one. */
  lemma {:induction false} DeleteKeepsAvl<V>(t: Tree<V>, k: Key)
    requires Avl(t)
    ensures Avl(Delete(t, k))
    ensures H(Delete(t, k)) == H(t) || H(Delete(t, k)) == H(t) - 1
  {
    match t
    case Leaf =>
    case Node(l, key, val, rt, h) =>
      if k < key {
        DeleteKeepsAvl(l, k);
        RebalanceIsAvl(Mk(Delete(l, k), key, val, rt));
      } else if k > key {
        DeleteKeepsAvl(rt, k);
        RebalanceIsAvl(Mk(l, key, val, Delete(rt, k)));
      } else if l.Leaf? || rt.Leaf? {
      } else {
        var m := MinPair(rt);
        DeleteKeepsAvl(rt, m.key);
        RebalanceIsAvl(Mk(l, m.key, m.value, Delete(rt, m.key)));
      }
  }

  // ---------------------------------------------------------------------
  // search and postorder
  // ---------------------------------------------------------------------

  /** `search` / `_search`: the value of the node with the key, if any. */
  function Search<V>(t: Tree<V>, k: Key): (r: Option<V>)
    ensures r.Some? ==> Pair(k, r.value) in InOrder(t)
  {
    if t.Leaf? then None
    else if t.key == k then Some(t.value)
    else if k < t.key then Search(t.left, k)
    else Search(t.right, k)
  }

  /** In an ordered tree, `search` answers what the association list does. */
  lemma {:induction false} SearchIsLookup<V>(t: Tree<V>, k: Key)
    requires Ordered(t)
    ensures Search(t, k) == Lookup(InOrder(t), k)
  {
    if t.Node? {
      OrderedNode(t);
      LookupAroundNode(InOrder(t.left), Pair(t.key, t.value), InOrder(t.right), k);
      if k < t.key {
        SearchIsLookup(t.left, k);
      } else if k > t.key {
        SearchIsLookup(t.right, k);
      }
    }
  }

  /** Where a lookup in the in-order list of an ordered node ends up. */
  lemma LookupAroundNode<V>(a: seq<Pair<V>>, p: Pair<V>, b: seq<Pair<V>>, k: Key)
    requires forall i :: 0 <= i < |a| ==> a[i].key < p.key
    requires Above(b, p.key)
    ensures k < p.key ==> Lookup(a + [p] + b, k) == Lookup(a, k)
    ensures k == p.key ==> Lookup(a + [p] + b, k) == Some(p.value)
    ensures k > p.key ==> Lookup(a + [p] + b, k) == Lookup(b, k)
  {
    assert a + [p] + b == a + ([p] + b);
    if k < p.key {
      assert Above([p] + b, k) by {
        assert forall i :: 0 <= i < |b| ==> ([p] + b)[i + 1] == b[i];
      }
      LookupAbove(a, [p] + b, k);
    } else if k > p.key {
      LookupAppend(a + [p], b, k);
    } else {
      LookupAppend(a, [p] + b, k);
    }
  }

  /** A key smaller than everything after a prefix is looked up in the
      prefix alone. */
  lemma {:induction false} LookupAbove<V>(a: seq<Pair<V>>, b: seq<Pair<V>>, k: Key)
    requires Above(b, k)
    ensures Lookup(a + b, k) == Lookup(a, k)
  {
    if a == [] {
      LookupAppend(b, [], k);
      assert b + [] == b;
      assert a + b == b;
    } else {
      assert a + b == [a[0]] + (a[1..] + b);
      LookupAbove(a[1..], b, k);
    }
  }

  /** After `insert`, `search` finds the new value under its key and the
      old answer under every other key. */
  lemma InsertThenSearch<V>(t: Tree<V>, k: Key, v: V, k': Key)
    requires Avl(t) && Ordered(t)
    ensures Search(Insert(t, k, v), k') == if k' == k then Some(v) else Search(t, k')
  {
    InsertIsUpsert(t, k, v);
    SearchIsLookup(t, k');
    SearchIsLookup(Insert(t, k, v), k');
    LookupUpsert(InOrder(t), k, v, k');
  }

  /** After `delete`, `search` misses the key and answers as before for
      every other key. */
  lemma DeleteThenSearch<V>(t: Tree<V>, k: Key, k': Key)
    requires Ordered(t)
    ensures Search(Delete(t, k), k') == if k' == k then None else Search(t, k')
  {
    DeleteIsRemoveKey(t, k);
    DeleteKeepsOrder(t, k);
    SearchIsLookup(t, k');
    SearchIsLookup(Delete(t, k), k');
    LookupRemoveKey(InOrder(t), k, k');
  }

  /** `traverse_postorder`: left subtree, right subtree, then the node. */
  function Postorder<V>(t: Tree<V>): (r: seq<Pair<V>>)
    ensures multiset(r) == multiset(InOrder(t))
    ensures t.Node? ==> |r| > 0 && r[|r| - 1] == Pair(t.key, t.value)
  {
    if t.Leaf? then []
    else Postorder(t.left) + Postorder(t.right) + [Pair(t.key, t.value)]
  }

  /** A listing with the value of every pair under key `k` replaced by `v`. */
  function Relabel<V>(s: seq<Pair<V>>, k: Key, v: V): (r: seq<Pair<V>>)
    ensures |r| == |s|
    ensures forall i :: 0 <= i < |s| ==> r[i] == if s[i].key == k then Pair(k, v) else s[i]
  {
    if s == [] then [] else [if s[0].key == k then Pair(k, v) else s[0]] + Relabel(s[1..], k, v)
  }

  lemma {:induction false} RelabelAppend<V>(a: seq<Pair<V>>, b: seq<Pair<V>>, k: Key, v: V)
    ensures Relabel(a + b, k, v) == Relabel(a, k, v) + Relabel(b, k, v)
  {
    var r, r' := Relabel(a + b, k, v), Relabel(a, k, v) + Relabel(b, k, v);
    assert forall i :: 0 <= i < |r| ==> r[i] == r'[i];
  }

  /** In an ordered tree, setting the value of key `k` changes the
      postorder listing only in the pair of that key. */
  lemma {:induction false} SetValuePostorder<V>(t: Tree<V>, k: Key, v: V)
    requires Ordered(t)
    ensures Postorder(SetValue(t, k, v)) == Relabel(Postorder(t), k, v)
  {
    if t.Node? {
      OrderedNode(t);
      if k < t.key {
        SetValuePostorder(t.left, k, v);
        KeyAbsentRelabel(t.right, k, v);
        SetValueLeft(t, k, v);
      } else if k > t.key {
        SetValuePostorder(t.right, k, v);
        KeyAbsentRelabel(t.left, k, v);
        SetValueRight(t, k, v);
      } else {
        KeyAbsentRelabel(t.left, k, v);
        KeyAbsentRelabel(t.right, k, v);
        SetValueHere(t, k, v);
      }
    }
  }

  lemma SetValueLeft<V>(t: Tree<V>, k: Key, v: V)
    requires t.Node? && k < t.key
    requires Postorder(SetValue(t.left, k, v)) == Relabel(Postorder(t.left), k, v)
    requires Relabel(Postorder(t.right), k, v) == Postorder(t.right)
    ensures Postorder(SetValue(t, k, v)) == Relabel(Postorder(t), k, v)
  {
    RelabelNode(t, k, v);
    var top := [Pair(t.key, t.value)];
    assert Relabel(top, k, v) == top;
    var n := Node(SetValue(t.left, k, v), t.key, t.value, t.right, t.height);
    assert SetValue(t, k, v) == n;
    assert Postorder(n) == Postorder(n.left) + Postorder(t.right) + top;
  }

  lemma SetValueRight<V>(t: Tree<V>, k: Key, v: V)
    requires t.Node? && k > t.key
    requires Postorder(SetValue(t.right, k, v)) == Relabel(Postorder(t.right), k, v)
    requires Relabel(Postorder(t.left), k, v) == Postorder(t.left)
    ensures Postorder(SetValue(t, k, v)) == Relabel(Postorder(t), k, v)
  {
    RelabelNode(t, k, v);
    var top := [Pair(t.key, t.value)];
    assert Relabel(top, k, v) == top;
    var n := Node(t.left, t.key, t.value, SetValue(t.right, k, v), t.height);
    assert SetValue(t, k, v) == n;
    assert Postorder(n) == Postorder(t.left) + Postorder(n.right) + top;
  }

  lemma SetValueHere<V>(t: Tree<V>, k: Key, v: V)
    requires t.Node? && k == t.key
    requires Relabel(Postorder(t.left), k, v) == Postorder(t.left)
    requires Relabel(Postorder(t.right), k, v) == Postorder(t.right)
    ensures Postorder(SetValue(t, k, v)) == Relabel(Postorder(t), k, v)
  {
    RelabelNode(t, k, v);
    assert Relabel([Pair(t.key, t.value)], k, v) == [Pair(k, v)];
    var n := Node(t.left, t.key, v, t.right, t.height);
    assert SetValue(t, k, v) == n;
    assert Postorder(n) == Postorder(t.left) + Postorder(t.right) + [Pair(k, v)];
  }

  /** Relabelling a node's listing relabels its three parts. */
  lemma RelabelNode<V>(t: Tree<V>, k: Key, v: V)
    requires t.Node?
    ensures Relabel(Postorder(t), k, v)
            == Relabel(Postorder(t.left), k, v) + Relabel(Postorder(t.right), k, v)
               + Relabel([Pair(t.key, t.value)], k, v)
  {
    var pl, pr, top := Postorder(t.left), Postorder(t.right), [Pair(t.key, t.value)];
    assert Postorder(t) == pl + pr + top;
    RelabelAppend(pl + pr, top, k, v);
    RelabelAppend(pl, pr, k, v);
  }

  /** A subtree without key `k` lists the same after relabelling `k`. */
  lemma KeyAbsentRelabel<V>(t: Tree<V>, k: Key, v: V)
    requires forall i :: 0 <= i < |InOrder(t)| ==> InOrder(t)[i].key != k
    ensures Relabel(Postorder(t), k, v) == Postorder(t)
  {
    var p := Postorder(t);
    forall i | 0 <= i < |p|
      ensures p[i].key != k
    {
      assert p[i] in multiset(p);
      assert p[i] in InOrder(t);
    }
  }
}

=== FILE: branch_tree.dfy ===
/** The N-ary branch hierarchy of `git_sim/tree_structures.py`
    (`BranchNode`): every branch has a name, an ordered list of child
    branches, the commits made on it (most recent last) and a `merged`
    flag that gates its removal.

    The source also stores a `parent` back-reference; here a branch's
    parent is simply the node whose `children` contain it, so the reference
    is not stored.  Commit objects are represented by their identifiers. */
module BranchTree {
  import opened Options

  type CommitRef = string

  datatype Branch = Branch(name: string, children: seq<Branch>, commits: seq<CommitRef>, merged: bool)

  /** A freshly constructed `BranchNode`: no children, no commits, not merged. */
  function NewBranch(name: string): Branch
  {
    Branch(name, [], [], false)
  }

  // ---------------------------------------------------------------------
  // Reference views of a tree: its preorder node list and its name bag
  // ---------------------------------------------------------------------

  /** Every node of the tree in preorder: the node itself, then the nodes
      of each child in order. */
  function Nodes(b: Branch): (r: seq<Branch>)
    ensures |r| >= 1 && r[0] == b
    decreases b, 1
  {
    [b] + NodesOf(b.children)
  }

  function NodesOf(cs: seq<Branch>): seq<Branch>
    decreases cs, 0
  {
    if cs == [] then [] else Nodes(cs[0]) + NodesOf(cs[1..])
  }

  /** The multiset of branch names in the tree. */
  function NameBag(b: Branch): multiset<string>
    decreases b, 1
  {
    multiset{b.name} + NameBagOf(b.children)
  }

  function NameBagOf(cs: seq<Branch>): multiset<string>
    decreases cs, 0
  {
    if cs == [] then multiset{} else NameBag(cs[0]) + NameBagOf(cs[1..])
  }

  /** No two branches of the tree share a name; the repository checks this
      before every `add_child`. */
  ghost predicate UniqueNames(b: Branch)
  {
    forall n :: NameBag(b)[n] <= 1
  }

  /** `i` is the first position of `s` holding a branch named `name`. */
  ghost predicate IsFirstNamed(s: seq<Branch>, name: string, i: int)
  {
    0 <= i < |s| && s[i].name == name && forall j :: 0 <= j < i ==> s[j].name != name
  }

  ghost predicate NoneNamed(s: seq<Branch>, name: string)
  {
    forall j :: 0 <= j < |s| ==> s[j].name != name
  }

  lemma {:induction false} NameBagOfAppend(a: seq<Branch>, c: seq<Branch>)
    ensures NameBagOf(a + c) == NameBagOf(a) + NameBagOf(c)
  {
    if a == [] {
      assert a + c == c;
    } else {
      assert (a + c)[1..] == a[1..] + c;
      NameBagOfAppend(a[1..], c);
    }
  }

  lemma {:induction false} NodesOfAppend(a: seq<Branch>, c: seq<Branch>)
    ensures NodesOf(a + c) == NodesOf(a) + NodesOf(c)
  {
    if a == [] {
      assert a + c == c;
    } else {
      assert (a + c)[1..] == a[1..] + c;
      NodesOfAppend(a[1..], c);
    }
  }

  /** A name occurs in the bag exactly when some node in preorder carries it. */
  lemma {:induction false} NameBagMatchesNodes(b: Branch, name: string)
    ensures name in NameBag(b) <==> !NoneNamed(Nodes(b), name)
    decreases b, 1
  {
    NameBagOfMatchesNodesOf(b.children, name);
    var s := Nodes(b);
    if !NoneNamed(NodesOf(b.children), name) {
      var j :| 0 <= j < |NodesOf(b.children)| && NodesOf(b.children)[j].name == name;
      assert s[j + 1] == NodesOf(b.children)[j];
    }
    if !NoneNamed(s, name) && b.name != name {
      var j :| 0 <= j < |s| && s[j].name == name;
      assert j > 0 && NodesOf(b.children)[j - 1] == s[j];
    }
  }

  lemma {:induction false} NameBagOfMatchesNodesOf(cs: seq<Branch>, name: string)
    ensures name in NameBagOf(cs) <==> !NoneNamed(NodesOf(cs), name)
    decreases cs, 0
  {
    if cs != [] {
      NameBagMatchesNodes(cs[0], name);
      NameBagOfMatchesNodesOf(cs[1..], name);
      var a, c := Nodes(cs[0]), NodesOf(cs[1..]);
      assert NodesOf(cs) == a + c;
      if !NoneNamed(a, name) {
        var j :| 0 <= j < |a| && a[j].name == name;
        assert (a + c)[j] == a[j];
      }
      if !NoneNamed(c, name) {
        var j :| 0 <= j < |c| && c[j].name == name;
        assert (a + c)[|a| + j] == c[j];
      }
      if !NoneNamed(a + c, name) {
        var j :| 0 <= j < |a + c| && (a + c)[j].name == name;
        if j < |a| {
          assert a[j] == (a + c)[j];
        } else {
          assert c[j - |a|] == (a + c)[j];
        }
      }
    }
  }

  // ---------------------------------------------------------------------
  // add_child, remove_child, add_commit
  // ---------------------------------------------------------------------

  /** `add_child` appends a fresh branch after the existing children and
      returns it; it does not check that the name is unused. */
  function AddChild(b: Branch, childName: string): (r: (Branch, Branch))
    ensures r.1.name == childName && r.1.children == [] && r.1.commits == [] && !r.1.merged
    ensures |r.0.children| == |b.children| + 1
    ensures r.0.children[..|b.children|] == b.children && r.0.children[|b.children|] == r.1
    ensures r.0.name == b.name && r.0.commits == b.commits && r.0.merged == b.merged
  {
    var child := NewBranch(childName);
    assert (b.children + [child])[..|b.children|] == b.children;
    (b.(children := b.children + [child]), child)
  }

  /** `remove_child` looks at the direct children in order and stops at the
      first one named `childName`: if it is merged it is detached (with its
      whole subtree) and the result is true, otherwise the result is false
      and nothing changes. */
  method RemoveChild(b: Branch, childName: string) returns (removed: bool, r: Branch)
    ensures removed <==> exists i :: IsFirstNamed(b.children, childName, i) && b.children[i].merged
    ensures removed ==> exists i :: IsFirstNamed(b.children, childName, i)
                                    && r == b.(children := b.children[..i] + b.children[i + 1..])
    ensures !removed ==> r == b
  {
    var cs := b.children;
    var i := 0;
    while i < |cs|
      invariant 0 <= i <= |cs|
      invariant forall j :: 0 <= j < i ==> cs[j].name != childName
    {
      if cs[i].name == childName {
        assert IsFirstNamed(cs, childName, i);
        if cs[i].merged {
          return true, b.(children := cs[..i] + cs[i + 1..]);
        } else {
          assert forall k :: IsFirstNamed(cs, childName, k) ==> k == i;
          return false, b;
        }
      }
      i := i + 1;
    }
    return false, b;
  }

  /** `add_commit` records a commit as the most recent one of the branch. */
  function AddCommit(b: Branch, c: CommitRef): (r: Branch)
    ensures |r.commits| == |b.commits| + 1 && r.commits[..|b.commits|] == b.commits
    ensures r.commits[|b.commits|] == c
    ensures r.name == b.name && r.children == b.children && r.merged == b.merged
  {
    assert (b.commits + [c])[..|b.commits|] == b.commits;
    b.(commits := b.commits + [c])
  }

  // ---------------------------------------------------------------------
  // find_branch
  // ---------------------------------------------------------------------

  /** `find_branch`: the branch itself if it has the name, else the first
      hit in the children, searched in order. */
  function FindBranch(b: Branch, name: string): (r: Option<Branch>)
    ensures r.None? <==> NoneNamed(Nodes(b), name)
    ensures r.Some? ==> exists i :: IsFirstNamed(Nodes(b), name, i) && Nodes(b)[i] == r.value
    decreases b, 1
  {
    if b.name == name then
      assert IsFirstNamed(Nodes(b), name, 0);
      Some(b)
    else
      var r := FindIn(b.children, name);
      var s := Nodes(b);
      assert s[1..] == NodesOf(b.children);
      assert r.Some? ==> exists i :: IsFirstNamed(s, name, i) && s[i] == r.value by {
        if r.Some? {
          var i :| IsFirstNamed(NodesOf(b.children), name, i) && NodesOf(b.children)[i] == r.value;
          assert IsFirstNamed(s, name, i + 1);
        }
      }
      r
  }

  function FindIn(cs: seq<Branch>, name: string): (r: Option<Branch>)
    ensures r.None? <==> NoneNamed(NodesOf(cs), name)
    ensures r.Some? ==> exists i :: IsFirstNamed(NodesOf(cs), name, i) && NodesOf(cs)[i] == r.value
    decreases cs, 0
  {
    if cs == [] then None
    else
      var a, c := Nodes(cs[0]), NodesOf(cs[1..]);
      assert NodesOf(cs) == a + c;
      var h := FindBranch(cs[0], name);
      if h.Some? then
        assert exists i :: IsFirstNamed(a + c, name, i) && (a + c)[i] == h.value by {
          var i :| IsFirstNamed(a, name, i) && a[i] == h.value;
          assert IsFirstNamed(a + c, name, i);
        }
        h
      else
        var t := FindIn(cs[1..], name);
        assert t.Some? ==> exists i :: IsFirstNamed(a + c, name, i) && (a + c)[i] == t.value by {
          if t.Some? {
            var i :| IsFirstNamed(c, name, i) && c[i] == t.value;
            assert IsFirstNamed(a + c, name, |a| + i);
          }
        }
        t
  }

  // ---------------------------------------------------------------------
  // get_all_branches
  // ---------------------------------------------------------------------

  /** Two spaces per level of depth. */
  function Indent(depth: nat): string
  {
    if depth == 0 then "" else "  " + Indent(depth - 1)
  }

  function Indented(lines: seq<string>): (r: seq<string>)
    ensures |r| == |lines| && forall i :: 0 <= i < |lines| ==> r[i] == "  " + lines[i]
  {
    seq(|lines|, i requires 0 <= i < |lines| => "  " + lines[i])
  }

  /** `get_all_branches`: the branch's own name, then each child's listing
      with two more spaces in front of every line. */
  function Listing(b: Branch): seq<string>
    decreases b, 1
  {
    [b.name] + ListingOf(b.children)
  }

  function ListingOf(cs: seq<Branch>): seq<string>
    decreases cs, 0
  {
    if cs == [] then [] else Indented(Listing(cs[0])) + ListingOf(cs[1..])
  }

  /** A node of the preorder together with its depth below the root. */
  datatype Line = Line(name: string, depth: nat)

  function Outline(b: Branch): seq<Line>
    decreases b, 1
  {
    [Line(b.name, 0)] + Deeper(OutlineOf(b.children))
  }

  function OutlineOf(cs: seq<Branch>): seq<Line>
    decreases cs, 0
  {
    if cs == [] then [] else Outline(cs[0]) + OutlineOf(cs[1..])
  }

  function Deeper(o: seq<Line>): (r: seq<Line>)
    ensures |r| == |o| && forall i :: 0 <= i < |o| ==> r[i] == Line(o[i].name, o[i].depth + 1)
  {
    seq(|o|, i requires 0 <= i < |o| => Line(o[i].name, o[i].depth + 1))
  }

  lemma DeeperAppend(a: seq<Line>, b: seq<Line>)
    ensures Deeper(a + b) == Deeper(a) + Deeper(b)
  {
  }

  function Render(o: seq<Line>): (r: seq<string>)
    ensures |r| == |o| && forall i :: 0 <= i < |o| ==> r[i] == Indent(o[i].depth) + o[i].name
  {
    seq(|o|, i requires 0 <= i < |o| => Indent(o[i].depth) + o[i].name)
  }

  /** The outline lists the preorder nodes, each exactly once, in order;
      the root is at depth 0. */
  lemma {:induction false} OutlineFollowsNodes(b: Branch)
    ensures |Outline(b)| == |Nodes(b)|
    ensures forall i :: 0 <= i < |Nodes(b)| ==> Outline(b)[i].name == Nodes(b)[i].name
    ensures Outline(b)[0] == Line(b.name, 0)
    decreases b, 1
  {
    OutlineOfFollowsNodesOf(b.children);
  }

  lemma {:induction false} OutlineOfFollowsNodesOf(cs: seq<Branch>)
    ensures |OutlineOf(cs)| == |NodesOf(cs)|
    ensures forall i :: 0 <= i < |NodesOf(cs)| ==> OutlineOf(cs)[i].name == NodesOf(cs)[i].name
    decreases cs, 0
  {
    if cs != [] {
      OutlineFollowsNodes(cs[0]);
      OutlineOfFollowsNodesOf(cs[1..]);
    }
  }

  lemma {:induction false} RenderAppend(a: seq<Line>, c: seq<Line>)
    ensures Render(a + c) == Render(a) + Render(c)
  {
  }

  lemma {:induction false} RenderDeeper(o: seq<Line>)
    ensures Render(Deeper(o)) == Indented(Render(o))
  {
    forall i | 0 <= i < |o|
      ensures Render(Deeper(o))[i] == Indented(Render(o))[i]
    {
      assert Indent(o[i].depth + 1) == "  " + Indent(o[i].depth);
    }
  }

  /** The listing of `get_all_branches` is the preorder outline rendered
      with two spaces of indentation per level of depth: one line per
      branch, root first. */
  lemma {:induction false} ListingIsIndentedPreorder(b: Branch)
    ensures Listing(b) == Render(Outline(b))
    ensures |Listing(b)| == |Nodes(b)|
    decreases b, 1
  {
    ListingOfIsIndentedPreorder(b.children);
    RenderAppend([Line(b.name, 0)], Deeper(OutlineOf(b.children)));
    assert Render([Line(b.name, 0)]) == [b.name] by {
      assert Indent(0) + b.name == b.name;
    }
    OutlineFollowsNodes(b);
  }

  lemma {:induction false} ListingOfIsIndentedPreorder(cs: seq<Branch>)
    ensures ListingOf(cs) == Render(Deeper(OutlineOf(cs)))
    decreases cs, 0
  {
    if cs != [] {
      ListingIsIndentedPreorder(cs[0]);
      ListingOfIsIndentedPreorder(cs[1..]);
      RenderDeeper(Outline(cs[0]));
      DeeperAppend(Outline(cs[0]), OutlineOf(cs[1..]));
      RenderAppend(Deeper(Outline(cs[0])), Deeper(OutlineOf(cs[1..])));
    }
  }

  /** Adding a child to the root adds exactly one line to the listing, at
      the end, indented one level. */
  lemma AddChildListing(b: Branch, childName: string)
    ensures Listing(AddChild(b, childName).0) == Listing(b) + ["  " + childName]
  {
    var cs := b.children;
    var c := NewBranch(childName);
    assert AddChild(b, childName).0.children == cs + [c];
    ListingOfSnoc(cs, c);
  }

  lemma {:induction false} ListingOfSnoc(cs: seq<Branch>, c: Branch)
    ensures ListingOf(cs + [c]) == ListingOf(cs) + Indented(Listing(c))
  {
    if cs == [] {
      assert [] + [c] == [c];
      assert [c][1..] == [];
    } else {
      assert (cs + [c])[1..] == cs[1..] + [c];
      ListingOfSnoc(cs[1..], c);
    }
  }

  // ---------------------------------------------------------------------
  // Branch creation at depth and the merged gate
  // ---------------------------------------------------------------------

  /** The repository creates a branch by calling `add_child` on the node
      that `find_branch` returns for the current branch.  Because that node
      is shared with the tree, the tree itself changes; here that is the
      tree rebuilt with the first preorder node named `parentName` replaced
      by the result of `AddChild`.  The flag says whether such a node was
      found. */
  function AddUnder(b: Branch, parentName: string, childName: string): (r: (Branch, bool))
    ensures r.1 <==> parentName in NameBag(b)
    ensures r.1 ==> NameBag(r.0) == NameBag(b) + multiset{childName}
    ensures !r.1 ==> r.0 == b
    ensures r.0.name == b.name
    decreases b, 1
  {
    if b.name == parentName then
      var b' := AddChild(b, childName).0;
      assert b'.children == b.children + [NewBranch(childName)];
      NameBagOfAppend(b.children, [NewBranch(childName)]);
      assert NameBagOf([NewBranch(childName)]) == multiset{childName};
      (b', true)
    else
      var (cs, found) := AddUnderIn(b.children, parentName, childName);
      (b.(children := cs), found)
  }

  function AddUnderIn(cs: seq<Branch>, parentName: string, childName: string): (r: (seq<Branch>, bool))
    ensures r.1 <==> parentName in NameBagOf(cs)
    ensures r.1 ==> NameBagOf(r.0) == NameBagOf(cs) + multiset{childName}
    ensures !r.1 ==> r.0 == cs
    decreases cs, 0
  {
    if cs == [] then ([], false)
    else
      var (h, found) := AddUnder(cs[0], parentName, childName);
      if found then
        assert ([h] + cs[1..])[1..] == cs[1..];
        ([h] + cs[1..], true)
      else
        var (t, found') := AddUnderIn(cs[1..], parentName, childName);
        assert ([cs[0]] + t)[1..] == t;
        if found' then ([cs[0]] + t, true)
        else
          assert [cs[0]] + cs[1..] == cs;
          (cs, false)
  }

  /** Creating a branch with an unused name under an existing branch keeps
      names unique, and `find_branch` then finds a fresh, unmerged branch
      with no children under that name. */
  lemma AddUnderKeepsNamesUnique(b: Branch, parentName: string, childName: string)
    requires UniqueNames(b) && parentName in NameBag(b) && childName !in NameBag(b)
    ensures UniqueNames(AddUnder(b, parentName, childName).0)
    ensures FindBranch(AddUnder(b, parentName, childName).0, childName).Some?
  {
    var r := AddUnder(b, parentName, childName).0;
    assert NameBag(r) == NameBag(b) + multiset{childName};
    assert childName in NameBag(r);
    NameBagMatchesNodes(r, childName);
  }

  lemma {:induction false} NameBagOfRemove(cs: seq<Branch>, i: int)
    requires 0 <= i < |cs|
    ensures NameBagOf(cs) == NameBagOf(cs[..i] + cs[i + 1..]) + NameBag(cs[i])
  {
    assert cs == cs[..i] + ([cs[i]] + cs[i + 1..]);
    NameBagOfAppend(cs[..i], [cs[i]] + cs[i + 1..]);
    NameBagOfAppend(cs[..i], cs[i + 1..]);
    assert ([cs[i]] + cs[i + 1..])[1..] == cs[i + 1..];
  }

  /** The merged gate: in a tree with unique names, a successful
      `remove_child` leaves no branch of that name anywhere below the node,
      so `find_branch` reports it absent. */
  method RemoveMergedChild(b: Branch, childName: string) returns (removed: bool, r: Branch)
    requires UniqueNames(b)
    ensures removed <==> exists i :: IsFirstNamed(b.children, childName, i) && b.children[i].merged
    ensures removed ==> FindBranch(r, childName).None? && UniqueNames(r)
    ensures !removed ==> r == b
  {
    removed, r := RemoveChild(b, childName);
    if removed {
      ghost var i :| IsFirstNamed(b.children, childName, i)
               && r == b.(children := b.children[..i] + b.children[i + 1..]);
      NameBagOfRemove(b.children, i);
      assert NameBag(b) == NameBag(r) + NameBag(b.children[i]);
      assert childName in NameBag(b.children[i]);
      assert NameBag(b)[childName] <= 1;
      assert childName !in NameBag(r);
      NameBagMatchesNodes(r, childName);
      forall n
        ensures NameBag(r)[n] <= 1
      {
        assert NameBag(b)[n] <= 1;
      }
    }
  }
}

=== FILE: btree.dfy ===
/** The B-tree of `git_sim/tree_structures.py` (`BTreeNode`, `BTree`), the
    file index of the repository: keys are content hashes, values are file
    contents.

    A node keeps its keys and values as two parallel lists; here they are
    one list of `Item`s.  The source stores a `leaf` flag in every node; it
    is true exactly when the node has no children, so the model derives it
    from the children list.  Keys are integers, ordered the way the source
    orders its hash strings.

    This module holds the data model, the shape invariants and the in-order
    view `Flat` on which the operations' contracts are stated. */
module BTree {

  type Key = int
  type Value = string

  datatype Item = Item(key: Key, value: Value)

  datatype Node = Node(items: seq<Item>, children: seq<Node>)

  /** A node about to be descended from, after its child at `slot` has been
      prepared, and the index of the child to descend into: insertion splits
      a full child first, deletion fills a thin one. */
  datatype Descent = Descent(node: Node, slot: nat)

  predicate IsLeaf(n: Node)
  {
    n.children == []
  }

  /** A leaf holding `items`, as a fresh `BTreeNode(leaf=True)` fills up. */
  function Leaf(items: seq<Item>): Node
  {
    Node(items, [])
  }

  /** `BTreeNode.is_full`: the node holds 2t - 1 keys. */
  predicate IsFull(n: Node, t: nat)
  {
    |n.items| == 2 * t - 1
  }

  /** Height of the leftmost path; the shape invariant makes it the height
      of every path. */
  function Height(n: Node): nat
  {
    if n.children == [] then 0 else 1 + Height(n.children[0])
  }

  /** Structural invariant: an internal node has one more child than it
      has keys, and all of its children are of equal height (so all leaves
      lie at the same depth). */
  predicate Shaped(n: Node)
  {
    n.children != [] ==>
      && |n.children| == |n.items| + 1
      && forall i :: 0 <= i < |n.children| ==>
           Shaped(n.children[i]) && Height(n.children[i]) + 1 == Height(n)
  }

  /** Every node of the subtree holds at most 2t - 1 keys. */
  predicate AtMost(n: Node, t: nat)
  {
    && |n.items| <= 2 * t - 1
    && forall i :: 0 <= i < |n.children| ==> AtMost(n.children[i], t)
  }

  /** Every node below the root of the subtree holds at least t - 1 keys. */
  predicate AtLeast(n: Node, t: nat)
  {
    forall i :: 0 <= i < |n.children| ==>
      t - 1 <= |n.children[i].items| && AtLeast(n.children[i], t)
  }

  /** An internal root holds at least one key. */
  predicate RootOk(n: Node)
  {
    n.children != [] ==> |n.items| >= 1
  }

  // ---------------------------------------------------------------------
  // the in-order view
  // ---------------------------------------------------------------------

  /** The items of the subtree in key order: first child, then each key
      followed by the child after it. */
  function Flat(n: Node): seq<Item>
    decreases n, 1
  {
    if n.children == [] then n.items
    else Flat(n.children[0]) + Post(n.items, n.children[1..])
  }

  /** Each key followed by the child to its right. */
  function Post(xs: seq<Item>, cs: seq<Node>): seq<Item>
    decreases cs, 0
  {
    if xs == [] || cs == [] then [] else [xs[0]] + Flat(cs[0]) + Post(xs[1..], cs[1..])
  }

  /** Each child followed by the key to its right. */
  function Pre(cs: seq<Node>, xs: seq<Item>): seq<Item>
    decreases cs, 0
  {
    if xs == [] || cs == [] then [] else Flat(cs[0]) + [xs[0]] + Pre(cs[1..], xs[1..])
  }

  ghost predicate Sorted(s: seq<Item>)
  {
    forall i, j :: 0 <= i < j < |s| ==> s[i].key <= s[j].key
  }

  ghost predicate StrictlySorted(s: seq<Item>)
  {
    forall i, j :: 0 <= i < j < |s| ==> s[i].key < s[j].key
  }

  /** The B-tree invariant of a whole tree of minimum degree `t`. */
  ghost predicate Valid(n: Node, t: nat)
  {
    t >= 2 && Shaped(n) && AtMost(n, t) && AtLeast(n, t) && RootOk(n) && Sorted(Flat(n))
  }

  // ---------------------------------------------------------------------
  // algebra of the in-order view
  // ---------------------------------------------------------------------

  lemma {:induction false} PostAppend(xs1: seq<Item>, cs1: seq<Node>, xs2: seq<Item>, cs2: seq<Node>)
    requires |xs1| == |cs1|
    ensures Post(xs1 + xs2, cs1 + cs2) == Post(xs1, cs1) + Post(xs2, cs2)
    decreases |xs1|
  {
    if xs1 == [] {
      assert xs1 + xs2 == xs2 && cs1 + cs2 == cs2;
    } else {
      assert (xs1 + xs2)[0] == xs1[0] && (cs1 + cs2)[0] == cs1[0];
      assert (xs1 + xs2)[1..] == xs1[1..] + xs2;
      assert (cs1 + cs2)[1..] == cs1[1..] + cs2;
      PostAppend(xs1[1..], cs1[1..], xs2, cs2);
    }
  }

  lemma {:induction false} PreAppend(cs1: seq<Node>, xs1: seq<Item>, cs2: seq<Node>, xs2: seq<Item>)
    requires |xs1| == |cs1|
    ensures Pre(cs1 + cs2, xs1 + xs2) == Pre(cs1, xs1) + Pre(cs2, xs2)
    decreases |xs1|
  {
    if xs1 == [] {
      assert xs1 + xs2 == xs2 && cs1 + cs2 == cs2;
    } else {
      assert (xs1 + xs2)[0] == xs1[0] && (cs1 + cs2)[0] == cs1[0];
      assert (xs1 + xs2)[1..] == xs1[1..] + xs2;
      assert (cs1 + cs2)[1..] == cs1[1..] + cs2;
      PreAppend(cs1[1..], xs1[1..], cs2, xs2);
    }
  }

  lemma PreOne(c: Node, x: Item)
    ensures Pre([c], [x]) == Flat(c) + [x]
  {
    assert [c][1..] == [] && [x][1..] == [];
  }

  lemma PostOne(x: Item, c: Node)
    ensures Post([x], [c]) == [x] + Flat(c)
  {
    assert [c][1..] == [] && [x][1..] == [];
  }

  /** A key followed by a child, then the rest. */
  lemma PostCons(x: Item, c: Node, xs: seq<Item>, cs: seq<Node>)
    ensures Post([x] + xs, [c] + cs) == [x] + Flat(c) + Post(xs, cs)
  {
    assert ([x] + xs)[1..] == xs;
    assert ([c] + cs)[1..] == cs;
  }

  /** Three-way regrouping of concatenations, kept free of the in-order
      view so that it costs nothing to apply. */
  lemma Regroup(p: seq<Item>, l: seq<Item>, m: seq<Item>, r: seq<Item>, q: seq<Item>)
    ensures p + l + (m + r + q) == p + (l + m + r) + q
    ensures p + l + m + (r + q) == p + (l + m + r) + q
  {
  }

  lemma PreSnoc(cs: seq<Node>, xs: seq<Item>, i: nat)
    requires 0 < i <= |cs| && i <= |xs|
    ensures Pre(cs[..i], xs[..i]) == Pre(cs[..i - 1], xs[..i - 1]) + (Flat(cs[i - 1]) + [xs[i - 1]])
  {
    assert cs[..i] == cs[..i - 1] + [cs[i - 1]];
    assert xs[..i] == xs[..i - 1] + [xs[i - 1]];
    PreAppend(cs[..i - 1], xs[..i - 1], [cs[i - 1]], [xs[i - 1]]);
    PreOne(cs[i - 1], xs[i - 1]);
  }

  lemma PostUncons(xs: seq<Item>, cs: seq<Node>, i: nat)
    requires 0 < i < |cs| && i <= |xs|
    ensures Post(xs[i - 1..], cs[i..]) == [xs[i - 1]] + Flat(cs[i]) + Post(xs[i..], cs[i + 1..])
  {
    assert xs[i - 1..] == [xs[i - 1]] + xs[i..];
    assert cs[i..] == [cs[i]] + cs[i + 1..];
    PostCons(xs[i - 1], cs[i], xs[i..], cs[i + 1..]);
  }

  /** The in-order view seen around child `i`: the children and keys to its
      left, the child itself, and the keys and children to its right. */
  lemma {:induction false} FlatAround(n: Node, i: nat)
    requires n.children != [] && |n.children| == |n.items| + 1 && i < |n.children|
    ensures Flat(n) == Pre(n.children[..i], n.items[..i]) + Flat(n.children[i])
                       + Post(n.items[i..], n.children[i + 1..])
  {
    var cs, xs := n.children, n.items;
    if i == 0 {
      assert cs[..0] == [] && xs[..0] == [] && xs[0..] == xs;
    } else {
      FlatAround(n, i - 1);
      PostUncons(xs, cs, i);
      PreSnoc(cs, xs, i);
      Regroup(Pre(cs[..i - 1], xs[..i - 1]), Flat(cs[i - 1]), [xs[i - 1]], Flat(cs[i]),
              Post(xs[i..], cs[i + 1..]));
    }
  }

  /** Two nodes joined around a key: the keys of `a`, the key, the keys of
      `b`, and the children of both.  `_merge` builds it; `_split_child`
      takes it apart. */
  function Glued(a: Node, x: Item, b: Node): Node
  {
    Node(a.items + [x] + b.items, a.children + b.children)
  }

  /** The root of a single-child tree above `n`; `insert` builds it when the
      old root is full, and a borrowed child hangs below it while it is
      glued to its new sibling. */
  function Lift(n: Node): (r: Node)
    requires Shaped(n)
    ensures Shaped(r) && Height(r) == Height(n) + 1 && Flat(r) == Flat(n)
  {
    var r := Node([], [n]);
    assert r.children[1..] == [];
    r
  }

  /** Gluing two nodes of equal shape around a key: the in-order view is the
      left view, the key, then the right view.  Merging does this; splitting
      undoes it. */
  lemma Glue(a: Node, x: Item, b: Node)
    requires Shaped(a) && Shaped(b) && Height(a) == Height(b)
    ensures Flat(Glued(a, x, b)) == Flat(a) + [x] + Flat(b)
    ensures Shaped(Glued(a, x, b)) && Height(Glued(a, x, b)) == Height(a)
  {
    GlueShape(a, x, b);
    if a.children != [] {
      GlueFlat(a, x, b);
    }
  }

  lemma GlueFlat(a: Node, x: Item, b: Node)
    requires a.children != [] && b.children != []
    requires |a.children| == |a.items| + 1
    ensures Flat(Glued(a, x, b)) == Flat(a) + [x] + Flat(b)
  {
    GlueUnfold(a, x, b);
    GlueSplitPost(a, x, b);
    GlueRefold(a, x, b);
  }

  lemma GlueUnfold(a: Node, x: Item, b: Node)
    requires a.children != [] && b.children != []
    ensures Flat(Glued(a, x, b)) == Flat(a.children[0]) + Post(a.items + ([x] + b.items), a.children[1..] + b.children)
  {
    var g := Glued(a, x, b);
    assert g.children[0] == a.children[0];
    assert g.children[1..] == a.children[1..] + b.children;
    assert g.items == a.items + ([x] + b.items);
  }

  lemma GlueSplitPost(a: Node, x: Item, b: Node)
    requires a.children != [] && b.children != []
    requires |a.children| == |a.items| + 1
    ensures Post(a.items + ([x] + b.items), a.children[1..] + b.children)
            == Post(a.items, a.children[1..]) + ([x] + Flat(b.children[0]) + Post(b.items, b.children[1..]))
  {
    PostAppend(a.items, a.children[1..], [x] + b.items, b.children);
    assert b.children == [b.children[0]] + b.children[1..];
    PostCons(x, b.children[0], b.items, b.children[1..]);
  }

  lemma GlueRefold(a: Node, x: Item, b: Node)
    requires a.children != [] && b.children != []
    ensures Flat(a) + [x] + Flat(b)
            == Flat(a.children[0]) + (Post(a.items, a.children[1..])
               + ([x] + Flat(b.children[0]) + Post(b.items, b.children[1..])))
  {
  }

  lemma GlueShape(a: Node, x: Item, b: Node)
    requires Shaped(a) && Shaped(b) && Height(a) == Height(b)
    ensures Shaped(Glued(a, x, b)) && Height(Glued(a, x, b)) == Height(a)
  {
    var g := Glued(a, x, b);
    if a.children != [] {
      assert b.children != [];
      assert g.children[0] == a.children[0];
      forall i | 0 <= i < |g.children|
        ensures Shaped(g.children[i]) && Height(g.children[i]) + 1 == Height(g)
      {
        if i < |a.children| {
          assert g.children[i] == a.children[i];
        } else {
          assert g.children[i] == b.children[i - |a.children|];
        }
      }
    } else {
      assert b.children == [];
    }
  }

  /** Slices of a sequence with a stretch inserted at `i`. */
  lemma InsertedSlices<T>(s: seq<T>, i: nat, u: seq<T>)
    requires i <= |s|
    ensures (s[..i] + u + s[i..])[..i] == s[..i]
    ensures (s[..i] + u + s[i..])[i..] == u + s[i..]
  {
    assert (s[..i] + u + s[i..])[i..] == u + s[i..];
  }

  /** A sequence is its part before `i`, element `i` and its part after. */
  lemma SliceAround<T>(s: seq<T>, i: nat)
    requires i < |s|
    ensures s[..i] + [s[i]] + s[i + 1..] == s
  {
  }

  /** A sequence is its part before `i` and its part from `i` on. */
  lemma SliceAt<T>(s: seq<T>, i: nat)
    requires i <= |s|
    ensures s[..i] + s[i..] == s
  {
  }

  /** Slices of a sequence with the element at `i` replaced. */
  lemma UpdatedSlices<T>(s: seq<T>, i: nat, v: T)
    requires i < |s|
    ensures s[i := v][..i] == s[..i]
    ensures s[i := v][i + 1..] == s[i + 1..]
    ensures s[i := v][i..] == [v] + s[i + 1..]
    ensures s[i..] == [s[i]] + s[i + 1..]
  {
  }

  /** Child `i` of `n` replaced by `l`, then `m`, then `r`: the parent's
      side of a split, and what a merge undoes. */
  function Expand(n: Node, i: nat, l: Node, m: Item, r: Node): Node
    requires i < |n.children| && i <= |n.items|
  {
    Node(n.items[..i] + [m] + n.items[i..], n.children[..i] + [l, r] + n.children[i + 1..])
  }

  /** Children `i` and `i + 1` of `n` and key `i` between them replaced by
      the one child `g`: the parent's side of a merge, undone by `Expand`. */
  function Collapse(n: Node, i: nat, g: Node): Node
    requires i + 1 < |n.children| && i < |n.items|
  {
    Node(n.items[..i] + n.items[i + 1..], n.children[..i] + [g] + n.children[i + 2..])
  }

  /** Where each child of a collapsed node comes from. */
  lemma CollapsedChild(n: Node, i: nat, g: Node, q: nat)
    requires i + 1 < |n.children| && i < |n.items| && q + 1 < |n.children|
    ensures Collapse(n, i, g).children[q]
            == if q < i then n.children[q] else if q == i then g else n.children[q + 1]
  {
  }

  /** Expanding the collapsed child back into the two children and the key
      it replaced gives the node back. */
  lemma ExpandCollapse(n: Node, i: nat, g: Node)
    requires i + 1 < |n.children| && i < |n.items|
    ensures Expand(Collapse(n, i, g), i, n.children[i], n.items[i], n.children[i + 1]) == n
  {
    var cs, xs := n.children, n.items;
    var m := Collapse(n, i, g);
    assert m.items[..i] == xs[..i] && m.items[i..] == xs[i + 1..];
    assert m.children[..i] == cs[..i] && m.children[i + 1..] == cs[i + 2..];
    assert xs[..i] + [xs[i]] + xs[i + 1..] == xs;
    assert cs[..i] + [cs[i], cs[i + 1]] + cs[i + 2..] == cs;
  }

  /** Expanding a child whose in-order view is `l`, `m`, `r` keeps the
      node's view. */
  lemma ExpandChild(n: Node, i: nat, l: Node, m: Item, r: Node)
    requires n.children != [] && |n.children| == |n.items| + 1 && i < |n.children|
    requires Flat(l) + [m] + Flat(r) == Flat(n.children[i])
    ensures Flat(Expand(n, i, l, m, r)) == Flat(n)
  {
    var cs, xs := n.children, n.items;
    var n' := Expand(n, i, l, m, r);
    InsertedSlices(xs, i, [m]);
    assert cs[..i] + [l, r] + cs[i + 1..] == cs[..i] + [l] + ([r] + cs[i + 1..]);
    assert n'.children[..i] == cs[..i] && n'.children[i] == l;
    assert n'.children[i + 1..] == [r] + cs[i + 1..];
    FlatAround(n, i);
    FlatAround(n', i);
    PostCons(m, r, xs[i..], cs[i + 1..]);
    Regroup(Pre(cs[..i], xs[..i]), Flat(l), [m], Flat(r), Post(xs[i..], cs[i + 1..]));
  }

  /** Expanding a child into two of its own height keeps the shape. */
  lemma ExpandShape(n: Node, i: nat, l: Node, m: Item, r: Node)
    requires Shaped(n) && n.children != [] && i < |n.children|
    requires Shaped(l) && Shaped(r)
    requires Height(l) == Height(n.children[i]) && Height(r) == Height(n.children[i])
    ensures Shaped(Expand(n, i, l, m, r)) && Height(Expand(n, i, l, m, r)) == Height(n)
  {
    var n' := Expand(n, i, l, m, r);
    var cs := n.children;
    assert n'.children == cs[..i] + [l, r] + cs[i + 1..];
    assert Height(n'.children[0]) == Height(cs[0]);
    forall q | 0 <= q < |n'.children|
      ensures Shaped(n'.children[q]) && Height(n'.children[q]) + 1 == Height(n')
    {
      if q < i {
        assert n'.children[q] == cs[q];
      } else if q > i + 1 {
        assert n'.children[q] == cs[q - 1];
      }
    }
  }

  /** Replacing child `i` changes the in-order view only in that child's
      stretch. */
  lemma ReplaceChild(n: Node, i: nat, c: Node)
    requires n.children != [] && |n.children| == |n.items| + 1 && i < |n.children|
    ensures var n' := n.(children := n.children[i := c]);
            && Flat(n) == Pre(n.children[..i], n.items[..i]) + Flat(n.children[i])
                          + Post(n.items[i..], n.children[i + 1..])
            && Flat(n') == Pre(n.children[..i], n.items[..i]) + Flat(c)
                           + Post(n.items[i..], n.children[i + 1..])
  {
    var n' := n.(children := n.children[i := c]);
    FlatAround(n, i);
    FlatAround(n', i);
    UpdatedSlices(n.children, i, c);
  }

  /** Replacing the key `i` and the children on both sides of it changes
      the in-order view only in the stretch those three cover. */
  lemma PairAround(n: Node, i: nat, a: Node, y: Item, b: Node)
    requires n.children != [] && |n.children| == |n.items| + 1 && i + 1 < |n.children|
    ensures Flat(Node(n.items[i := y], n.children[i := a][i + 1 := b]))
            == Pre(n.children[..i], n.items[..i]) + (Flat(a) + [y] + Flat(b))
               + Post(n.items[i + 1..], n.children[i + 2..])
  {
    var cs, xs := n.children, n.items;
    var cs' := cs[i := a][i + 1 := b];
    var n' := Node(xs[i := y], cs');
    FlatAround(n', i);
    UpdatedSlices(xs, i, y);
    UpdatedSlices(cs, i + 1, b);
    assert cs'[..i] == cs[..i] && cs'[i] == a;
    assert cs'[i + 1..] == [b] + cs[i + 2..];
    PostCons(y, b, xs[i + 1..], cs[i + 2..]);
    Regroup(Pre(cs[..i], xs[..i]), Flat(a), [y], Flat(b), Post(xs[i + 1..], cs[i + 2..]));
  }

  /** The same stretch of the unchanged node. */
  lemma PairOf(n: Node, i: nat)
    requires n.children != [] && |n.children| == |n.items| + 1 && i + 1 < |n.children|
    ensures Flat(n) == Pre(n.children[..i], n.items[..i])
                       + (Flat(n.children[i]) + [n.items[i]] + Flat(n.children[i + 1]))
                       + Post(n.items[i + 1..], n.children[i + 2..])
  {
    assert n.children[i := n.children[i]][i + 1 := n.children[i + 1]] == n.children;
    assert n.items[i := n.items[i]] == n.items;
    PairAround(n, i, n.children[i], n.items[i], n.children[i + 1]);
  }

  /** Replacing the key `i` and the children on both sides of it, where the
      three together keep their in-order view, keeps the node's view.  This
      is the parent side of borrowing from a sibling. */
  lemma ReplacePair(n: Node, i: nat, a: Node, y: Item, b: Node)
    requires n.children != [] && |n.children| == |n.items| + 1 && i + 1 < |n.children|
    requires Flat(a) + [y] + Flat(b) == Flat(n.children[i]) + [n.items[i]] + Flat(n.children[i + 1])
    ensures Flat(Node(n.items[i := y], n.children[i := a][i + 1 := b])) == Flat(n)
  {
    PairAround(n, i, a, y, b);
    PairOf(n, i);
  }

  // ---------------------------------------------------------------------
  // shape and bounds under local changes
  // ---------------------------------------------------------------------

  /** In a shaped tree, the leaves are exactly the nodes of height 0. */
  lemma LeafHeight(n: Node)
    requires Shaped(n)
    ensures n.children == [] <==> Height(n) == 0
  {
  }

  /** Replacing a child by one of the same height keeps the shape. */
  lemma ReplaceShape(n: Node, i: nat, c: Node)
    requires Shaped(n) && i < |n.children| && Shaped(c) && Height(c) == Height(n.children[i])
    ensures Shaped(n.(children := n.children[i := c]))
    ensures Height(n.(children := n.children[i := c])) == Height(n)
  {
    var n' := n.(children := n.children[i := c]);
    assert Height(n'.children[0]) == Height(n.children[0]);
  }

  /** Expanding a child into two within the upper bound keeps it, when the
      node has room for one more key. */
  lemma ExpandAtMost(n: Node, i: nat, l: Node, m: Item, r: Node, t: nat)
    requires i < |n.children| && i <= |n.items|
    requires AtMost(n, t) && |n.items| < 2 * t - 1 && AtMost(l, t) && AtMost(r, t)
    ensures AtMost(Expand(n, i, l, m, r), t)
  {
    var n' := Expand(n, i, l, m, r);
    forall q | 0 <= q < |n'.children|
      ensures AtMost(n'.children[q], t)
    {
      ExpandedChild(n, i, l, m, r, q);
    }
  }

  /** Expanding a child into two within the lower bound keeps it. */
  lemma ExpandAtLeast(n: Node, i: nat, l: Node, m: Item, r: Node, t: nat)
    requires i < |n.children| && i <= |n.items|
    requires AtLeast(n, t) && AtLeast(l, t) && AtLeast(r, t)
    requires t - 1 <= |l.items| && t - 1 <= |r.items|
    ensures AtLeast(Expand(n, i, l, m, r), t)
  {
    var n' := Expand(n, i, l, m, r);
    forall q | 0 <= q < |n'.children|
      ensures t - 1 <= |n'.children[q].items| && AtLeast(n'.children[q], t)
    {
      ExpandedChild(n, i, l, m, r, q);
    }
  }

  /** Where each child of an expanded node comes from. */
  lemma ExpandedChild(n: Node, i: nat, l: Node, m: Item, r: Node, q: nat)
    requires i < |n.children| && i <= |n.items| && q < |n.children| + 1
    ensures var c := Expand(n, i, l, m, r).children[q];
            c == if q < i then n.children[q] else if q == i then l else if q == i + 1 then r
                 else n.children[q - 1]
  {
  }

  /** Replacing a child by one within the bounds keeps the bounds. */
  lemma ReplaceBounds(n: Node, i: nat, c: Node, t: nat)
    requires i < |n.children|
    ensures AtMost(n, t) && AtMost(c, t) ==> AtMost(n.(children := n.children[i := c]), t)
    ensures AtLeast(n, t) && AtLeast(c, t) && t - 1 <= |c.items| ==>
              AtLeast(n.(children := n.children[i := c]), t)
  {
  }

  // ---------------------------------------------------------------------
  // key order
  // ---------------------------------------------------------------------

  /** The scan shared by `search` and `_delete`: the index of the first key
      that is not smaller than `k`, or the number of keys. */
  function LowerBound(xs: seq<Item>, k: Key): (i: nat)
    ensures i <= |xs|
    ensures forall q :: 0 <= q < i ==> xs[q].key < k
    ensures i < |xs| ==> k <= xs[i].key
  {
    if xs == [] || k <= xs[0].key then 0 else 1 + LowerBound(xs[1..], k)
  }

  ghost predicate Below(s: seq<Item>, k: Key)
  {
    forall y :: y in s ==> y.key < k
  }

  ghost predicate Beyond(s: seq<Item>, k: Key)
  {
    forall y :: y in s ==> k < y.key
  }

  /** No item of `s` has key `k`. */
  ghost predicate KeyFree(s: seq<Item>, k: Key)
  {
    forall y :: y in s ==> y.key != k
  }

  lemma SortedSplit(a: seq<Item>, b: seq<Item>)
    requires Sorted(a + b)
    ensures Sorted(a) && Sorted(b)
    ensures forall y, z :: y in a && z in b ==> y.key <= z.key
  {
    assert forall q :: 0 <= q < |a| ==> (a + b)[q] == a[q];
    assert forall q :: 0 <= q < |b| ==> (a + b)[|a| + q] == b[q];
    forall y, z | y in a && z in b
      ensures y.key <= z.key
    {
      var qy :| 0 <= qy < |a| && a[qy] == y;
      var qz :| 0 <= qz < |b| && b[qz] == z;
      assert (a + b)[qy] == y && (a + b)[|a| + qz] == z;
    }
  }

  lemma StrictSplit(a: seq<Item>, b: seq<Item>)
    requires StrictlySorted(a + b)
    ensures StrictlySorted(a) && StrictlySorted(b)
    ensures forall y, z :: y in a && z in b ==> y.key < z.key
  {
    assert forall q :: 0 <= q < |a| ==> (a + b)[q] == a[q];
    assert forall q :: 0 <= q < |b| ==> (a + b)[|a| + q] == b[q];
    forall y, z | y in a && z in b
      ensures y.key < z.key
    {
      var qy :| 0 <= qy < |a| && a[qy] == y;
      var qz :| 0 <= qz < |b| && b[qz] == z;
      assert (a + b)[qy] == y && (a + b)[|a| + qz] == z;
    }
  }

  /** Gluing sorted pieces whose keys are in order gives a sorted sequence. */
  lemma SortedJoin(a: seq<Item>, b: seq<Item>)
    requires Sorted(a) && Sorted(b)
    requires forall y, z :: y in a && z in b ==> y.key <= z.key
    ensures Sorted(a + b)
  {
    forall i, j | 0 <= i < j < |a + b|
      ensures (a + b)[i].key <= (a + b)[j].key
    {
      if j < |a| {
        assert (a + b)[i] == a[i] && (a + b)[j] == a[j];
      } else if i >= |a| {
        assert (a + b)[i] == b[i - |a|] && (a + b)[j] == b[j - |a|];
      } else {
        assert (a + b)[i] in a && (a + b)[j] == b[j - |a|];
      }
    }
  }

  /** A strictly sorted sequence has one item per key. */
  lemma StrictUnique(s: seq<Item>, y: Item, z: Item)
    requires StrictlySorted(s) && y in s && z in s && y.key == z.key
    ensures y == z
  {
    var qy :| 0 <= qy < |s| && s[qy] == y;
    var qz :| 0 <= qz < |s| && s[qz] == z;
    assert qy == qz;
  }

  /** Every key of a node occurs in the node's in-order view. */
  lemma ItemsInFlat(n: Node)
    requires n.children != [] ==> |n.children| == |n.items| + 1
    ensures forall q :: 0 <= q < |n.items| ==> n.items[q] in Flat(n)
  {
    forall q | 0 <= q < |n.items|
      ensures n.items[q] in Flat(n)
    {
      if n.children != [] {
        FlatAround(n, q + 1);
        PreSnoc(n.children, n.items, q + 1);
      }
    }
  }

  /** Every item of a child occurs in the parent's in-order view. */
  lemma ChildInFlat(n: Node, i: nat)
    requires n.children != [] && |n.children| == |n.items| + 1 && i < |n.children|
    ensures forall y :: y in Flat(n.children[i]) ==> y in Flat(n)
  {
    FlatAround(n, i);
  }

  /** The in-order view of a child of a sorted node is sorted. */
  lemma ChildSorted(n: Node, i: nat)
    requires n.children != [] && |n.children| == |n.items| + 1 && i < |n.children|
    requires Sorted(Flat(n))
    ensures Sorted(Flat(n.children[i]))
  {
    var a, f, e := Pre(n.children[..i], n.items[..i]), Flat(n.children[i]), Post(n.items[i..], n.children[i + 1..]);
    FlatAround(n, i);
    SortedSplit(a + f, e);
    SortedSplit(a, f);
  }

  /** In a sorted sequence, a piece `p` that ends with `x` lies at or
      below `x`. */
  lemma HeadBound(p: seq<Item>, f: seq<Item>, q: seq<Item>, a: seq<Item>, x: Item)
    requires Sorted(p + f + q) && p == a + [x]
    ensures forall y :: y in p ==> y.key <= x.key
  {
    assert p + f + q == p + (f + q);
    SortedSplit(p, f + q);
    SortedSplit(a, [x]);
  }

  /** Mirror of `HeadBound`: a piece that starts with `x` lies at or above
      `x`. */
  lemma TailBound(p: seq<Item>, f: seq<Item>, q: seq<Item>, x: Item, b: seq<Item>)
    requires Sorted(p + f + q) && q == [x] + b
    ensures forall y :: y in q ==> x.key <= y.key
  {
    SortedSplit(p + f, q);
    SortedSplit([x], b);
  }

  /** In a sorted node, everything left of child `i` lies at or below the
      key before it. */
  lemma WindowLeft(n: Node, i: nat)
    requires n.children != [] && |n.children| == |n.items| + 1 && 0 < i < |n.children|
    requires Sorted(Flat(n))
    ensures forall y :: y in Pre(n.children[..i], n.items[..i]) ==> y.key <= n.items[i - 1].key
  {
    var cs, xs := n.children, n.items;
    FlatAround(n, i);
    PreSnoc(cs, xs, i);
    HeadBound(Pre(cs[..i], xs[..i]), Flat(cs[i]), Post(xs[i..], cs[i + 1..]),
              Pre(cs[..i - 1], xs[..i - 1]) + Flat(cs[i - 1]), xs[i - 1]);
  }

  /** In a sorted node, everything right of child `i` lies at or above the
      key after it. */
  lemma WindowRight(n: Node, i: nat)
    requires n.children != [] && |n.children| == |n.items| + 1 && i < |n.items|
    requires Sorted(Flat(n))
    ensures forall y :: y in Post(n.items[i..], n.children[i + 1..]) ==> n.items[i].key <= y.key
  {
    var cs, xs := n.children, n.items;
    FlatAround(n, i);
    PostUncons(xs, cs, i + 1);
    TailBound(Pre(cs[..i], xs[..i]), Flat(cs[i]), Post(xs[i..], cs[i + 1..]),
              xs[i], Flat(cs[i + 1]) + Post(xs[i + 1..], cs[i + 2..]));
  }

  lemma NoLeft(n: Node)
    requires n.children != []
    ensures Pre(n.children[..0], n.items[..0]) == []
  {
    assert n.children[..0] == [] && n.items[..0] == [];
  }

  lemma NoRight(n: Node)
    requires |n.children| == |n.items| + 1
    ensures Post(n.items[|n.items|..], n.children[|n.children|..]) == []
  {
    assert n.items[|n.items|..] == [];
  }

  /** The separating keys around child `i` of a sorted node bound everything
      to the left and to the right of that child: when `k` lies strictly
      between them, no item outside the child has key `k`. */
  lemma Window(n: Node, i: nat, k: Key)
    requires n.children != [] && |n.children| == |n.items| + 1 && i < |n.children|
    requires Sorted(Flat(n))
    requires i > 0 ==> n.items[i - 1].key < k
    requires i < |n.items| ==> k < n.items[i].key
    ensures Below(Pre(n.children[..i], n.items[..i]), k)
    ensures Beyond(Post(n.items[i..], n.children[i + 1..]), k)
  {
    if i > 0 { WindowLeft(n, i); } else { NoLeft(n); }
    if i < |n.items| { WindowRight(n, i); } else { NoRight(n); }
  }

  // ---------------------------------------------------------------------
  // removal by key, the reference for deletion
  // ---------------------------------------------------------------------

  /** The items of `s` without those whose key is `k`. */
  function RemoveKey(s: seq<Item>, k: Key): seq<Item>
  {
    if s == [] then [] else (if s[0].key == k then [] else [s[0]]) + RemoveKey(s[1..], k)
  }

  lemma {:induction false} RemoveKeyAppend(a: seq<Item>, b: seq<Item>, k: Key)
    ensures RemoveKey(a + b, k) == RemoveKey(a, k) + RemoveKey(b, k)
  {
    if a == [] {
      assert a + b == b;
    } else {
      assert (a + b)[0] == a[0];
      assert (a + b)[1..] == a[1..] + b;
      RemoveKeyAppend(a[1..], b, k);
    }
  }

  lemma {:induction false} RemoveKeyFree(s: seq<Item>, k: Key)
    requires KeyFree(s, k)
    ensures RemoveKey(s, k) == s
  {
    if s != [] {
      assert s[0] in s;
      assert forall y :: y in s[1..] ==> y in s;
      RemoveKeyFree(s[1..], k);
    }
  }

  /** Removing `k` from the middle piece only, when the outer pieces do not
      hold it. */
  lemma RemoveInside(a: seq<Item>, b: seq<Item>, c: seq<Item>, k: Key)
    requires KeyFree(a, k) && KeyFree(c, k)
    ensures RemoveKey(a + b + c, k) == a + RemoveKey(b, k) + c
  {
    RemoveKeyAppend(a + b, c, k);
    RemoveKeyAppend(a, b, k);
    RemoveKeyFree(a, k);
    RemoveKeyFree(c, k);
  }

  /** In a strictly sorted sequence the item with key `k` is the only one. */
  lemma RemoveSole(a: seq<Item>, x: Item, b: seq<Item>)
    requires StrictlySorted(a + [x] + b)
    ensures RemoveKey(a + [x] + b, x.key) == a + b
  {
    StrictSplit(a + [x], b);
    StrictSplit(a, [x]);
    RemoveInside(a, [x], b, x.key);
    assert RemoveKey([x], x.key) == [];
  }
}

=== FILE: btree_delete.dfy ===
/** `BTree.delete` with its helpers `_delete`, `_delete_internal_node`,
    `_get_pred`, `_get_succ`, `_fill`, `_borrow_from_prev`,
    `_borrow_from_next` and `_merge`: a single pass down the tree that makes
    sure every child it enters holds at least t keys, so that removing one
    key never leaves a node below t - 1. */
module BTreeDelete {
  import opened Options
  import opened BTree
  import opened BTreeSearch

  /** What deletion needs of a tree: a minimum degree of at least 2, the
      shape invariant, the lower bound below the root, and a key in an
      internal root.  The upper bound and the key order are not needed. */
  predicate Deletable(n: Node, t: nat)
  {
    t >= 2 && Shaped(n) && AtLeast(n, t) && RootOk(n)
  }

  /** Every node of the subtree holds a key, so the walks of `_get_pred`
      and `_get_succ` end on a key. */
  predicate Filled(n: Node)
  {
    && |n.items| >= 1
    && forall i :: 0 <= i < |n.children| ==> Filled(n.children[i])
  }

  /** Below a node with a key, the lower bound of a degree of at least 2
      keeps every node non-empty. */
  lemma {:induction false} FilledBelow(n: Node, t: nat)
    requires t >= 2 && AtLeast(n, t) && |n.items| >= 1
    ensures Filled(n)
    decreases n
  {
    forall i | 0 <= i < |n.children|
      ensures Filled(n.children[i])
    {
      FilledBelow(n.children[i], t);
    }
  }

  // ---------------------------------------------------------------------
  // predecessor and successor
  // ---------------------------------------------------------------------

  /** `_get_pred`: the last item of the subtree, found by walking down the
      last children. */
  function Predecessor(c: Node): (p: Item)
    requires Shaped(c) && Filled(c)
    ensures Flat(c) != [] && p == Flat(c)[|Flat(c)| - 1]
    decreases c
  {
    if c.children == [] then c.items[|c.items| - 1]
    else
      var L := |c.items|;
      FlatAround(c, L);
      NoRight(c);
      Predecessor(c.children[L])
  }

  /** `_get_succ`: the first item of the subtree, found by walking down the
      first children. */
  function Successor(c: Node): (s: Item)
    requires Shaped(c) && Filled(c)
    ensures Flat(c) != [] && s == Flat(c)[0]
    decreases c
  {
    if c.children == [] then c.items[0]
    else Successor(c.children[0])
  }

  // ---------------------------------------------------------------------
  // merging two children
  // ---------------------------------------------------------------------

  /** `_merge`: child `i`, key `i` and child `i + 1` become one child at
      `i`; the parent loses the key and the right child. */
  function Merge(n: Node, i: nat): (r: Node)
    requires Shaped(n) && i + 1 < |n.children|
    ensures |r.items| + 1 == |n.items| && |r.children| + 1 == |n.children|
    ensures r.children[i] == Glued(n.children[i], n.items[i], n.children[i + 1])
    ensures Shaped(r) && Height(r) == Height(n)
  {
    var g := Glued(n.children[i], n.items[i], n.children[i + 1]);
    Glue(n.children[i], n.items[i], n.children[i + 1]);
    MergedShape(n, i, g);
    Collapse(n, i, g)
  }

  lemma MergedShape(n: Node, i: nat, g: Node)
    requires Shaped(n) && i + 1 < |n.children|
    requires Shaped(g) && Height(g) == Height(n.children[i])
    ensures Shaped(Collapse(n, i, g)) && Height(Collapse(n, i, g)) == Height(n)
  {
    var r := Collapse(n, i, g);
    CollapsedChild(n, i, g, 0);
    forall q | 0 <= q < |r.children|
      ensures Shaped(r.children[q]) && Height(r.children[q]) + 1 == Height(r)
    {
      CollapsedChild(n, i, g, q);
    }
  }

  /** Splitting the merged child at its old boundary gives back the node:
      `_merge` and `_split_child` are inverse on the parent. */
  lemma MergeThenExpand(n: Node, i: nat)
    requires Shaped(n) && i + 1 < |n.children|
    ensures Expand(Merge(n, i), i, n.children[i], n.items[i], n.children[i + 1]) == n
  {
    ExpandCollapse(n, i, Glued(n.children[i], n.items[i], n.children[i + 1]));
  }

  /** Merging keeps the node's in-order view. */
  lemma MergeKeepsFlat(n: Node, i: nat)
    requires Shaped(n) && i + 1 < |n.children|
    ensures Flat(Merge(n, i)) == Flat(n)
  {
    var cs, xs := n.children, n.items;
    var m := Merge(n, i);
    Glue(cs[i], xs[i], cs[i + 1]);
    ExpandChild(m, i, cs[i], xs[i], cs[i + 1]);
    MergeThenExpand(n, i);
  }

  /** The merged node of two nodes within the lower bound is within it. */
  lemma GluedAtLeast(a: Node, x: Item, b: Node, t: nat)
    requires AtLeast(a, t) && AtLeast(b, t)
    ensures AtLeast(Glued(a, x, b), t)
  {
    var g := Glued(a, x, b);
    forall q | 0 <= q < |g.children|
      ensures t - 1 <= |g.children[q].items| && AtLeast(g.children[q], t)
    {
      if q < |a.children| {
        assert g.children[q] == a.children[q];
      } else {
        assert g.children[q] == b.children[q - |a.children|];
      }
    }
  }

  /** The merged node of two nodes of fewer than t keys is within the
      upper bound. */
  lemma GluedAtMost(a: Node, x: Item, b: Node, t: nat)
    requires AtMost(a, t) && AtMost(b, t) && |a.items| < t && |b.items| < t
    ensures AtMost(Glued(a, x, b), t)
  {
    var g := Glued(a, x, b);
    forall q | 0 <= q < |g.children|
      ensures AtMost(g.children[q], t)
    {
      if q < |a.children| {
        assert g.children[q] == a.children[q];
      } else {
        assert g.children[q] == b.children[q - |a.children|];
      }
    }
  }

  /** Merging keeps the lower bound. */
  lemma MergeAtLeast(n: Node, i: nat, t: nat)
    requires Shaped(n) && i + 1 < |n.children| && AtLeast(n, t)
    ensures AtLeast(Merge(n, i), t)
  {
    var cs, xs := n.children, n.items;
    var m := Merge(n, i);
    GluedAtLeast(cs[i], xs[i], cs[i + 1], t);
    forall q | 0 <= q < |m.children|
      ensures t - 1 <= |m.children[q].items| && AtLeast(m.children[q], t)
    {
      CollapsedChild(n, i, Glued(cs[i], xs[i], cs[i + 1]), q);
    }
  }

  /** Merging two children of fewer than t keys each keeps the upper
      bound. */
  lemma MergeAtMost(n: Node, i: nat, t: nat)
    requires Shaped(n) && i + 1 < |n.children| && AtMost(n, t)
    requires |n.children[i].items| < t && |n.children[i + 1].items| < t
    ensures AtMost(Merge(n, i), t)
  {
    var cs, xs := n.children, n.items;
    var m := Merge(n, i);
    GluedAtMost(cs[i], xs[i], cs[i + 1], t);
    forall q | 0 <= q < |m.children|
      ensures AtMost(m.children[q], t)
    {
      CollapsedChild(n, i, Glued(cs[i], xs[i], cs[i + 1]), q);
    }
  }

  // ---------------------------------------------------------------------
  // borrowing from a sibling
  // ---------------------------------------------------------------------

  /** Key `i` and the children on both sides of it replaced: the parent's
      side of a borrow, which rotates one key through the parent. */
  function Rotated(n: Node, i: nat, a: Node, y: Item, b: Node): Node
    requires i + 1 < |n.children| && i < |n.items|
  {
    Node(n.items[i := y], n.children[i := a][i + 1 := b])
  }

  lemma RotatedChild(n: Node, i: nat, a: Node, y: Item, b: Node, q: nat)
    requires i + 1 < |n.children| && i < |n.items| && q < |n.children|
    ensures Rotated(n, i, a, y, b).children[q]
            == if q == i then a else if q == i + 1 then b else n.children[q]
  {
  }

  /** Rotating in two children of the height of the old ones keeps the
      shape. */
  lemma RotatedShape(n: Node, i: nat, a: Node, y: Item, b: Node)
    requires Shaped(n) && i + 1 < |n.children|
    requires Shaped(a) && Shaped(b)
    requires Height(a) == Height(n.children[i]) && Height(b) == Height(n.children[i])
    ensures Shaped(Rotated(n, i, a, y, b)) && Height(Rotated(n, i, a, y, b)) == Height(n)
  {
    var r := Rotated(n, i, a, y, b);
    RotatedChild(n, i, a, y, b, 0);
    forall q | 0 <= q < |r.children|
      ensures Shaped(r.children[q]) && Height(r.children[q]) + 1 == Height(r)
    {
      RotatedChild(n, i, a, y, b, q);
    }
  }

  /** Rotating in two children within the lower bound keeps it. */
  lemma RotatedAtLeast(n: Node, i: nat, a: Node, y: Item, b: Node, t: nat)
    requires i + 1 < |n.children| && i < |n.items| && AtLeast(n, t)
    requires AtLeast(a, t) && AtLeast(b, t) && t - 1 <= |a.items| && t - 1 <= |b.items|
    ensures AtLeast(Rotated(n, i, a, y, b), t)
  {
    var r := Rotated(n, i, a, y, b);
    forall q | 0 <= q < |r.children|
      ensures t - 1 <= |r.children[q].items| && AtLeast(r.children[q], t)
    {
      RotatedChild(n, i, a, y, b, q);
    }
  }

  /** Rotating in two children within the upper bound keeps it. */
  lemma RotatedAtMost(n: Node, i: nat, a: Node, y: Item, b: Node, t: nat)
    requires i + 1 < |n.children| && i < |n.items| && AtMost(n, t)
    requires AtMost(a, t) && AtMost(b, t)
    ensures AtMost(Rotated(n, i, a, y, b), t)
  {
    var r := Rotated(n, i, a, y, b);
    forall q | 0 <= q < |r.children|
      ensures AtMost(r.children[q], t)
    {
      RotatedChild(n, i, a, y, b, q);
    }
  }

  /** Two children of a shaped node are both leaves or both internal. */
  lemma Siblings(n: Node, a: nat, b: nat)
    requires Shaped(n) && a < |n.children| && b < |n.children|
    ensures Shaped(n.children[a]) && Shaped(n.children[b])
    ensures Height(n.children[a]) == Height(n.children[b])
    ensures n.children[a].children == [] <==> n.children[b].children == []
  {
    LeafHeight(n.children[a]);
    LeafHeight(n.children[b]);
  }

  /** What `_borrow_from_prev` leaves of the left sibling: all but its last
      key and, unless the borrowing child is a leaf, all but its last
      child. */
  function ShedLast(s: Node, leaf: bool): Node
    requires s.items != [] && (leaf || |s.children| == |s.items| + 1)
  {
    Node(s.items[..|s.items| - 1], if leaf then s.children else s.children[..|s.items|])
  }

  /** The borrowing child after `_borrow_from_prev`: the parent's key in
      front of its keys and, unless it is a leaf, the sibling's last child
      in front of its children. */
  function TakeFront(x: Item, s: Node, c: Node): Node
    requires c.children != [] ==> |s.children| == |s.items| + 1
  {
    Node([x] + c.items, if c.children == [] then c.children else [s.children[|s.items|]] + c.children)
  }

  /** What `_borrow_from_next` leaves of the right sibling: all but its
      first key and, unless the borrowing child is a leaf, all but its first
      child. */
  function ShedFirst(s: Node, leaf: bool): Node
    requires s.items != [] && (leaf || s.children != [])
  {
    Node(s.items[1..], if leaf then s.children else s.children[1..])
  }

  /** The borrowing child after `_borrow_from_next`: the parent's key after
      its keys and, unless it is a leaf, the sibling's first child after its
      children. */
  function TakeBack(c: Node, x: Item, s: Node): Node
    requires c.children != [] ==> s.children != []
  {
    Node(c.items + [x], if c.children == [] then c.children else c.children + [s.children[0]])
  }

  /** `_borrow_from_prev`: child `i` takes key `i - 1` of the parent in
      front, and the parent takes the last key of the left sibling. */
  function BorrowFromPrev(n: Node, i: nat): (r: Node)
    requires Shaped(n) && 0 < i < |n.children| && n.children[i - 1].items != []
    ensures |r.items| == |n.items| && |r.children| == |n.children|
    ensures |r.children[i].items| == |n.children[i].items| + 1
    ensures |r.children[i - 1].items| + 1 == |n.children[i - 1].items|
  {
    var c, s := n.children[i], n.children[i - 1];
    Siblings(n, i - 1, i);
    Rotated(n, i - 1, ShedLast(s, c.children == []), s.items[|s.items| - 1],
            TakeFront(n.items[i - 1], s, c))
  }

  /** `_borrow_from_next`: child `i` takes key `i` of the parent at its
      end, and the parent takes the first key of the right sibling. */
  function BorrowFromNext(n: Node, i: nat): (r: Node)
    requires Shaped(n) && i + 1 < |n.children| && n.children[i + 1].items != []
    ensures |r.items| == |n.items| && |r.children| == |n.children|
    ensures |r.children[i].items| == |n.children[i].items| + 1
    ensures |r.children[i + 1].items| + 1 == |n.children[i + 1].items|
  {
    var c, s := n.children[i], n.children[i + 1];
    Siblings(n, i, i + 1);
    Rotated(n, i, TakeBack(c, n.items[i], s), s.items[0], ShedFirst(s, c.children == []))
  }

  /** What is left of an internal sibling keeps its shape. */
  lemma ShedLastShape(s: Node)
    requires Shaped(s) && s.items != [] && s.children != []
    ensures Shaped(ShedLast(s, false)) && Height(ShedLast(s, false)) == Height(s)
  {
    var s' := ShedLast(s, false);
    assert s'.children[0] == s.children[0];
    forall q | 0 <= q < |s'.children|
      ensures Shaped(s'.children[q]) && Height(s'.children[q]) + 1 == Height(s')
    {
      assert s'.children[q] == s.children[q];
    }
  }

  /** An internal sibling is what is left of it glued to its last child
      by its last key. */
  lemma ShedLastGlue(s: Node)
    requires s.items != [] && |s.children| == |s.items| + 1
    ensures Glued(ShedLast(s, false), s.items[|s.items| - 1], Node([], [s.children[|s.items|]])) == s
  {
    var L := |s.items|;
    assert s.items[..L - 1] + [s.items[L - 1]] + [] == s.items;
    assert s.children[..L] + [s.children[L]] == s.children;
  }

  /** What is left of an internal sibling keeps its shape. */
  lemma ShedFirstShape(s: Node)
    requires Shaped(s) && s.items != [] && s.children != []
    ensures Shaped(ShedFirst(s, false)) && Height(ShedFirst(s, false)) == Height(s)
  {
    var s' := ShedFirst(s, false);
    assert s'.children[0] == s.children[1];
    forall q | 0 <= q < |s'.children|
      ensures Shaped(s'.children[q]) && Height(s'.children[q]) + 1 == Height(s')
    {
      assert s'.children[q] == s.children[q + 1];
    }
  }

  /** An internal sibling is its first child glued to what is left of it
      by its first key. */
  lemma ShedFirstGlue(s: Node)
    requires s.items != [] && s.children != []
    ensures Glued(Node([], [s.children[0]]), s.items[0], ShedFirst(s, false)) == s
  {
    assert [] + [s.items[0]] + s.items[1..] == s.items;
    assert [s.children[0]] + s.children[1..] == s.children;
  }

  /** An internal child after taking from the left: the sibling's last
      child glued to the child by the parent's key. */
  lemma TakeFrontGlued(x: Item, s: Node, c: Node)
    requires c.children != [] && |s.children| == |s.items| + 1
    ensures TakeFront(x, s, c) == Glued(Node([], [s.children[|s.items|]]), x, c)
  {
    assert [] + [x] + c.items == [x] + c.items;
  }

  /** An internal child after taking from the right: the child glued to
      the sibling's first child by the parent's key. */
  lemma TakeBackGlued(c: Node, x: Item, s: Node)
    requires c.children != [] && s.children != []
    ensures TakeBack(c, x, s) == Glued(c, x, Node([], [s.children[0]]))
  {
    assert c.items + [x] + [] == c.items + [x];
  }

  /** The pieces of a borrow from an internal left sibling `s` into `c`,
      with their shape and in-order views. */
  lemma InnerPrevPieces(x: Item, s: Node, c: Node)
    requires Shaped(s) && Shaped(c) && Height(s) == Height(c)
    requires s.items != [] && s.children != [] && c.children != []
    ensures var s', c' := ShedLast(s, false), TakeFront(x, s, c);
            && Shaped(s') && Height(s') == Height(s)
            && Shaped(c') && Height(c') == Height(c)
            && Flat(s') + [s.items[|s.items| - 1]] + Flat(c') == Flat(s) + [x] + Flat(c)
  {
    var L := |s.items|;
    var g := s.children[L];
    var s', c' := ShedLast(s, false), TakeFront(x, s, c);
    ShedLastShape(s);
    ShedLastGlue(s);
    assert Lift(g) == Node([], [g]);
    Glue(s', s.items[L - 1], Lift(g));
    TakeFrontGlued(x, s, c);
    Glue(Lift(g), x, c);
  }

  /** The pieces of a borrow from a leaf left sibling `s` into the leaf
      `c`. */
  lemma LeafPrevPieces(x: Item, s: Node, c: Node)
    requires s.items != [] && s.children == [] && c.children == []
    ensures var s', c' := ShedLast(s, true), TakeFront(x, s, c);
            && Shaped(s') && Height(s') == Height(s)
            && Shaped(c') && Height(c') == Height(c)
            && Flat(s') + [s.items[|s.items| - 1]] + Flat(c') == Flat(s) + [x] + Flat(c)
  {
    assert s.items == s.items[..|s.items| - 1] + [s.items[|s.items| - 1]];
  }

  /** The pieces of a borrow from an internal right sibling `s` into `c`,
      with their shape and in-order views. */
  lemma InnerNextPieces(c: Node, x: Item, s: Node)
    requires Shaped(s) && Shaped(c) && Height(s) == Height(c)
    requires s.items != [] && s.children != [] && c.children != []
    ensures var c', s' := TakeBack(c, x, s), ShedFirst(s, false);
            && Shaped(s') && Height(s') == Height(s)
            && Shaped(c') && Height(c') == Height(c)
            && Flat(c') + [s.items[0]] + Flat(s') == Flat(c) + [x] + Flat(s)
  {
    var g := s.children[0];
    var c', s' := TakeBack(c, x, s), ShedFirst(s, false);
    ShedFirstShape(s);
    ShedFirstGlue(s);
    assert Lift(g) == Node([], [g]);
    Glue(Lift(g), s.items[0], s');
    TakeBackGlued(c, x, s);
    Glue(c, x, Lift(g));
  }

  /** The pieces of a borrow from a leaf right sibling `s` into the leaf
      `c`. */
  lemma LeafNextPieces(c: Node, x: Item, s: Node)
    requires s.items != [] && s.children == [] && c.children == []
    ensures var c', s' := TakeBack(c, x, s), ShedFirst(s, true);
            && Shaped(s') && Height(s') == Height(s)
            && Shaped(c') && Height(c') == Height(c)
            && Flat(c') + [s.items[0]] + Flat(s') == Flat(c) + [x] + Flat(s)
  {
    assert s.items == [s.items[0]] + s.items[1..];
  }

  /** The pieces of a borrow from the left sibling, of either kind. */
  lemma PrevPieces(n: Node, i: nat)
    requires Shaped(n) && 0 < i < |n.children| && n.children[i - 1].items != []
    ensures var c, s := n.children[i], n.children[i - 1];
            && (c.children != [] ==> |s.children| == |s.items| + 1)
            && var s', c' := ShedLast(s, c.children == []), TakeFront(n.items[i - 1], s, c);
            && Shaped(s') && Height(s') == Height(s)
            && Shaped(c') && Height(c') == Height(c)
            && Flat(s') + [s.items[|s.items| - 1]] + Flat(c') == Flat(s) + [n.items[i - 1]] + Flat(c)
  {
    var c, s := n.children[i], n.children[i - 1];
    Siblings(n, i - 1, i);
    if c.children == [] {
      LeafPrevPieces(n.items[i - 1], s, c);
    } else {
      InnerPrevPieces(n.items[i - 1], s, c);
    }
  }

  /** The pieces of a borrow from the right sibling, of either kind. */
  lemma NextPieces(n: Node, i: nat)
    requires Shaped(n) && i + 1 < |n.children| && n.children[i + 1].items != []
    ensures var c, s := n.children[i], n.children[i + 1];
            && (c.children != [] ==> s.children != [])
            && var c', s' := TakeBack(c, n.items[i], s), ShedFirst(s, c.children == []);
            && Shaped(s') && Height(s') == Height(s)
            && Shaped(c') && Height(c') == Height(c)
            && Flat(c') + [s.items[0]] + Flat(s') == Flat(c) + [n.items[i]] + Flat(s)
  {
    var c, s := n.children[i], n.children[i + 1];
    Siblings(n, i, i + 1);
    if c.children == [] {
      LeafNextPieces(c, n.items[i], s);
    } else {
      InnerNextPieces(c, n.items[i], s);
    }
  }

  /** Borrowing from the left sibling keeps the shape. */
  lemma BorrowFromPrevShape(n: Node, i: nat)
    requires Shaped(n) && 0 < i < |n.children| && n.children[i - 1].items != []
    ensures Shaped(BorrowFromPrev(n, i)) && Height(BorrowFromPrev(n, i)) == Height(n)
  {
    var c, s := n.children[i], n.children[i - 1];
    PrevPieces(n, i);
    Siblings(n, i - 1, i);
    var s', c' := ShedLast(s, c.children == []), TakeFront(n.items[i - 1], s, c);
    assert n.children[i - 1 + 1] == c;
    RotatedShape(n, i - 1, s', s.items[|s.items| - 1], c');
  }

  /** Borrowing from the left sibling keeps the in-order view. */
  lemma BorrowFromPrevKeepsFlat(n: Node, i: nat)
    requires Shaped(n) && 0 < i < |n.children| && n.children[i - 1].items != []
    ensures Flat(BorrowFromPrev(n, i)) == Flat(n)
  {
    var c, s := n.children[i], n.children[i - 1];
    PrevPieces(n, i);
    var s', c' := ShedLast(s, c.children == []), TakeFront(n.items[i - 1], s, c);
    ReplacePair(n, i - 1, s', s.items[|s.items| - 1], c');
  }

  /** Borrowing from the right sibling keeps the shape. */
  lemma BorrowFromNextShape(n: Node, i: nat)
    requires Shaped(n) && i + 1 < |n.children| && n.children[i + 1].items != []
    ensures Shaped(BorrowFromNext(n, i)) && Height(BorrowFromNext(n, i)) == Height(n)
  {
    var c, s := n.children[i], n.children[i + 1];
    NextPieces(n, i);
    Siblings(n, i, i + 1);
    var c', s' := TakeBack(c, n.items[i], s), ShedFirst(s, c.children == []);
    RotatedShape(n, i, c', s.items[0], s');
  }

  /** Borrowing from the right sibling keeps the in-order view. */
  lemma BorrowFromNextKeepsFlat(n: Node, i: nat)
    requires Shaped(n) && i + 1 < |n.children| && n.children[i + 1].items != []
    ensures Flat(BorrowFromNext(n, i)) == Flat(n)
  {
    var c, s := n.children[i], n.children[i + 1];
    NextPieces(n, i);
    var c', s' := TakeBack(c, n.items[i], s), ShedFirst(s, c.children == []);
    ReplacePair(n, i, c', s.items[0], s');
  }

  /** What is left of a sibling is within the lower bound the sibling was
      within. */
  lemma ShedAtLeast(s: Node, leaf: bool, t: nat)
    requires s.items != [] && (leaf || |s.children| == |s.items| + 1) && AtLeast(s, t)
    ensures AtLeast(ShedLast(s, leaf), t) && AtLeast(ShedFirst(s, leaf), t)
  {
    var l, f := ShedLast(s, leaf), ShedFirst(s, leaf);
    forall q | 0 <= q < |l.children|
      ensures t - 1 <= |l.children[q].items| && AtLeast(l.children[q], t)
    {
      assert l.children[q] == s.children[q];
    }
    forall q | 0 <= q < |f.children|
      ensures t - 1 <= |f.children[q].items| && AtLeast(f.children[q], t)
    {
      assert f.children[q] == s.children[q + (if leaf then 0 else 1)];
    }
  }

  /** What is left of a sibling is within the upper bound the sibling was
      within. */
  lemma ShedAtMost(s: Node, leaf: bool, t: nat)
    requires s.items != [] && (leaf || |s.children| == |s.items| + 1) && AtMost(s, t)
    ensures AtMost(ShedLast(s, leaf), t) && AtMost(ShedFirst(s, leaf), t)
  {
    var l, f := ShedLast(s, leaf), ShedFirst(s, leaf);
    forall q | 0 <= q < |l.children|
      ensures AtMost(l.children[q], t)
    {
      assert l.children[q] == s.children[q];
    }
    forall q | 0 <= q < |f.children|
      ensures AtMost(f.children[q], t)
    {
      assert f.children[q] == s.children[q + (if leaf then 0 else 1)];
    }
  }

  /** Everything the borrowing child held is still below it. */
  lemma TakeKeeps(x: Item, s: Node, c: Node)
    requires Shaped(s) && Shaped(c) && Height(s) == Height(c) && s.items != []
    ensures c.children != [] ==> |s.children| == |s.items| + 1
    ensures forall y :: y in Flat(c) ==> y in Flat(TakeFront(x, s, c)) && y in Flat(TakeBack(c, x, s))
  {
    LeafHeight(s);
    LeafHeight(c);
    if c.children != [] {
      var g, h := s.children[|s.items|], s.children[0];
      TakeFrontGlued(x, s, c);
      TakeBackGlued(c, x, s);
      assert Lift(g) == Node([], [g]) && Lift(h) == Node([], [h]);
      Glue(Lift(g), x, c);
      Glue(c, x, Lift(h));
    }
  }

  /** The borrowing child stays within the lower bound. */
  lemma TakeAtLeast(x: Item, s: Node, c: Node, t: nat)
    requires s.items != [] && (c.children != [] ==> |s.children| == |s.items| + 1)
    requires AtLeast(s, t) && AtLeast(c, t)
    ensures AtLeast(TakeFront(x, s, c), t) && AtLeast(TakeBack(c, x, s), t)
  {
    var f, b := TakeFront(x, s, c), TakeBack(c, x, s);
    if c.children != [] {
      assert f.children[0] == s.children[|s.items|];
      assert forall q :: 1 <= q < |f.children| ==> f.children[q] == c.children[q - 1];
      assert b.children[|c.children|] == s.children[0];
      assert forall q :: 0 <= q < |c.children| ==> b.children[q] == c.children[q];
    }
  }

  /** A borrowing child of fewer than t keys stays within the upper
      bound. */
  lemma TakeAtMost(x: Item, s: Node, c: Node, t: nat)
    requires s.items != [] && (c.children != [] ==> |s.children| == |s.items| + 1)
    requires AtMost(s, t) && AtMost(c, t) && t >= 1 && |c.items| < t
    ensures AtMost(TakeFront(x, s, c), t) && AtMost(TakeBack(c, x, s), t)
  {
    var f, b := TakeFront(x, s, c), TakeBack(c, x, s);
    if c.children != [] {
      assert f.children[0] == s.children[|s.items|];
      assert forall q :: 1 <= q < |f.children| ==> f.children[q] == c.children[q - 1];
      assert b.children[|c.children|] == s.children[0];
      assert forall q :: 0 <= q < |c.children| ==> b.children[q] == c.children[q];
    }
  }

  /** A borrow from a left sibling of at least t keys keeps the lower
      bound. */
  lemma BorrowFromPrevAtLeast(n: Node, i: nat, t: nat)
    requires Shaped(n) && 0 < i < |n.children| && AtLeast(n, t)
    requires |n.children[i - 1].items| >= t >= 1
    ensures AtLeast(BorrowFromPrev(n, i), t)
  {
    var c, s := n.children[i], n.children[i - 1];
    PrevPieces(n, i);
    ShedAtLeast(s, c.children == [], t);
    TakeAtLeast(n.items[i - 1], s, c, t);
    RotatedAtLeast(n, i - 1, ShedLast(s, c.children == []), s.items[|s.items| - 1],
                   TakeFront(n.items[i - 1], s, c), t);
  }

  /** A borrow into a child of fewer than t keys keeps the upper bound. */
  lemma BorrowFromPrevAtMost(n: Node, i: nat, t: nat)
    requires Shaped(n) && 0 < i < |n.children| && AtMost(n, t)
    requires |n.children[i - 1].items| >= 1 && |n.children[i].items| < t
    ensures AtMost(BorrowFromPrev(n, i), t)
  {
    var c, s := n.children[i], n.children[i - 1];
    PrevPieces(n, i);
    ShedAtMost(s, c.children == [], t);
    TakeAtMost(n.items[i - 1], s, c, t);
    RotatedAtMost(n, i - 1, ShedLast(s, c.children == []), s.items[|s.items| - 1],
                  TakeFront(n.items[i - 1], s, c), t);
  }

  /** A borrow from a right sibling of at least t keys keeps the lower
      bound. */
  lemma BorrowFromNextAtLeast(n: Node, i: nat, t: nat)
    requires Shaped(n) && i + 1 < |n.children| && AtLeast(n, t)
    requires |n.children[i + 1].items| >= t >= 1
    ensures AtLeast(BorrowFromNext(n, i), t)
  {
    var c, s := n.children[i], n.children[i + 1];
    NextPieces(n, i);
    Siblings(n, i, i + 1);
    ShedAtLeast(s, c.children == [], t);
    TakeAtLeast(n.items[i], s, c, t);
    RotatedAtLeast(n, i, TakeBack(c, n.items[i], s), s.items[0], ShedFirst(s, c.children == []), t);
  }

  /** A borrow into a child of fewer than t keys keeps the upper bound. */
  lemma BorrowFromNextAtMost(n: Node, i: nat, t: nat)
    requires Shaped(n) && i + 1 < |n.children| && AtMost(n, t)
    requires |n.children[i + 1].items| >= 1 && |n.children[i].items| < t
    ensures AtMost(BorrowFromNext(n, i), t)
  {
    var c, s := n.children[i], n.children[i + 1];
    NextPieces(n, i);
    Siblings(n, i, i + 1);
    ShedAtMost(s, c.children == [], t);
    TakeAtMost(n.items[i], s, c, t);
    RotatedAtMost(n, i, TakeBack(c, n.items[i], s), s.items[0], ShedFirst(s, c.children == []), t);
  }

  // ---------------------------------------------------------------------
  // filling a thin child
  // ---------------------------------------------------------------------

  /** `_fill`: give child `i` a key, from the left sibling if it can spare
      one, else from the right sibling, else merge it with its right
      sibling, or with its left one when it is the last child. */
  function Fill(n: Node, i: nat, t: nat): (r: Node)
    requires t >= 1 && Shaped(n) && RootOk(n) && i < |n.children|
    ensures |r.items| == |n.items| || |r.items| + 1 == |n.items|
    ensures Shaped(r) && Height(r) == Height(n)
  {
    if i != 0 && |n.children[i - 1].items| >= t then
      BorrowFromPrevShape(n, i);
      BorrowFromPrev(n, i)
    else if i != |n.children| - 1 && |n.children[i + 1].items| >= t then
      BorrowFromNextShape(n, i);
      BorrowFromNext(n, i)
    else if i != |n.children| - 1 then Merge(n, i)
    else Merge(n, i - 1)
  }

  /** Filling keeps the in-order view. */
  lemma FillKeepsFlat(n: Node, i: nat, t: nat)
    requires t >= 1 && Shaped(n) && RootOk(n) && i < |n.children|
    ensures Flat(Fill(n, i, t)) == Flat(n)
  {
    var f := Fill(n, i, t);
    if i != 0 && |n.children[i - 1].items| >= t {
      assert f == BorrowFromPrev(n, i);
      BorrowFromPrevKeepsFlat(n, i);
    } else if i != |n.children| - 1 && |n.children[i + 1].items| >= t {
      assert f == BorrowFromNext(n, i);
      BorrowFromNextKeepsFlat(n, i);
    } else if i != |n.children| - 1 {
      assert f == Merge(n, i);
      MergeKeepsFlat(n, i);
    } else {
      assert f == Merge(n, i - 1);
      MergeKeepsFlat(n, i - 1);
    }
  }

  /** Filling keeps the lower bound. */
  lemma FillAtLeast(n: Node, i: nat, t: nat)
    requires t >= 1 && Shaped(n) && RootOk(n) && i < |n.children| && AtLeast(n, t)
    ensures AtLeast(Fill(n, i, t), t)
  {
    var f := Fill(n, i, t);
    if i != 0 && |n.children[i - 1].items| >= t {
      assert f == BorrowFromPrev(n, i);
      BorrowFromPrevAtLeast(n, i, t);
    } else if i != |n.children| - 1 && |n.children[i + 1].items| >= t {
      assert f == BorrowFromNext(n, i);
      BorrowFromNextAtLeast(n, i, t);
    } else if i != |n.children| - 1 {
      assert f == Merge(n, i);
      MergeAtLeast(n, i, t);
    } else {
      assert f == Merge(n, i - 1);
      MergeAtLeast(n, i - 1, t);
    }
  }

  /** Filling a child of fewer than t keys keeps the upper bound: a merge
      only meets siblings that hold fewer than t keys too. */
  lemma FillAtMost(n: Node, i: nat, t: nat)
    requires t >= 1 && Shaped(n) && RootOk(n) && i < |n.children| && AtMost(n, t)
    requires |n.children[i].items| < t
    ensures AtMost(Fill(n, i, t), t)
  {
    var f := Fill(n, i, t);
    if i != 0 && |n.children[i - 1].items| >= t {
      assert f == BorrowFromPrev(n, i);
      BorrowFromPrevAtMost(n, i, t);
    } else if i != |n.children| - 1 && |n.children[i + 1].items| >= t {
      assert f == BorrowFromNext(n, i);
      BorrowFromNextAtMost(n, i, t);
    } else if i != |n.children| - 1 {
      assert f == Merge(n, i);
      MergeAtMost(n, i, t);
    } else {
      assert f == Merge(n, i - 1);
      MergeAtMost(n, i - 1, t);
    }
  }

  /** After filling child `i` of t - 1 keys, the child `_delete` descends
      into holds at least t keys and everything child `i` held.  It is
      child `i`, or child `i - 1` when the last child was merged into its
      left neighbour. */
  lemma FillRoom(n: Node, i: nat, t: nat)
    requires t >= 1 && Shaped(n) && RootOk(n) && i < |n.children| && AtLeast(n, t)
    requires |n.children[i].items| < t
    ensures var f := Fill(n, i, t);
            var j := if i == |n.items| && i > |f.items| then i - 1 else i;
            && j < |f.children| && |f.children[j].items| >= t
            && forall y :: y in Flat(n.children[i]) ==> y in Flat(f.children[j])
  {
    var cs, xs := n.children, n.items;
    var f := Fill(n, i, t);
    if i != 0 && |cs[i - 1].items| >= t {
      assert f == BorrowFromPrev(n, i);
      Siblings(n, i - 1, i);
      assert f.children[i] == TakeFront(xs[i - 1], cs[i - 1], cs[i]);
      TakeKeeps(xs[i - 1], cs[i - 1], cs[i]);
    } else if i != |cs| - 1 && |cs[i + 1].items| >= t {
      assert f == BorrowFromNext(n, i);
      Siblings(n, i, i + 1);
      assert f.children[i] == TakeBack(cs[i], xs[i], cs[i + 1]);
      TakeKeeps(xs[i], cs[i + 1], cs[i]);
    } else if i != |cs| - 1 {
      assert f == Merge(n, i);
      Siblings(n, i, i + 1);
      Glue(cs[i], xs[i], cs[i + 1]);
    } else {
      assert f == Merge(n, i - 1);
      Siblings(n, i - 1, i);
      Glue(cs[i - 1], xs[i - 1], cs[i]);
    }
  }

  // ---------------------------------------------------------------------
  // deletion
  // ---------------------------------------------------------------------

  /** What `_delete` has made sure of before it descends below `n` into the
      subtree that covers child `i`: the node keeps its shape, bounds and
      in-order view, loses at most one key, and the child it descends into
      holds at least t keys and everything child `i` held. */
  ghost predicate Prepared(n: Node, i: nat, t: nat, d: Descent)
    requires i < |n.children|
  {
    && Shaped(d.node) && Height(d.node) == Height(n) && AtLeast(d.node, t)
    && (AtMost(n, t) ==> AtMost(d.node, t))
    && Flat(d.node) == Flat(n)
    && |n.items| - 1 <= |d.node.items| <= |n.items|
    && d.slot < |d.node.children|
    && |d.node.children[d.slot].items| >= t
    && forall y :: y in Flat(n.children[i]) ==> y in Flat(d.node.children[d.slot])
  }

  lemma FilledPrepared(n: Node, i: nat, t: nat)
    requires Deletable(n, t) && i < |n.children| && |n.children[i].items| < t
    ensures var f := Fill(n, i, t);
            Prepared(n, i, t, Descent(f, if i == |n.items| && i > |f.items| then i - 1 else i))
  {
    FillKeepsFlat(n, i, t);
    FillAtLeast(n, i, t);
    if AtMost(n, t) {
      FillAtMost(n, i, t);
    }
    FillRoom(n, i, t);
  }

  /** `_delete` below an internal node that does not hold the key: child
      `i` is filled when it holds fewer than t keys, and the descent goes on
      into the child that now covers it. */
  function Prepare(n: Node, i: nat, t: nat): (d: Descent)
    requires Deletable(n, t) && i < |n.children|
    ensures Prepared(n, i, t, d)
  {
    var flag := i == |n.items|;
    if |n.children[i].items| < t then
      var f := Fill(n, i, t);
      FilledPrepared(n, i, t);
      Descent(f, if flag && i > |f.items| then i - 1 else i)
    else
      Descent(n, i)
  }

  /** `_delete`: remove one item with key `k` from the subtree, if there is
      one.  Every node it passes holds at least t keys, except the root. */
  function Delete(n: Node, k: Key, t: nat): Node
    requires Deletable(n, t)
    decreases Height(n), 1
  {
    var i := LowerBound(n.items, k);
    if i < |n.items| && n.items[i].key == k then
      if n.children == [] then Node(n.items[..i] + n.items[i + 1..], n.children)
      else DeleteInternal(n, k, i, t)
    else if n.children == [] then n
    else
      var d := Prepare(n, i, t);
      var c := d.node.children[d.slot];
      d.node.(children := d.node.children[d.slot := Delete(c, k, t)])
  }

  /** `_delete_internal_node`: the key `k` is key `idx` of the internal
      node `n`.  Replace it by its predecessor or successor when the child
      on that side can spare a key and delete that item below, or else
      merge the two children around it and delete from the merged child. */
  function DeleteInternal(n: Node, k: Key, idx: nat, t: nat): Node
    requires Deletable(n, t) && n.children != [] && idx < |n.items|
    decreases Height(n), 0
  {
    var c, d := n.children[idx], n.children[idx + 1];
    if |c.items| >= t then
      FilledBelow(c, t);
      var p := Predecessor(c);
      n.(items := n.items[idx := p], children := n.children[idx := Delete(c, p.key, t)])
    else if |d.items| >= t then
      FilledBelow(d, t);
      var s := Successor(d);
      n.(items := n.items[idx := s], children := n.children[idx + 1 := Delete(d, s.key, t)])
    else
      var m := Merge(n, idx);
      MergeAtLeast(n, idx, t);
      m.(children := m.children[idx := Delete(m.children[idx], k, t)])
  }

  /** `BTree.delete`: delete below the root, then let an internal root that
      has lost its last key give way to its only child. */
  function DeleteTree(n: Node, k: Key, t: nat): (r: Node)
    requires Deletable(n, t)
    ensures Shaped(r)
  {
    DeleteShape(n, k, t);
    var r := Delete(n, k, t);
    if |r.items| == 0 && r.children != [] then r.children[0] else r
  }

  // ---------------------------------------------------------------------
  // shape and bounds after deletion
  // ---------------------------------------------------------------------

  /** Changing a key keeps the shape and both bounds. */
  lemma Rekey(n: Node, i: nat, y: Item, t: nat)
    requires Shaped(n) && i < |n.items|
    ensures var n' := n.(items := n.items[i := y]);
            && Shaped(n') && Height(n') == Height(n)
            && (AtLeast(n, t) ==> AtLeast(n', t)) && (AtMost(n, t) ==> AtMost(n', t))
  {
  }

  /** Deletion keeps the shape, the height and the lower bound, and takes
      at most one key from the node it starts at. */
  lemma {:induction false} DeleteShape(n: Node, k: Key, t: nat)
    requires Deletable(n, t)
    ensures var r := Delete(n, k, t);
            && Shaped(r) && Height(r) == Height(n) && AtLeast(r, t)
            && |n.items| - 1 <= |r.items| <= |n.items|
    decreases Height(n), 1
  {
    var i := LowerBound(n.items, k);
    if i < |n.items| && n.items[i].key == k {
      if n.children != [] {
        DeleteInternalShape(n, k, i, t);
      }
    } else if n.children != [] {
      var d := Prepare(n, i, t);
      var c := d.node.children[d.slot];
      DeleteShape(c, k, t);
      var c' := Delete(c, k, t);
      ReplaceShape(d.node, d.slot, c');
      ReplaceBounds(d.node, d.slot, c', t);
    }
  }

  lemma {:induction false} DeleteInternalShape(n: Node, k: Key, idx: nat, t: nat)
    requires Deletable(n, t) && n.children != [] && idx < |n.items|
    ensures var r := DeleteInternal(n, k, idx, t);
            && Shaped(r) && Height(r) == Height(n) && AtLeast(r, t)
            && |n.items| - 1 <= |r.items| <= |n.items|
    decreases Height(n), 0
  {
    var c, d := n.children[idx], n.children[idx + 1];
    if |c.items| >= t {
      FilledBelow(c, t);
      var p := Predecessor(c);
      DeleteShape(c, p.key, t);
      var n' := n.(items := n.items[idx := p]);
      Rekey(n, idx, p, t);
      ReplaceShape(n', idx, Delete(c, p.key, t));
      ReplaceBounds(n', idx, Delete(c, p.key, t), t);
    } else if |d.items| >= t {
      FilledBelow(d, t);
      var s := Successor(d);
      DeleteShape(d, s.key, t);
      var n' := n.(items := n.items[idx := s]);
      Rekey(n, idx, s, t);
      ReplaceShape(n', idx + 1, Delete(d, s.key, t));
      ReplaceBounds(n', idx + 1, Delete(d, s.key, t), t);
    } else {
      var m := Merge(n, idx);
      MergeAtLeast(n, idx, t);
      DeleteShape(m.children[idx], k, t);
      ReplaceShape(m, idx, Delete(m.children[idx], k, t));
      ReplaceBounds(m, idx, Delete(m.children[idx], k, t), t);
    }
  }

  /** Deletion keeps the upper bound. */
  lemma {:induction false} DeleteAtMost(n: Node, k: Key, t: nat)
    requires Deletable(n, t) && AtMost(n, t)
    ensures AtMost(Delete(n, k, t), t)
    decreases Height(n), 1
  {
    var i := LowerBound(n.items, k);
    if i < |n.items| && n.items[i].key == k {
      if n.children != [] {
        DeleteInternalAtMost(n, k, i, t);
      }
    } else if n.children != [] {
      var d := Prepare(n, i, t);
      var c := d.node.children[d.slot];
      DeleteAtMost(c, k, t);
      ReplaceBounds(d.node, d.slot, Delete(c, k, t), t);
    }
  }

  lemma {:induction false} DeleteInternalAtMost(n: Node, k: Key, idx: nat, t: nat)
    requires Deletable(n, t) && AtMost(n, t) && n.children != [] && idx < |n.items|
    ensures AtMost(DeleteInternal(n, k, idx, t), t)
    decreases Height(n), 0
  {
    var c, d := n.children[idx], n.children[idx + 1];
    if |c.items| >= t {
      FilledBelow(c, t);
      var p := Predecessor(c);
      DeleteAtMost(c, p.key, t);
      Rekey(n, idx, p, t);
      ReplaceBounds(n.(items := n.items[idx := p]), idx, Delete(c, p.key, t), t);
    } else if |d.items| >= t {
      FilledBelow(d, t);
      var s := Successor(d);
      DeleteAtMost(d, s.key, t);
      Rekey(n, idx, s, t);
      ReplaceBounds(n.(items := n.items[idx := s]), idx + 1, Delete(d, s.key, t), t);
    } else {
      var m := Merge(n, idx);
      MergeAtLeast(n, idx, t);
      MergeAtMost(n, idx, t);
      DeleteAtMost(m.children[idx], k, t);
      ReplaceBounds(m, idx, Delete(m.children[idx], k, t), t);
    }
  }

  // ---------------------------------------------------------------------
  // what deletion removes
  // ---------------------------------------------------------------------

  /** A child of a node with strictly increasing keys has them too. */
  lemma ChildStrict(n: Node, i: nat)
    requires n.children != [] && |n.children| == |n.items| + 1 && i < |n.children|
    requires StrictlySorted(Flat(n))
    ensures StrictlySorted(Flat(n.children[i]))
  {
    var a, f, b := Pre(n.children[..i], n.items[..i]), Flat(n.children[i]),
                   Post(n.items[i..], n.children[i + 1..]);
    FlatAround(n, i);
    StrictSplit(a + f, b);
    StrictSplit(a, f);
  }

  /** Removing `k` from the middle of a strictly increasing sequence
      removes it from the middle piece alone, when the outer pieces can
      only hold `k` if the middle one does. */
  lemma Focus(a: seq<Item>, f: seq<Item>, b: seq<Item>, k: Key)
    requires StrictlySorted(a + f + b)
    requires KeyFree(f, k) ==> KeyFree(a, k) && KeyFree(b, k)
    ensures RemoveKey(a + f + b, k) == a + RemoveKey(f, k) + b
  {
    if !KeyFree(f, k) {
      var z :| z in f && z.key == k;
      StrictSplit(a + f, b);
      StrictSplit(a, f);
      assert z in a + f;
    }
    RemoveInside(a, f, b, k);
  }

  /** Replacing a child by the same child without `k` removes `k` from the
      node, when the rest of the node can only hold `k` if the child does. */
  lemma ReplaceRemoving(m: Node, j: nat, c: Node, k: Key)
    requires m.children != [] && |m.children| == |m.items| + 1 && j < |m.children|
    requires StrictlySorted(Flat(m))
    requires KeyFree(Flat(m.children[j]), k) ==> KeyFree(Flat(m), k)
    requires Flat(c) == RemoveKey(Flat(m.children[j]), k)
    ensures Flat(m.(children := m.children[j := c])) == RemoveKey(Flat(m), k)
  {
    var a, f, b := Pre(m.children[..j], m.items[..j]), Flat(m.children[j]),
                   Post(m.items[j..], m.children[j + 1..]);
    ReplaceChild(m, j, c);
    forall y | y in a || y in b
      ensures y in Flat(m)
    {
    }
    Focus(a, f, b, k);
  }

  /** Below a node that does not hold `k`, the child the key scan stops at
      is the only place `k` can be. */
  lemma FreeAround(n: Node, i: nat, k: Key)
    requires n.children != [] && |n.children| == |n.items| + 1 && i < |n.children|
    requires StrictlySorted(Flat(n))
    requires i > 0 ==> n.items[i - 1].key < k
    requires i < |n.items| ==> k < n.items[i].key
    ensures KeyFree(Flat(n.children[i]), k) ==> KeyFree(Flat(n), k)
  {
    FlatAround(n, i);
    Window(n, i, k);
  }

  /** A leaf holds `k` only where the key scan stops. */
  lemma LeafMiss(xs: seq<Item>, k: Key)
    requires StrictlySorted(xs)
    requires LowerBound(xs, k) == |xs| || xs[LowerBound(xs, k)].key != k
    ensures KeyFree(xs, k)
  {
    var i := LowerBound(xs, k);
    forall y | y in xs
      ensures y.key != k
    {
      var q :| 0 <= q < |xs| && xs[q] == y;
      if q > i {
        assert xs[i].key < xs[q].key;
      }
    }
  }

  /** The descent step of `_delete`: deleting below the prepared node
      removes `k` from the node. */
  lemma DescendRemoves(n: Node, i: nat, k: Key, t: nat, d: Descent, c': Node)
    requires n.children != [] && |n.children| == |n.items| + 1 && i < |n.children|
    requires StrictlySorted(Flat(n))
    requires i > 0 ==> n.items[i - 1].key < k
    requires i < |n.items| ==> k < n.items[i].key
    requires Prepared(n, i, t, d)
    requires Flat(c') == RemoveKey(Flat(d.node.children[d.slot]), k)
    ensures Flat(d.node.(children := d.node.children[d.slot := c'])) == RemoveKey(Flat(n), k)
  {
    FreeAround(n, i, k);
    ReplaceRemoving(d.node, d.slot, c', k);
  }

  /** With strictly increasing keys, deletion removes exactly the item
      with key `k`, if there is one, and keeps every other item in order. */
  lemma {:induction false} DeleteRemoves(n: Node, k: Key, t: nat)
    requires Deletable(n, t) && StrictlySorted(Flat(n))
    ensures Flat(Delete(n, k, t)) == RemoveKey(Flat(n), k)
    decreases Height(n), 2
  {
    var i := LowerBound(n.items, k);
    var xs := n.items;
    if i < |xs| && xs[i].key == k {
      if n.children == [] {
        assert xs == xs[..i] + [xs[i]] + xs[i + 1..];
        RemoveSole(xs[..i], xs[i], xs[i + 1..]);
      } else {
        DeleteInternalRemoves(n, k, i, t);
      }
    } else if n.children == [] {
      LeafMiss(xs, k);
      RemoveKeyFree(xs, k);
    } else {
      var d := Prepare(n, i, t);
      var c := d.node.children[d.slot];
      ChildStrict(d.node, d.slot);
      DeleteRemoves(c, k, t);
      DescendRemoves(n, i, k, t, d, Delete(c, k, t));
    }
  }

  lemma {:induction false} DeleteInternalRemoves(n: Node, k: Key, idx: nat, t: nat)
    requires Deletable(n, t) && n.children != [] && idx < |n.items|
    requires StrictlySorted(Flat(n)) && n.items[idx].key == k
    ensures Flat(DeleteInternal(n, k, idx, t)) == RemoveKey(Flat(n), k)
    decreases Height(n), 1
  {
    if |n.children[idx].items| >= t {
      PredecessorCaseRemoves(n, k, idx, t);
    } else if |n.children[idx + 1].items| >= t {
      SuccessorCaseRemoves(n, k, idx, t);
    } else {
      MergeCaseRemoves(n, k, idx, t);
    }
  }

  /** Case 2a of `DeleteInternalRemoves`, the left child having room. */
  lemma {:induction false} PredecessorCaseRemoves(n: Node, k: Key, idx: nat, t: nat)
    requires Deletable(n, t) && n.children != [] && idx < |n.items|
    requires StrictlySorted(Flat(n)) && n.items[idx].key == k
    requires |n.children[idx].items| >= t
    ensures Flat(DeleteInternal(n, k, idx, t)) == RemoveKey(Flat(n), k)
    decreases Height(n), 0
  {
    var c := n.children[idx];
    FilledBelow(c, t);
    var p := Predecessor(c);
    ChildStrict(n, idx);
    DeleteRemoves(c, p.key, t);
    RemoveLast(Flat(c));
    PredecessorStep(n, idx, p, Delete(c, p.key, t));
  }

  /** Case 2b of `DeleteInternalRemoves`, only the right child having
      room. */
  lemma {:induction false} SuccessorCaseRemoves(n: Node, k: Key, idx: nat, t: nat)
    requires Deletable(n, t) && n.children != [] && idx < |n.items|
    requires StrictlySorted(Flat(n)) && n.items[idx].key == k
    requires |n.children[idx].items| < t <= |n.children[idx + 1].items|
    ensures Flat(DeleteInternal(n, k, idx, t)) == RemoveKey(Flat(n), k)
    decreases Height(n), 0
  {
    var d := n.children[idx + 1];
    FilledBelow(d, t);
    var s := Successor(d);
    ChildStrict(n, idx + 1);
    DeleteRemoves(d, s.key, t);
    RemoveFirst(Flat(d));
    SuccessorStep(n, idx, s, Delete(d, s.key, t));
  }

  /** Case 2c of `DeleteInternalRemoves`, neither child having room. */
  lemma {:induction false} MergeCaseRemoves(n: Node, k: Key, idx: nat, t: nat)
    requires Deletable(n, t) && n.children != [] && idx < |n.items|
    requires StrictlySorted(Flat(n)) && n.items[idx].key == k
    requires |n.children[idx].items| < t && |n.children[idx + 1].items| < t
    ensures Flat(DeleteInternal(n, k, idx, t)) == RemoveKey(Flat(n), k)
    decreases Height(n), 0
  {
    var m := Merge(n, idx);
    MergeAtLeast(n, idx, t);
    MergeKeepsFlat(n, idx);
    ChildStrict(m, idx);
    DeleteRemoves(m.children[idx], k, t);
    MergeStep(n, idx, Delete(m.children[idx], k, t));
  }

  /** Case 2c: the two children merged around the key, and the key deleted
      from the merged child, removes the key. */
  lemma MergeStep(n: Node, idx: nat, g': Node)
    requires Shaped(n) && n.children != [] && idx < |n.items|
    requires StrictlySorted(Flat(n))
    requires Flat(g') == RemoveKey(Flat(Merge(n, idx).children[idx]), n.items[idx].key)
    ensures var m := Merge(n, idx);
            Flat(m.(children := m.children[idx := g'])) == RemoveKey(Flat(n), n.items[idx].key)
  {
    var m := Merge(n, idx);
    MergeKeepsFlat(n, idx);
    Glue(n.children[idx], n.items[idx], n.children[idx + 1]);
    assert n.items[idx] in Flat(m.children[idx]);
    ReplaceRemoving(m, idx, g', n.items[idx].key);
  }

  /** Removing the key of a middle item of a strictly increasing
      sequence. */
  lemma RemoveMiddle(p: seq<Item>, a: seq<Item>, x: Item, b: seq<Item>, q: seq<Item>)
    requires StrictlySorted(p + (a + [x] + b) + q)
    ensures RemoveKey(p + (a + [x] + b) + q, x.key) == p + (a + b) + q
  {
    assert p + (a + [x] + b) + q == (p + a) + [x] + (b + q);
    RemoveSole(p + a, x, b + q);
    assert (p + a) + (b + q) == p + (a + b) + q;
  }

  /** Removing the key of the last item of a strictly increasing sequence
      drops that item. */
  lemma RemoveLast(s: seq<Item>)
    requires s != [] && StrictlySorted(s)
    ensures RemoveKey(s, s[|s| - 1].key) == s[..|s| - 1]
  {
    assert s == s[..|s| - 1] + [s[|s| - 1]] + [];
    RemoveSole(s[..|s| - 1], s[|s| - 1], []);
    assert s[..|s| - 1] + [] == s[..|s| - 1];
  }

  /** Removing the key of the first item of a strictly increasing sequence
      drops that item. */
  lemma RemoveFirst(s: seq<Item>)
    requires s != [] && StrictlySorted(s)
    ensures RemoveKey(s, s[0].key) == s[1..]
  {
    assert s == [] + [s[0]] + s[1..];
    RemoveSole([], s[0], s[1..]);
    assert [] + s[1..] == s[1..];
  }

  /** Case 2a: the key replaced by its predecessor `p`, and `p` deleted
      from the left child, removes the key. */
  lemma PredecessorStep(n: Node, idx: nat, p: Item, c': Node)
    requires n.children != [] && |n.children| == |n.items| + 1 && idx < |n.items|
    requires StrictlySorted(Flat(n))
    requires Flat(n.children[idx]) != [] && p == Flat(n.children[idx])[|Flat(n.children[idx])| - 1]
    requires Flat(c') == Flat(n.children[idx])[..|Flat(n.children[idx])| - 1]
    ensures Flat(n.(items := n.items[idx := p], children := n.children[idx := c']))
            == RemoveKey(Flat(n), n.items[idx].key)
  {
    var c, d, x := n.children[idx], n.children[idx + 1], n.items[idx];
    var P, Q := Pre(n.children[..idx], n.items[..idx]), Post(n.items[idx + 1..], n.children[idx + 2..]);
    assert Flat(c) == Flat(c') + [p];
    PairOf(n, idx);
    RemoveMiddle(P, Flat(c), x, Flat(d), Q);
    assert n.children[idx := c'][idx + 1 := d] == n.children[idx := c'];
    PairAround(n, idx, c', p, d);
  }

  /** Case 2b: the key replaced by its successor `s`, and `s` deleted from
      the right child, removes the key. */
  lemma SuccessorStep(n: Node, idx: nat, s: Item, d': Node)
    requires n.children != [] && |n.children| == |n.items| + 1 && idx < |n.items|
    requires StrictlySorted(Flat(n))
    requires Flat(n.children[idx + 1]) != [] && s == Flat(n.children[idx + 1])[0]
    requires Flat(d') == Flat(n.children[idx + 1])[1..]
    ensures Flat(n.(items := n.items[idx := s], children := n.children[idx + 1 := d']))
            == RemoveKey(Flat(n), n.items[idx].key)
  {
    var c, d, x := n.children[idx], n.children[idx + 1], n.items[idx];
    var P, Q := Pre(n.children[..idx], n.items[..idx]), Post(n.items[idx + 1..], n.children[idx + 2..]);
    assert Flat(d) == [s] + Flat(d');
    PairOf(n, idx);
    RemoveMiddle(P, Flat(c), x, Flat(d), Q);
    assert n.children[idx := c][idx + 1 := d'] == n.children[idx + 1 := d'];
    PairAround(n, idx, c, s, d');
  }

  // ---------------------------------------------------------------------
  // the whole tree
  // ---------------------------------------------------------------------

  /** The items left after removing `k` are the items of other keys. */
  lemma {:induction false} RemoveKeyMembers(s: seq<Item>, k: Key, y: Item)
    ensures y in RemoveKey(s, k) <==> y in s && y.key != k
  {
    if s != [] {
      RemoveKeyMembers(s[1..], k, y);
      assert s == [s[0]] + s[1..];
    }
  }

  /** Removing a key keeps the keys strictly increasing. */
  lemma {:induction false} RemoveKeyStrict(s: seq<Item>, k: Key)
    requires StrictlySorted(s)
    ensures StrictlySorted(RemoveKey(s, k))
  {
    if s != [] {
      var r := RemoveKey(s[1..], k);
      RemoveKeyStrict(s[1..], k);
      if s[0].key != k {
        forall j | 0 <= j < |r|
          ensures s[0].key < r[j].key
        {
          RemoveKeyMembers(s[1..], k, r[j]);
          var q :| 0 <= q < |s[1..]| && s[1..][q] == r[j];
          assert s[q + 1] == r[j];
        }
        assert RemoveKey(s, k) == [s[0]] + r;
      }
    }
  }

  /** The root left by `BTree.delete` is again deletable, one level lower
      when the old root lost its last key, and within the upper bound when
      the tree was. */
  lemma DeleteTreeShape(n: Node, k: Key, t: nat)
    requires Deletable(n, t)
    ensures var r := DeleteTree(n, k, t);
            && Deletable(r, t)
            && (Height(r) == Height(n) || Height(r) + 1 == Height(n))
            && (AtMost(n, t) ==> AtMost(r, t))
  {
    DeleteShape(n, k, t);
    if AtMost(n, t) {
      DeleteAtMost(n, k, t);
    }
  }

  /** With strictly increasing keys, `BTree.delete` removes exactly the
      item with key `k`, if there is one. */
  lemma DeleteTreeRemoves(n: Node, k: Key, t: nat)
    requires Deletable(n, t) && StrictlySorted(Flat(n))
    ensures Flat(DeleteTree(n, k, t)) == RemoveKey(Flat(n), k)
  {
    DeleteShape(n, k, t);
    DeleteRemoves(n, k, t);
  }

  /** `BTree.delete` keeps the B-tree invariant and strictly increasing
      keys. */
  lemma DeleteKeepsValid(n: Node, k: Key, t: nat)
    requires Valid(n, t) && StrictlySorted(Flat(n))
    ensures Valid(DeleteTree(n, k, t), t) && StrictlySorted(Flat(DeleteTree(n, k, t)))
  {
    DeleteTreeShape(n, k, t);
    DeleteTreeRemoves(n, k, t);
    RemoveKeyStrict(Flat(n), k);
  }

  /** After `BTree.delete` the key is gone, and every other key finds what
      it found before. */
  lemma DeleteThenSearch(n: Node, k: Key, k': Key, t: nat)
    requires Valid(n, t) && StrictlySorted(Flat(n))
    ensures Search(DeleteTree(n, k, t), k) == None
    ensures k' != k ==> Search(DeleteTree(n, k, t), k') == Search(n, k')
  {
    var r := DeleteTree(n, k, t);
    DeleteKeepsValid(n, k, t);
    DeleteTreeRemoves(n, k, t);
    forall y | y in Flat(r)
      ensures y.key != k
    {
      RemoveKeyMembers(Flat(n), k, y);
    }
    SearchFindsPresent(r, k);
    if k' != k {
      SearchSame(n, r, k', k);
    }
  }

  /** Two trees whose items agree on key `k'` give the same search
      result for it. */
  lemma SearchSame(n: Node, r: Node, k': Key, k: Key)
    requires Shaped(n) && StrictlySorted(Flat(n)) && Shaped(r) && StrictlySorted(Flat(r))
    requires Flat(r) == RemoveKey(Flat(n), k) && k' != k
    ensures Search(r, k') == Search(n, k')
  {
    SearchFindsPresent(n, k');
    SearchFindsPresent(r, k');
    if Search(n, k').Some? {
      var v := Search(n, k').value;
      SearchIsMembership(n, k', v);
      RemoveKeyMembers(Flat(n), k, Item(k', v));
      SearchIsMembership(r, k', v);
    } else {
      forall y | y in Flat(r)
        ensures y.key != k'
      {
        RemoveKeyMembers(Flat(n), k, y);
      }
    }
  }
}

=== FILE: btree_delete_runs.dfy ===
/** Concrete runs of `BTree.delete` and what they show about its
    traversal: deleting a stored key from the root takes the successor up,
    and deleting a key that is not stored can still reshape the tree. */
module BTreeDeleteRuns {
  import opened BTree
  import opened BTreeDelete
  import opened BTreeTraverse

  /** A root with one key over two leaves that hold at least t - 1 keys
      each is a tree `BTree.delete` accepts. */
  lemma TwoLeavesDeletable(a: seq<Item>, x: Item, b: seq<Item>, t: nat)
    requires t >= 2 && t - 1 <= |a| && t - 1 <= |b|
    ensures Deletable(Node([x], [Leaf(a), Leaf(b)]), t)
  {
    var n := Node([x], [Leaf(a), Leaf(b)]);
    assert Height(n) == 1;
    forall q | 0 <= q < |n.children|
      ensures Shaped(n.children[q]) && Height(n.children[q]) + 1 == Height(n)
      ensures t - 1 <= |n.children[q].items| && AtLeast(n.children[q], t)
    {
      assert q == 0 || q == 1;
    }
  }

  /** With t = 3, deleting the root key 3, whose left child cannot spare a
      key, replaces it by its successor 4 taken from the right child. */
  lemma DeleteRootKeyTakesSuccessor()
    ensures var i1, i2, i3, i4, i5, i6 := Item(1, "a1"), Item(2, "a2"), Item(3, "a3"), Item(4, "a4"), Item(5, "a5"), Item(6, "a6");
            var n := Node([i3], [Leaf([i1, i2]), Leaf([i4, i5, i6])]);
            Deletable(n, 3) && DeleteTree(n, 3, 3) == Node([i4], [Leaf([i1, i2]), Leaf([i5, i6])])
  {
    var i1, i2, i3, i4, i5, i6 := Item(1, "a1"), Item(2, "a2"), Item(3, "a3"), Item(4, "a4"), Item(5, "a5"), Item(6, "a6");
    var n := Node([i3], [Leaf([i1, i2]), Leaf([i4, i5, i6])]);
    TwoLeavesDeletable([i1, i2], i3, [i4, i5, i6], 3);
    assert LowerBound(n.items, 3) == 0;
    assert Delete(n, 3, 3) == DeleteInternal(n, 3, 0, 3);
    assert Successor(Leaf([i4, i5, i6])) == i4;
    assert LowerBound([i4, i5, i6], 4) == 0;
    assert Delete(Leaf([i4, i5, i6]), 4, 3) == Leaf([i5, i6]) by {
      assert [i4, i5, i6][..0] + [i4, i5, i6][1..] == [i5, i6];
    }
  }

  /** The tree of t = 2 with root item `y` over the leaves `x` and `z`. */
  function Small(x: Item, y: Item, z: Item): Node
  {
    Node([y], [Leaf([x]), Leaf([z])])
  }

  /** Making room in the last child of `Small` merges both leaves under a
      root with no key. */
  lemma PrepareSmall(x: Item, y: Item, z: Item)
    ensures Deletable(Small(x, y, z), 2)
            && Prepare(Small(x, y, z), 1, 2) == Descent(Node([], [Leaf([x, y, z])]), 0)
  {
    var n := Small(x, y, z);
    TwoLeavesDeletable([x], y, [z], 2);
    assert Glued(Leaf([x]), y, Leaf([z])) == Leaf([x, y, z]);
    assert Fill(n, 1, 2) == Merge(n, 0);
    assert Merge(n, 0) == Node([], [Leaf([x, y, z])]);
  }

  /** A leaf whose keys are all below `k` is left as it is. */
  lemma LeafMissKeeps(xs: seq<Item>, k: Key, t: nat)
    requires t >= 2 && forall j :: 0 <= j < |xs| ==> xs[j].key < k
    ensures Delete(Leaf(xs), k, t) == Leaf(xs)
  {
    assert LowerBound(xs, k) == |xs|;
  }

  /** Below the root, deleting a key beyond all three leaves the merged leaf
      under a root with no key. */
  lemma DeleteBelowSmall(x: Item, y: Item, z: Item, k: Key)
    requires x.key < y.key < z.key < k
    ensures Deletable(Small(x, y, z), 2)
            && Delete(Small(x, y, z), k, 2) == Node([], [Leaf([x, y, z])])
  {
    var n := Small(x, y, z);
    PrepareSmall(x, y, z);
    assert LowerBound(n.items, k) == 1;
    LeafMissKeeps([x, y, z], k, 2);
  }

  /** Deleting an absent key beyond the three keys of `Small` fills the thin
      last child by merging it with its left sibling, so the root loses its
      only key and gives way to the merged leaf. */
  lemma DeleteAbsentFromSmall(x: Item, y: Item, z: Item, k: Key)
    requires x.key < y.key < z.key < k
    ensures Deletable(Small(x, y, z), 2)
            && DeleteTree(Small(x, y, z), k, 2) == Leaf([x, y, z])
  {
    DeleteBelowSmall(x, y, z, k);
  }

  lemma SmallFlat(x: Item, y: Item, z: Item)
    ensures Flat(Small(x, y, z)) == Flat(Leaf([x, y, z]))
  {
    var n := Small(x, y, z);
    assert n.children[1..] == [Leaf([z])];
    PostOne(y, Leaf([z]));
    assert Flat(n) == [x] + ([y] + [z]);
  }

  /** The traversal of `Small`: the root item, then the two leaves one level
      below. */
  lemma SmallPreorder(x: Item, y: Item, z: Item)
    ensures Preorder(Small(x, y, z), 0) == [Visit(y, 0), Visit(x, 1), Visit(z, 1)]
  {
    var n := Small(x, y, z);
    OneLeafPreorder(x, 1);
    OneLeafPreorder(z, 1);
    assert Walk(n, 1, 0) == [];
    assert Walk(n, 0, 0) == [Visit(y, 0)] + [Visit(x, 1)] + [];
  }

  lemma OneLeafPreorder(x: Item, level: nat)
    ensures Preorder(Leaf([x]), level) == [Visit(x, level)]
  {
    assert Walk(Leaf([x]), 1, level) == [];
    assert Walk(Leaf([x]), 0, level) == [Visit(x, level)] + [] + [];
  }

  /** The traversal of a leaf of three items: all three at the leaf's
      depth. */
  lemma LeafPreorder(x: Item, y: Item, z: Item)
    ensures Preorder(Leaf([x, y, z]), 0) == [Visit(x, 0), Visit(y, 0), Visit(z, 0)]
  {
    var g := Leaf([x, y, z]);
    assert Walk(g, 3, 0) == [];
    assert Walk(g, 2, 0) == [Visit(z, 0)] + [] + [];
    assert Walk(g, 1, 0) == [Visit(y, 0)] + [] + [Visit(z, 0)];
    assert Walk(g, 0, 0) == [Visit(x, 0)] + [] + [Visit(y, 0), Visit(z, 0)];
  }

  /** Deleting a key that is not stored is not a no-op: from `Small` it
      keeps the items but changes the tree and its traversal. */
  lemma DeleteAbsentChangesTraversal(x: Item, y: Item, z: Item, k: Key)
    requires x.key < y.key < z.key < k
    ensures Deletable(Small(x, y, z), 2)
            && DeleteTree(Small(x, y, z), k, 2) != Small(x, y, z)
            && Flat(DeleteTree(Small(x, y, z), k, 2)) == Flat(Small(x, y, z))
            && Preorder(DeleteTree(Small(x, y, z), k, 2), 0) != Preorder(Small(x, y, z), 0)
  {
    DeleteAbsentFromSmall(x, y, z, k);
    SmallPreorder(x, y, z);
    LeafPreorder(x, y, z);
    SmallFlat(x, y, z);
    assert Preorder(Small(x, y, z), 0)[0] != Visit(x, 0);
  }

  /** With strictly increasing keys, deleting a key that is not stored
      keeps every item, in order. */
  lemma DeleteAbsentKeepsItems(n: Node, k: Key, t: nat)
    requires Deletable(n, t) && StrictlySorted(Flat(n)) && KeyFree(Flat(n), k)
    ensures Flat(DeleteTree(n, k, t)) == Flat(n)
  {
    DeleteTreeRemoves(n, k, t);
    RemoveKeyFree(Flat(n), k);
  }
}

=== FILE: btree_insert.dfy ===
/** `BTree.insert` with its helpers `_split_child` and `_insert_non_full`:
    proactive splitting on the way down, so that a parent always has room
    for the median of a child that splits. */
module BTreeInsert {
  import opened Options
  import opened BTree
  import opened BTreeSearch

  /** The slot `_insert_non_full` finds by scanning from the right past
      every key larger than `k`. */
  function UpperSlot(xs: seq<Item>, k: Key): (j: nat)
    ensures j <= |xs|
    ensures forall q :: j <= q < |xs| ==> k < xs[q].key
    ensures j > 0 ==> xs[j - 1].key <= k
  {
    if xs == [] then 0
    else if k < xs[|xs| - 1].key then UpperSlot(xs[..|xs| - 1], k)
    else |xs|
  }

  /** The first t - 1 keys of a full node, with their t children. */
  function LowerHalf(c: Node, t: nat): (l: Node)
    requires t >= 1 && Shaped(c) && |c.items| == 2 * t - 1
    ensures Shaped(l) && Height(l) == Height(c) && |l.items| == t - 1
  {
    Node(c.items[..t - 1], if c.children == [] then [] else c.children[..t])
  }

  /** The last t - 1 keys of a full node, with their t children. */
  function UpperHalf(c: Node, t: nat): (u: Node)
    requires t >= 1 && Shaped(c) && |c.items| == 2 * t - 1
    ensures Shaped(u) && Height(u) == Height(c) && |u.items| == t - 1
  {
    var u := Node(c.items[t..], if c.children == [] then [] else c.children[t..]);
    assert c.children != [] ==> u.children[0] == c.children[t];
    u
  }

  /** `_split_child`: the full child `i` of `p` gives its median key to `p`
      at position `i`; its lower half stays at `i`, its upper half becomes a
      new child at `i + 1`. */
  function SplitChild(p: Node, i: nat, t: nat): (r: Node)
    requires t >= 1 && Shaped(p) && i < |p.children| && IsFull(p.children[i], t)
    ensures |r.items| == |p.items| + 1 && |r.children| == |p.children| + 1
    ensures r.items[i] == p.children[i].items[t - 1]
    ensures r.items[..i] == p.items[..i] && r.items[i + 1..] == p.items[i..]
    ensures r.children[..i] == p.children[..i] && r.children[i + 2..] == p.children[i + 1..]
    ensures |r.children[i].items| == t - 1 && |r.children[i + 1].items| == t - 1
    ensures r.children[i].items + [r.items[i]] + r.children[i + 1].items == p.children[i].items
    ensures Shaped(r) && Height(r) == Height(p)
  {
    var c := p.children[i];
    var l, u := LowerHalf(c, t), UpperHalf(c, t);
    ExpandShape(p, i, l, c.items[t - 1], u);
    var r := Expand(p, i, l, c.items[t - 1], u);
    assert r.children[i + 2..] == p.children[i + 1..];
    assert c.items == c.items[..t - 1] + [c.items[t - 1]] + c.items[t..];
    r
  }

  /** Splitting a child keeps the node's in-order view. */
  lemma SplitKeepsFlat(p: Node, i: nat, t: nat)
    requires t >= 1 && Shaped(p) && i < |p.children| && IsFull(p.children[i], t)
    ensures Flat(SplitChild(p, i, t)) == Flat(p)
  {
    var c := p.children[i];
    var l, u := LowerHalf(c, t), UpperHalf(c, t);
    HalvesGlue(c, t);
    ExpandChild(p, i, l, c.items[t - 1], u);
  }

  /** The two halves around the median glue back to the full node. */
  lemma HalvesGlue(c: Node, t: nat)
    requires t >= 1 && Shaped(c) && |c.items| == 2 * t - 1
    ensures Flat(LowerHalf(c, t)) + [c.items[t - 1]] + Flat(UpperHalf(c, t)) == Flat(c)
  {
    var l, u := LowerHalf(c, t), UpperHalf(c, t);
    Glue(l, c.items[t - 1], u);
    HalvesRejoin(c, t);
  }

  lemma HalvesRejoin(c: Node, t: nat)
    requires t >= 1 && Shaped(c) && |c.items| == 2 * t - 1
    ensures var l, u := LowerHalf(c, t), UpperHalf(c, t);
            Glued(l, c.items[t - 1], u) == c
  {
    var l, u := LowerHalf(c, t), UpperHalf(c, t);
    var g := Glued(l, c.items[t - 1], u);
    SliceAround(c.items, t - 1);
    assert g.items == c.items;
    if c.children != [] {
      SliceAt(c.children, t);
      assert g.children == c.children;
    } else {
      assert g.children == [];
    }
  }

  lemma HalvesBounds(c: Node, t: nat)
    requires t >= 1 && Shaped(c) && |c.items| == 2 * t - 1
    ensures AtMost(c, t) ==> AtMost(LowerHalf(c, t), t) && AtMost(UpperHalf(c, t), t)
    ensures AtLeast(c, t) ==> AtLeast(LowerHalf(c, t), t) && AtLeast(UpperHalf(c, t), t)
  {
    var l, u := LowerHalf(c, t), UpperHalf(c, t);
    assert forall q :: 0 <= q < |l.children| ==> l.children[q] == c.children[q];
    assert forall q :: 0 <= q < |u.children| ==> u.children[q] == c.children[t + q];
  }

  /** Splitting a child keeps the bounds when the parent has room for the
      median. */
  lemma SplitBounds(p: Node, i: nat, t: nat)
    requires t >= 1 && Shaped(p) && i < |p.children| && IsFull(p.children[i], t)
    ensures AtMost(p, t) && |p.items| < 2 * t - 1 ==> AtMost(SplitChild(p, i, t), t)
    ensures AtLeast(p, t) ==> AtLeast(SplitChild(p, i, t), t)
  {
    var c := p.children[i];
    HalvesBounds(c, t);
    if AtMost(p, t) && |p.items| < 2 * t - 1 {
      ExpandAtMost(p, i, LowerHalf(c, t), c.items[t - 1], UpperHalf(c, t), t);
    }
    if AtLeast(p, t) {
      ExpandAtLeast(p, i, LowerHalf(c, t), c.items[t - 1], UpperHalf(c, t), t);
    }
  }

  // A `Descent` for insertion: the node after the child at the slot has
  // been split if it was full, and the index of the child that covers `k`.

  /** The two keys next to the median in a node whose child `j` split. */
  lemma SplitNeighbours(n: Node, j: nat, t: nat)
    requires t >= 1 && Shaped(n) && j < |n.children| && IsFull(n.children[j], t)
    ensures var m := SplitChild(n, j, t);
            && (j > 0 ==> m.items[j - 1] == n.items[j - 1])
            && (j + 1 < |m.items| ==> m.items[j + 1] == n.items[j])
  {
    var m := SplitChild(n, j, t);
    if j > 0 {
      assert m.items[j - 1] == m.items[..j][j - 1];
    }
    if j + 1 < |m.items| {
      assert m.items[j + 1] == m.items[j + 1..][0];
    }
  }

  /** The facts `_insert_non_full` relies on below an internal node. */
  ghost predicate GoodDescent(n: Node, k: Key, t: nat, d: Descent)
  {
    && d.node.children != [] && |d.node.children| == |d.node.items| + 1
    && d.slot < |d.node.children|
    && Shaped(d.node) && Height(d.node) == Height(n) && Flat(d.node) == Flat(n)
    && (d.slot > 0 ==> d.node.items[d.slot - 1].key <= k)
    && (d.slot < |d.node.items| ==> k <= d.node.items[d.slot].key)
    && |n.items| <= |d.node.items| <= |n.items| + 1
    && (AtMost(n, t) && |n.items| < 2 * t - 1 ==>
          AtMost(d.node, t) && |d.node.children[d.slot].items| < 2 * t - 1)
    && (AtLeast(n, t) ==> AtLeast(d.node, t))
  }

  lemma SplitDescent(n: Node, k: Key, t: nat, j: nat)
    requires t >= 1 && Shaped(n) && n.children != [] && j == UpperSlot(n.items, k)
    requires IsFull(n.children[j], t)
    ensures var m := SplitChild(n, j, t);
            GoodDescent(n, k, t, Descent(m, if k > m.items[j].key then j + 1 else j))
  {
    SplitKeepsFlat(n, j, t);
    SplitBounds(n, j, t);
    SplitNeighbours(n, j, t);
  }

  lemma StayDescent(n: Node, k: Key, t: nat, j: nat)
    requires t >= 1 && Shaped(n) && n.children != [] && j == UpperSlot(n.items, k)
    requires !IsFull(n.children[j], t)
    ensures GoodDescent(n, k, t, Descent(n, j))
  {
    assert AtMost(n, t) ==> AtMost(n.children[j], t);
  }

  function Descend(n: Node, k: Key, t: nat): (d: Descent)
    requires t >= 1 && Shaped(n) && n.children != []
    ensures GoodDescent(n, k, t, d)
  {
    var j := UpperSlot(n.items, k);
    if IsFull(n.children[j], t) then
      SplitDescent(n, k, t, j);
      var m := SplitChild(n, j, t);
      Descent(m, if k > m.items[j].key then j + 1 else j)
    else
      StayDescent(n, k, t, j);
      Descent(n, j)
  }

  /** `_insert_non_full`: a leaf takes the item at its slot; an internal
      node descends into the child that covers `k`, split first if it was
      full. */
  function InsertNonFull(n: Node, k: Key, v: Value, t: nat): (r: Node)
    requires t >= 1 && Shaped(n)
    ensures Shaped(r) && Height(r) == Height(n)
    decreases Height(n)
  {
    if n.children == [] then
      var j := UpperSlot(n.items, k);
      Node(n.items[..j] + [Item(k, v)] + n.items[j..], [])
    else
      var d := Descend(n, k, t);
      var c' := InsertNonFull(d.node.children[d.slot], k, v, t);
      ReplaceShape(d.node, d.slot, c');
      d.node.(children := d.node.children[d.slot := c'])
  }

  /** `BTree.insert`: split a full root under a new root, then insert into
      a node that is not full. */
  function Insert(n: Node, k: Key, v: Value, t: nat): (r: Node)
    requires t >= 1 && Shaped(n)
    ensures Shaped(r)
    ensures Height(r) == Height(n) + (if IsFull(n, t) then 1 else 0)
  {
    if IsFull(n, t) then InsertNonFull(SplitChild(Lift(n), 0, t), k, v, t)
    else InsertNonFull(n, k, v, t)
  }

  // ---------------------------------------------------------------------
  // the in-order view
  // ---------------------------------------------------------------------

  /** `s'` is `s` with `x` put in at some position. */
  ghost predicate IsInsertion(s: seq<Item>, s': seq<Item>, x: Item)
  {
    exists p :: 0 <= p <= |s| && s' == s[..p] + [x] + s[p..]
  }

  lemma InsertionMembers(s: seq<Item>, s': seq<Item>, x: Item)
    requires IsInsertion(s, s', x)
    ensures forall y :: y in s' <==> y in s || y == x
  {
    var p :| 0 <= p <= |s| && s' == s[..p] + [x] + s[p..];
    assert s == s[..p] + s[p..];
  }

  /** An insertion into a middle piece is an insertion into the whole. */
  lemma InsertionInside(a: seq<Item>, f: seq<Item>, f': seq<Item>, c: seq<Item>, x: Item)
    requires IsInsertion(f, f', x)
    ensures IsInsertion(a + f + c, a + f' + c, x)
  {
    var p :| 0 <= p <= |f| && f' == f[..p] + [x] + f[p..];
    var s := a + f + c;
    assert s[..|a| + p] == a + f[..p];
    assert s[|a| + p..] == f[p..] + c;
    assert a + f' + c == s[..|a| + p] + [x] + s[|a| + p..];
  }

  /** Insertion into a node that is not full puts the item somewhere into
      its in-order view and changes nothing else. */
  lemma {:induction false} InsertNonFullIsInsertion(n: Node, k: Key, v: Value, t: nat)
    requires t >= 1 && Shaped(n)
    ensures IsInsertion(Flat(n), Flat(InsertNonFull(n, k, v, t)), Item(k, v))
    decreases Height(n)
  {
    if n.children == [] {
      var j := UpperSlot(n.items, k);
      assert Flat(InsertNonFull(n, k, v, t)) == n.items[..j] + [Item(k, v)] + n.items[j..];
    } else {
      var d := Descend(n, k, t);
      var m, j := d.node, d.slot;
      var c' := InsertNonFull(m.children[j], k, v, t);
      InsertNonFullIsInsertion(m.children[j], k, v, t);
      ReplaceChild(m, j, c');
      InsertionInside(Pre(m.children[..j], m.items[..j]), Flat(m.children[j]), Flat(c'),
                      Post(m.items[j..], m.children[j + 1..]), Item(k, v));
    }
  }

  /** `insert` puts the item somewhere into the in-order view. */
  lemma InsertIsInsertion(n: Node, k: Key, v: Value, t: nat)
    requires t >= 1 && Shaped(n)
    ensures IsInsertion(Flat(n), Flat(Insert(n, k, v, t)), Item(k, v))
  {
    if IsFull(n, t) {
      SplitKeepsFlat(Lift(n), 0, t);
      InsertNonFullIsInsertion(SplitChild(Lift(n), 0, t), k, v, t);
    } else {
      InsertNonFullIsInsertion(n, k, v, t);
    }
  }

  // ---------------------------------------------------------------------
  // shape and bounds
  // ---------------------------------------------------------------------

  /** Insertion below a node keeps its shape and height and adds at most
      one key to the node itself (one exactly, at a leaf). */
  lemma {:induction false} InsertNonFullShape(n: Node, k: Key, v: Value, t: nat)
    requires t >= 1 && Shaped(n)
    ensures var r := InsertNonFull(n, k, v, t);
            && Shaped(r) && Height(r) == Height(n)
            && |n.items| <= |r.items| <= |n.items| + 1
            && (n.children == [] ==> |r.items| == |n.items| + 1)
    decreases Height(n)
  {
    if n.children != [] {
      var d := Descend(n, k, t);
      var m, j := d.node, d.slot;
      var c' := InsertNonFull(m.children[j], k, v, t);
      InsertNonFullShape(m.children[j], k, v, t);
      ReplaceShape(m, j, c');
    }
  }

  /** Insertion into a node with room keeps every node within 2t - 1
      keys. */
  lemma {:induction false} InsertNonFullAtMost(n: Node, k: Key, v: Value, t: nat)
    requires t >= 1 && Shaped(n) && |n.items| < 2 * t - 1 && AtMost(n, t)
    ensures AtMost(InsertNonFull(n, k, v, t), t)
    decreases Height(n)
  {
    if n.children != [] {
      var d := Descend(n, k, t);
      var m, j := d.node, d.slot;
      var c' := InsertNonFull(m.children[j], k, v, t);
      InsertNonFullAtMost(m.children[j], k, v, t);
      ReplaceBounds(m, j, c', t);
    }
  }

  /** Insertion keeps every node below the root at t - 1 keys or more. */
  lemma {:induction false} InsertNonFullAtLeast(n: Node, k: Key, v: Value, t: nat)
    requires t >= 1 && Shaped(n) && AtLeast(n, t)
    ensures AtLeast(InsertNonFull(n, k, v, t), t)
    decreases Height(n)
  {
    if n.children != [] {
      var d := Descend(n, k, t);
      var m, j := d.node, d.slot;
      var c' := InsertNonFull(m.children[j], k, v, t);
      InsertNonFullShape(m.children[j], k, v, t);
      InsertNonFullAtLeast(m.children[j], k, v, t);
      ReplaceBounds(m, j, c', t);
    }
  }

  // ---------------------------------------------------------------------
  // key order
  // ---------------------------------------------------------------------

  /** An item slotted into a sorted piece between bounds that admit it
      leaves the whole sorted. */
  lemma SortedInsertInside(a: seq<Item>, f: seq<Item>, f': seq<Item>, c: seq<Item>, x: Item)
    requires Sorted(a + f + c) && Sorted(f')
    requires forall y :: y in f' <==> y in f || y == x
    requires forall y :: y in a ==> y.key <= x.key
    requires forall y :: y in c ==> x.key <= y.key
    ensures Sorted(a + f' + c)
  {
    SortedSplit(a + f, c);
    SortedSplit(a, f);
    SortedJoin(a, f');
    SortedJoin(a + f', c);
  }

  lemma SortedSlot(a: seq<Item>, x: Item, b: seq<Item>)
    requires Sorted(a + b)
    requires forall y :: y in a ==> y.key <= x.key
    requires forall y :: y in b ==> x.key <= y.key
    ensures Sorted(a + [x] + b)
  {
    SortedSplit(a, b);
    SortedJoin(a, [x]);
    SortedJoin(a + [x], b);
  }

  lemma LeafInsertSorted(xs: seq<Item>, j: nat, x: Item)
    requires Sorted(xs) && j <= |xs|
    requires j > 0 ==> xs[j - 1].key <= x.key
    requires forall q :: j <= q < |xs| ==> x.key < xs[q].key
    ensures Sorted(xs[..j] + [x] + xs[j..])
  {
    assert xs == xs[..j] + xs[j..];
    if j > 0 {
      HeadBound(xs[..j], xs[j..], [], xs[..j - 1], xs[j - 1]);
    }
    SortedSlot(xs[..j], x, xs[j..]);
  }

  /** Insertion keeps the in-order view sorted. */
  lemma {:induction false} InsertNonFullSorted(n: Node, k: Key, v: Value, t: nat)
    requires t >= 1 && Shaped(n) && Sorted(Flat(n))
    ensures Sorted(Flat(InsertNonFull(n, k, v, t)))
    decreases Height(n)
  {
    if n.children == [] {
      LeafInsertSorted(n.items, UpperSlot(n.items, k), Item(k, v));
    } else {
      var d := Descend(n, k, t);
      var m, j := d.node, d.slot;
      var c := m.children[j];
      var c' := InsertNonFull(c, k, v, t);
      ChildSorted(m, j);
      InsertNonFullSorted(c, k, v, t);
      InsertNonFullIsInsertion(c, k, v, t);
      InsertionMembers(Flat(c), Flat(c'), Item(k, v));
      ChildInsertSorted(m, j, c', Item(k, v));
    }
  }

  /** A child replaced by a sorted insertion of `x`, where the keys around
      the child admit `x`, leaves the node sorted. */
  lemma ChildInsertSorted(m: Node, j: nat, c': Node, x: Item)
    requires m.children != [] && |m.children| == |m.items| + 1 && j < |m.children|
    requires Sorted(Flat(m)) && Sorted(Flat(c'))
    requires forall y :: y in Flat(c') <==> y in Flat(m.children[j]) || y == x
    requires j > 0 ==> m.items[j - 1].key <= x.key
    requires j < |m.items| ==> x.key <= m.items[j].key
    ensures Sorted(Flat(m.(children := m.children[j := c'])))
  {
    var a, f, e := Pre(m.children[..j], m.items[..j]), Flat(m.children[j]), Post(m.items[j..], m.children[j + 1..]);
    ReplaceChild(m, j, c');
    if j > 0 { WindowLeft(m, j); } else { NoLeft(m); }
    if j < |m.items| { WindowRight(m, j); } else { NoRight(m); }
    SortedInsertInside(a, f, Flat(c'), e, x);
  }

  // ---------------------------------------------------------------------
  // the whole tree
  // ---------------------------------------------------------------------

  /** A new root above a full root: the old root becomes child 0, whose
      size keeps within the bounds. */
  lemma LiftBounds(n: Node, t: nat)
    requires t >= 1 && Shaped(n) && IsFull(n, t) && AtMost(n, t) && AtLeast(n, t)
    ensures AtMost(Lift(n), t) && AtLeast(Lift(n), t)
  {
    assert Lift(n).children[0] == n;
  }

  /** `insert` keeps a valid B-tree valid; it grows the tree by one level
      exactly when the root was full. */
  lemma InsertKeepsValid(n: Node, k: Key, v: Value, t: nat)
    requires Valid(n, t)
    ensures Valid(Insert(n, k, v, t), t)
    ensures Height(Insert(n, k, v, t)) == Height(n) + (if IsFull(n, t) then 1 else 0)
  {
    var m := if IsFull(n, t) then SplitChild(Lift(n), 0, t) else n;
    if IsFull(n, t) {
      LiftBounds(n, t);
      SplitBounds(Lift(n), 0, t);
      SplitKeepsFlat(Lift(n), 0, t);
    }
    assert Insert(n, k, v, t) == InsertNonFull(m, k, v, t);
    var r := InsertNonFull(m, k, v, t);
    InsertNonFullShape(m, k, v, t);
    InsertNonFullAtMost(m, k, v, t);
    InsertNonFullAtLeast(m, k, v, t);
    InsertNonFullSorted(m, k, v, t);
    LeafHeight(r);
    LeafHeight(n);
  }

  /** A key not yet in a valid tree is found with its value right after it
      is inserted. */
  lemma InsertThenSearch(n: Node, k: Key, v: Value, t: nat)
    requires Valid(n, t) && KeyFree(Flat(n), k)
    ensures Search(Insert(n, k, v, t), k) == Some(v)
  {
    var r := Insert(n, k, v, t);
    InsertKeepsValid(n, k, v, t);
    InsertIsInsertion(n, k, v, t);
    InsertionMembers(Flat(n), Flat(r), Item(k, v));
    SearchFindsPresent(r, k);
    assert Item(k, v) in Flat(r);
    SearchFindsStored(r, k);
  }

  /** A fresh key inserted into a strictly sorted sequence so that the
      result is sorted leaves it strictly sorted. */
  lemma StrictInsertion(s: seq<Item>, s': seq<Item>, x: Item)
    requires StrictlySorted(s) && KeyFree(s, x.key) && Sorted(s') && IsInsertion(s, s', x)
    ensures StrictlySorted(s')
  {
    var p :| 0 <= p <= |s| && s' == s[..p] + [x] + s[p..];
    forall i, j | 0 <= i < j < |s'|
      ensures s'[i].key < s'[j].key
    {
      InsertedAt(s, x, p, i);
      InsertedAt(s, x, p, j);
      if i == p {
        assert s[j - 1] in s;
      } else if j == p {
        assert s[i] in s;
      }
    }
  }

  /** Where each entry of `s` with `x` inserted at `p` comes from. */
  lemma InsertedAt(s: seq<Item>, x: Item, p: nat, i: nat)
    requires p <= |s| && i <= |s|
    ensures (s[..p] + [x] + s[p..])[i] == if i < p then s[i] else if i == p then x else s[i - 1]
  {
  }

  /** Inserting a fresh key keeps the keys strictly increasing. */
  lemma InsertFreshKeepsStrict(n: Node, k: Key, v: Value, t: nat)
    requires Valid(n, t) && StrictlySorted(Flat(n)) && KeyFree(Flat(n), k)
    ensures StrictlySorted(Flat(Insert(n, k, v, t)))
  {
    InsertKeepsValid(n, k, v, t);
    InsertIsInsertion(n, k, v, t);
    StrictInsertion(Flat(n), Flat(Insert(n, k, v, t)), Item(k, v));
  }

  // ---------------------------------------------------------------------
  // concrete runs
  // ---------------------------------------------------------------------

  /** A key no smaller than the last goes to the end of a leaf root with
      room. */
  lemma AppendToLeaf(xs: seq<Item>, k: Key, v: Value, t: nat)
    requires t >= 1 && |xs| < 2 * t - 1 && (xs != [] ==> xs[|xs| - 1].key <= k)
    ensures Insert(Leaf(xs), k, v, t) == Leaf(xs + [Item(k, v)])
  {
    assert UpperSlot(xs, k) == |xs|;
    assert xs[..|xs|] == xs && xs[|xs|..] == [];
  }

  /** With t = 3, five ascending keys fill the root leaf; the sixth insert
      splits it around the third key, leaving two keys on the left and
      three on the right. */
  lemma SixthInsertSplitsRoot()
    ensures var t5 := Leaf([Item(1, "a1"), Item(2, "a2"), Item(3, "a3"), Item(4, "a4"), Item(5, "a5")]);
            && Insert(Insert(Insert(Insert(Insert(Leaf([]), 1, "a1", 3), 2, "a2", 3), 3, "a3", 3), 4, "a4", 3), 5, "a5", 3) == t5
            && Insert(t5, 6, "a6", 3)
               == Node([Item(3, "a3")],
                       [Leaf([Item(1, "a1"), Item(2, "a2")]),
                        Leaf([Item(4, "a4"), Item(5, "a5"), Item(6, "a6")])])
  {
    var i1, i2, i3, i4, i5, i6 := Item(1, "a1"), Item(2, "a2"), Item(3, "a3"), Item(4, "a4"), Item(5, "a5"), Item(6, "a6");
    AppendToLeaf([], 1, "a1", 3);
    AppendToLeaf([i1], 2, "a2", 3);
    AppendToLeaf([i1, i2], 3, "a3", 3);
    AppendToLeaf([i1, i2, i3], 4, "a4", 3);
    AppendToLeaf([i1, i2, i3, i4], 5, "a5", 3);
    assert [] + [i1] == [i1];
    assert [i1] + [i2] == [i1, i2];
    assert [i1, i2] + [i3] == [i1, i2, i3];
    assert [i1, i2, i3] + [i4] == [i1, i2, i3, i4];
    assert [i1, i2, i3, i4] + [i5] == [i1, i2, i3, i4, i5];
    SplitRootOfFive();
    var m := Node([i3], [Leaf([i1, i2]), Leaf([i4, i5])]);
    assert UpperSlot(m.items, 6) == 1;
    AppendToLeaf([i4, i5], 6, "a6", 3);
    assert [i4, i5] + [i6] == [i4, i5, i6];
  }

  lemma SplitRootOfFive()
    ensures SplitChild(Lift(Leaf([Item(1, "a1"), Item(2, "a2"), Item(3, "a3"), Item(4, "a4"), Item(5, "a5")])), 0, 3)
            == Node([Item(3, "a3")], [Leaf([Item(1, "a1"), Item(2, "a2")]), Leaf([Item(4, "a4"), Item(5, "a5")])])
  {
    var xs := [Item(1, "a1"), Item(2, "a2"), Item(3, "a3"), Item(4, "a4"), Item(5, "a5")];
    assert xs[..2] == [Item(1, "a1"), Item(2, "a2")];
    assert xs[3..] == [Item(4, "a4"), Item(5, "a5")];
  }

  /** A second insert of a stored key adds a second entry, and the search
      keeps finding the first value. */
  lemma DuplicateInsertKeepsFirstValue()
    ensures var t1 := Insert(Leaf([]), 1, "a", 2);
            var t2 := Insert(t1, 1, "b", 2);
            && t2 == Leaf([Item(1, "a"), Item(1, "b")])
            && Search(t2, 1) == Some("a")
  {
    var t1 := Insert(Leaf([]), 1, "a", 2);
    assert t1 == Leaf([Item(1, "a")]);
    assert UpperSlot([Item(1, "a")], 1) == 1;
  }

  /** Where the second copy of a key lands depends on the splits on the
      way down.  With t = 2, a root [u] over a full leaf [x, y, z] and a
      leaf [q]: inserting y's key again splits the leaf, y moves up as its
      median, and the strict `k > median` test sends the new copy into the
      left half, so it comes before the old copy in key order.  The search
      still meets the old copy first, in the root. */
  lemma DuplicateOfMedianGoesFirst(x: Item, y: Item, z: Item, u: Item, q: Item, w: Value)
    requires x.key < y.key < z.key < u.key < q.key
    ensures var n := Node([u], [Leaf([x, y, z]), Leaf([q])]);
            && Shaped(n)
            && var r := Insert(n, y.key, w, 2);
               && r == Node([y, u], [Leaf([x, Item(y.key, w)]), Leaf([z]), Leaf([q])])
               && Flat(r) == [x, Item(y.key, w), y, z, u, q]
               && Search(r, y.key) == Some(y.value)
  {
    MedianTreeShaped(x, y, z, u, q);
    MedianDuplicateInsert(x, y, z, u, q, w);
    MedianDuplicateResult(x, y, z, u, q, w);
  }

  lemma MedianTreeShaped(x: Item, y: Item, z: Item, u: Item, q: Item)
    ensures Shaped(Node([u], [Leaf([x, y, z]), Leaf([q])]))
  {
    var n := Node([u], [Leaf([x, y, z]), Leaf([q])]);
    assert Height(n) == 1;
    forall i | 0 <= i < |n.children|
      ensures Shaped(n.children[i]) && Height(n.children[i]) + 1 == Height(n)
    {
    }
  }

  /** The tree `DuplicateOfMedianGoesFirst` ends with, read in order and
      searched for the duplicated key. */
  lemma MedianDuplicateResult(x: Item, y: Item, z: Item, u: Item, q: Item, w: Value)
    requires x.key < y.key < z.key < u.key < q.key
    ensures var r := Node([y, u], [Leaf([x, Item(y.key, w)]), Leaf([z]), Leaf([q])]);
            && Flat(r) == [x, Item(y.key, w), y, z, u, q]
            && Search(r, y.key) == Some(y.value)
  {
    var r := Node([y, u], [Leaf([x, Item(y.key, w)]), Leaf([z]), Leaf([q])]);
    PostCons(y, Leaf([z]), [u], [Leaf([q])]);
    PostOne(u, Leaf([q]));
    assert LowerBound(r.items, y.key) == 0;
  }

  /** The split in `DuplicateOfMedianGoesFirst`: the old copy of the key
      moves up beside the root's key. */
  lemma MedianDuplicateSplit(x: Item, y: Item, z: Item, u: Item, q: Item)
    requires x.key < y.key < z.key < u.key < q.key
    ensures SplitChild(Node([u], [Leaf([x, y, z]), Leaf([q])]), 0, 2)
            == Node([y, u], [Leaf([x]), Leaf([z]), Leaf([q])])
  {
    var m := SplitChild(Node([u], [Leaf([x, y, z]), Leaf([q])]), 0, 2);
    assert [x, y, z][..1] == [x] && [x, y, z][2..] == [z];
    assert m.items == [m.items[0]] + m.items[1..];
    assert m.children == m.children[..2] + m.children[2..];
  }

  /** The insertion in `DuplicateOfMedianGoesFirst`: after the split the
      new copy descends left of the old one. */
  lemma MedianDuplicateInsert(x: Item, y: Item, z: Item, u: Item, q: Item, w: Value)
    requires x.key < y.key < z.key < u.key < q.key
    ensures Insert(Node([u], [Leaf([x, y, z]), Leaf([q])]), y.key, w, 2)
            == Node([y, u], [Leaf([x, Item(y.key, w)]), Leaf([z]), Leaf([q])])
  {
    var n := Node([u], [Leaf([x, y, z]), Leaf([q])]);
    assert !IsFull(n, 2);
    assert UpperSlot(n.items, y.key) == 0 by {
      assert [u][..0] == [];
    }
    MedianDuplicateSplit(x, y, z, u, q);
    var m := SplitChild(n, 0, 2);
    assert Descend(n, y.key, 2) == Descent(m, 0);
    assert UpperSlot([x], y.key) == 1;
    assert [x][..1] == [x] && [x][1..] == [];
    var c' := InsertNonFull(Leaf([x]), y.key, w, 2);
    assert c' == Leaf([x, Item(y.key, w)]);
    assert InsertNonFull(n, y.key, w, 2) == m.(children := m.children[0 := c']);
  }
}

=== FILE: btree_search.dfy ===
/** `BTree.search`: look for a key, scanning each node from the left and
    descending into the child the scan stops at. */
module BTreeSearch {
  import opened Options
  import opened BTree

  /** The value stored under `k`, the first one met on the way down. */
  function Search(n: Node, k: Key): Option<Value>
    requires Shaped(n)
    decreases n
  {
    var i := LowerBound(n.items, k);
    if i < |n.items| && n.items[i].key == k then Some(n.items[i].value)
    else if n.children == [] then None
    else Search(n.children[i], k)
  }

  /** Whatever the search returns is stored in the tree, in any tree. */
  lemma {:induction false} SearchFindsStored(n: Node, k: Key)
    requires Shaped(n)
    ensures Search(n, k).Some? ==> Item(k, Search(n, k).value) in Flat(n)
    decreases n
  {
    var i := LowerBound(n.items, k);
    if i < |n.items| && n.items[i].key == k {
      ItemsInFlat(n);
    } else if n.children != [] {
      SearchFindsStored(n.children[i], k);
      ChildInFlat(n, i);
    }
  }

  /** In a sorted tree the search misses only keys that are not stored. */
  lemma {:induction false} SearchMissesOnlyAbsent(n: Node, k: Key)
    requires Shaped(n) && Sorted(Flat(n))
    ensures Search(n, k).None? ==> KeyFree(Flat(n), k)
    decreases n
  {
    var i := LowerBound(n.items, k);
    if i < |n.items| && n.items[i].key == k {
    } else if n.children == [] {
      forall y | y in n.items
        ensures y.key != k
      {
        var q :| 0 <= q < |n.items| && n.items[q] == y;
        if q >= i {
          assert n.items[i].key <= y.key;
        }
      }
    } else {
      var cs, xs := n.children, n.items;
      FlatAround(n, i);
      Window(n, i, k);
      SortedSplit(Pre(cs[..i], xs[..i]) + Flat(cs[i]), Post(xs[i..], cs[i + 1..]));
      SortedSplit(Pre(cs[..i], xs[..i]), Flat(cs[i]));
      SearchMissesOnlyAbsent(cs[i], k);
    }
  }

  /** A sorted tree: the search finds something exactly when some stored
      item has the key. */
  lemma SearchFindsPresent(n: Node, k: Key)
    requires Shaped(n) && Sorted(Flat(n))
    ensures Search(n, k).None? <==> KeyFree(Flat(n), k)
  {
    SearchFindsStored(n, k);
    SearchMissesOnlyAbsent(n, k);
  }

  /** With strictly increasing keys the search is exact membership. */
  lemma SearchIsMembership(n: Node, k: Key, v: Value)
    requires Shaped(n) && StrictlySorted(Flat(n))
    ensures Search(n, k) == Some(v) <==> Item(k, v) in Flat(n)
  {
    SearchFindsStored(n, k);
    SearchMissesOnlyAbsent(n, k);
    if Item(k, v) in Flat(n) {
      assert Search(n, k).Some?;
      StrictUnique(Flat(n), Item(k, v), Item(k, Search(n, k).value));
    }
  }
}

=== FILE: btree_traverse.dfy ===
/** `BTree.traverse_preorder`: lists every item with the depth of its
    node.  At each node the source reports key `i` and then the subtree of
    child `i`, for every key in turn, and the last child after all keys; the
    order is thus neither a true preorder nor the in-order one, and the
    contracts here say which items appear (all of them, once each) and at
    which depths (each at the depth of its own node). */
module BTreeTraverse {
  import opened BTree

  /** One entry of the traversal: an item and the depth of its node. */
  datatype Visit = Visit(item: Item, level: nat)

  /** `traverse_preorder(node, level)`. */
  function Preorder(n: Node, level: nat): seq<Visit>
    decreases n, 1, 0
  {
    Walk(n, 0, level)
    + (if n.children != [] && |n.children| > |n.items|
       then Preorder(n.children[|n.children| - 1], level + 1) else [])
  }

  /** The loop of `traverse_preorder` from key `i` on: the key at the
      node's level, then child `i` one level deeper when there is one. */
  function Walk(n: Node, i: nat, level: nat): seq<Visit>
    decreases n, 0, |n.items| - i
  {
    if i >= |n.items| then []
    else
      [Visit(n.items[i], level)]
      + (if n.children != [] && i < |n.children| then Preorder(n.children[i], level + 1) else [])
      + Walk(n, i + 1, level)
  }

  /** The items of a traversal, without their levels. */
  function Items(vs: seq<Visit>): seq<Item>
  {
    if vs == [] then [] else [vs[0].item] + Items(vs[1..])
  }

  /** The traversal of a node is its key loop, then its last child one
      level deeper. */
  lemma PreorderUnfold(n: Node, level: nat)
    requires n.children != [] && |n.children| == |n.items| + 1
    ensures Preorder(n, level) == Walk(n, 0, level) + Preorder(n.children[|n.items|], level + 1)
  {
  }

  /** The key loop of a leaf: key `i` at the leaf's level, then the rest. */
  lemma LeafWalkUnfold(n: Node, i: nat, level: nat)
    requires n.children == [] && i < |n.items|
    ensures Walk(n, i, level) == [Visit(n.items[i], level)] + Walk(n, i + 1, level)
  {
    assert Walk(n, i, level) == [Visit(n.items[i], level)] + [] + Walk(n, i + 1, level);
  }

  /** The key loop of an internal node: key `i`, child `i`, then the rest. */
  lemma InnerWalkUnfold(n: Node, i: nat, level: nat)
    requires i < |n.items| && i < |n.children|
    ensures Walk(n, i, level)
            == [Visit(n.items[i], level)] + Preorder(n.children[i], level + 1) + Walk(n, i + 1, level)
  {
  }

  lemma {:induction false} ItemsAppend(a: seq<Visit>, b: seq<Visit>)
    ensures Items(a + b) == Items(a) + Items(b)
  {
    if a == [] {
      assert a + b == b;
    } else {
      assert (a + b)[1..] == a[1..] + b;
      ItemsAppend(a[1..], b);
    }
  }

  /** The items of a list of subtrees, counted with multiplicity. */
  function Bag(cs: seq<Node>): multiset<Item>
  {
    if cs == [] then multiset{} else multiset(Flat(cs[0])) + Bag(cs[1..])
  }

  lemma {:induction false} BagSnoc(cs: seq<Node>, i: nat)
    requires i < |cs|
    ensures Bag(cs[..i + 1]) == Bag(cs[..i]) + multiset(Flat(cs[i]))
  {
    if i == 0 {
      assert cs[..1][1..] == [];
    } else {
      assert cs[..i + 1][1..] == cs[1..][..i];
      assert cs[..i][1..] == cs[1..][..i - 1];
      BagSnoc(cs[1..], i - 1);
    }
  }

  lemma {:induction false} PostBag(xs: seq<Item>, cs: seq<Node>)
    requires |xs| == |cs|
    ensures multiset(Post(xs, cs)) == multiset(xs) + Bag(cs)
  {
    if xs != [] {
      PostBag(xs[1..], cs[1..]);
      assert xs == [xs[0]] + xs[1..];
    }
  }

  /** The items of a node's subtree are its keys and the items of its
      children. */
  lemma FlatBag(n: Node)
    requires n.children != [] ==> |n.children| == |n.items| + 1
    ensures multiset(Flat(n)) == multiset(n.items) + Bag(n.children)
  {
    if n.children != [] {
      PostBag(n.items, n.children[1..]);
    }
  }

  /** The loop from key `i` of a leaf visits keys `i` on. */
  lemma {:induction false} LeafWalkBag(n: Node, i: nat, level: nat)
    requires n.children == [] && i <= |n.items|
    ensures multiset(Items(Walk(n, i, level))) == multiset(n.items[i..])
    decreases |n.items| - i
  {
    if i < |n.items| {
      var v, w := Visit(n.items[i], level), Walk(n, i + 1, level);
      LeafWalkBag(n, i + 1, level);
      LeafWalkUnfold(n, i, level);
      ItemsAppend([v], w);
      assert Items([v]) == [n.items[i]];
      BagFrontItem(n.items, i);
    }
  }

  lemma BagFront(cs: seq<Node>, i: nat, j: nat)
    requires i < j <= |cs|
    ensures Bag(cs[i..j]) == multiset(Flat(cs[i])) + Bag(cs[i + 1..j])
  {
    assert cs[i..j][1..] == cs[i + 1..j];
  }

  lemma Shuffle<T>(a: multiset<T>, b: multiset<T>, c: multiset<T>, d: multiset<T>)
    ensures a + b + (c + d) == (a + c) + (b + d)
  {
  }

  lemma BagOfThree(a: seq<Item>, b: seq<Item>, c: seq<Item>)
    ensures multiset(a + b + c) == multiset(a) + multiset(b) + multiset(c)
  {
  }

  lemma BagFrontItem(xs: seq<Item>, i: nat)
    requires i < |xs|
    ensures multiset(xs[i..]) == multiset{xs[i]} + multiset(xs[i + 1..])
  {
    assert xs[i..] == [xs[i]] + xs[i + 1..];
  }

  /** One step of the loop at an internal node: key `i`, then child `i`. */
  lemma WalkStep(n: Node, i: nat, level: nat)
    requires i < |n.items| && i < |n.children|
    ensures Items(Walk(n, i, level))
            == [n.items[i]] + Items(Preorder(n.children[i], level + 1)) + Items(Walk(n, i + 1, level))
  {
    var v, sub, w := Visit(n.items[i], level), Preorder(n.children[i], level + 1), Walk(n, i + 1, level);
    InnerWalkUnfold(n, i, level);
    ItemsAppend([v] + sub, w);
    ItemsAppend([v], sub);
    assert Items([v]) == [n.items[i]];
  }

  /** The step of the loop at key `i`, given what the rest of the loop and
      child `i` visit. */
  lemma WalkBagStep(n: Node, i: nat, level: nat)
    requires i < |n.items| < |n.children|
    requires multiset(Items(Preorder(n.children[i], level + 1))) == multiset(Flat(n.children[i]))
    requires multiset(Items(Walk(n, i + 1, level)))
             == multiset(n.items[i + 1..]) + Bag(n.children[i + 1..|n.items|])
    ensures multiset(Items(Walk(n, i, level)))
            == multiset(n.items[i..]) + Bag(n.children[i..|n.items|])
  {
    var L := |n.items|;
    var c := n.children[i];
    BagFront(n.children, i, L);
    BagFrontItem(n.items, i);
    var x, p, w := n.items[i], Items(Preorder(c, level + 1)), Items(Walk(n, i + 1, level));
    WalkStep(n, i, level);
    BagOfThree([x], p, w);
    Shuffle(multiset{x}, multiset(Flat(c)), multiset(n.items[i + 1..]), Bag(n.children[i + 1..L]));
  }

  lemma WalkEnd(n: Node, level: nat)
    requires |n.items| <= |n.children|
    ensures multiset(Items(Walk(n, |n.items|, level)))
            == multiset(n.items[|n.items|..]) + Bag(n.children[|n.items|..|n.items|])
  {
    assert n.items[|n.items|..] == [];
    assert n.children[|n.items|..|n.items|] == [];
  }

  /** The loop from key `i` of a shaped internal node visits keys `i` on
      and the children before them. */
  lemma {:induction false} InnerWalkBag(n: Node, i: nat, level: nat)
    requires Shaped(n) && n.children != [] && i <= |n.items|
    ensures multiset(Items(Walk(n, i, level)))
            == multiset(n.items[i..]) + Bag(n.children[i..|n.items|])
    decreases n, 0, |n.items| - i
  {
    var L := |n.items|;
    assert |n.children| == L + 1;
    if i < L {
      InnerWalkBag(n, i + 1, level);
      PreorderBag(n.children[i], level + 1);
      WalkBagStep(n, i, level);
    } else {
      WalkEnd(n, level);
    }
  }

  /** The traversal of an internal node, given what its key loop and its
      last child visit. */
  lemma InnerPreorderBag(n: Node, level: nat)
    requires n.children != [] && |n.children| == |n.items| + 1
    requires multiset(Items(Walk(n, 0, level)))
             == multiset(n.items[0..]) + Bag(n.children[0..|n.items|])
    requires multiset(Items(Preorder(n.children[|n.items|], level + 1)))
             == multiset(Flat(n.children[|n.items|]))
    ensures multiset(Items(Preorder(n, level))) == multiset(Flat(n))
  {
    var L := |n.items|;
    FlatBag(n);
    assert n.items[0..] == n.items;
    PreorderUnfold(n, level);
    ItemsAppend(Walk(n, 0, level), Preorder(n.children[L], level + 1));
    BagSnoc(n.children, L);
    assert n.children[..L + 1] == n.children;
    assert n.children[0..L] == n.children[..L];
  }

  /** The traversal of a shaped tree visits every item of the tree exactly
      once. */
  lemma {:induction false} PreorderBag(n: Node, level: nat)
    requires Shaped(n)
    ensures multiset(Items(Preorder(n, level))) == multiset(Flat(n))
    decreases n, 1, 0
  {
    var L := |n.items|;
    if n.children != [] {
      assert |n.children| == L + 1;
      InnerWalkBag(n, 0, level);
      PreorderBag(n.children[L], level + 1);
      InnerPreorderBag(n, level);
    } else {
      LeafWalkBag(n, 0, level);
      FlatBag(n);
      assert n.items[0..] == n.items;
      assert Walk(n, 0, level) + [] == Walk(n, 0, level);
    }
  }

  /** The visits of a node's own keys: each key at the node's depth. */
  function AtLevel(xs: seq<Item>, level: nat): multiset<Visit>
  {
    if xs == [] then multiset{} else multiset{Visit(xs[0], level)} + AtLevel(xs[1..], level)
  }

  /** Reference for the traversal: every item of the subtree paired with
      the depth of the node that holds it, the subtree's root being at
      `level`. */
  function Leveled(n: Node, level: nat): multiset<Visit>
    decreases n, 1
  {
    AtLevel(n.items, level) + LeveledAll(n.children, level + 1)
  }

  /** `Leveled` summed over sibling subtrees whose roots are at `level`. */
  function LeveledAll(cs: seq<Node>, level: nat): multiset<Visit>
    decreases cs, 0
  {
    if cs == [] then multiset{} else Leveled(cs[0], level) + LeveledAll(cs[1..], level)
  }

  lemma AtLevelFront(xs: seq<Item>, i: nat, level: nat)
    requires i < |xs|
    ensures AtLevel(xs[i..], level) == multiset{Visit(xs[i], level)} + AtLevel(xs[i + 1..], level)
  {
    assert xs[i..][1..] == xs[i + 1..];
  }

  lemma {:induction false} AtLevelHas(xs: seq<Item>, x: Item, level: nat)
    requires x in xs
    ensures Visit(x, level) in AtLevel(xs, level)
  {
    if xs[0] != x {
      assert x in xs[1..];
      AtLevelHas(xs[1..], x, level);
    }
  }

  lemma LeveledFront(cs: seq<Node>, i: nat, j: nat, level: nat)
    requires i < j <= |cs|
    ensures LeveledAll(cs[i..j], level) == Leveled(cs[i], level) + LeveledAll(cs[i + 1..j], level)
  {
    assert cs[i..j][1..] == cs[i + 1..j];
  }

  lemma {:induction false} LeveledAllSnoc(cs: seq<Node>, i: nat, level: nat)
    requires i < |cs|
    ensures LeveledAll(cs[..i + 1], level) == LeveledAll(cs[..i], level) + Leveled(cs[i], level)
  {
    if i == 0 {
      assert cs[..1][1..] == [];
    } else {
      assert cs[..i + 1][1..] == cs[1..][..i];
      assert cs[..i][1..] == cs[1..][..i - 1];
      LeveledAllSnoc(cs[1..], i - 1, level);
    }
  }

  /** The key loop of a leaf from key `i` visits keys `i` on at the leaf's
      depth. */
  lemma {:induction false} LeafWalkLeveled(n: Node, i: nat, level: nat)
    requires n.children == [] && i <= |n.items|
    ensures multiset(Walk(n, i, level)) == AtLevel(n.items[i..], level)
    decreases |n.items| - i
  {
    if i < |n.items| {
      LeafWalkLeveled(n, i + 1, level);
      LeafWalkUnfold(n, i, level);
      AtLevelFront(n.items, i, level);
    } else {
      assert n.items[i..] == [];
    }
  }

  /** The step of the loop at key `i` of an internal node, given what the
      rest of the loop and child `i` visit. */
  lemma WalkLeveledStep(n: Node, i: nat, level: nat)
    requires i < |n.items| < |n.children|
    requires multiset(Preorder(n.children[i], level + 1)) == Leveled(n.children[i], level + 1)
    requires multiset(Walk(n, i + 1, level))
             == AtLevel(n.items[i + 1..], level) + LeveledAll(n.children[i + 1..|n.items|], level + 1)
    ensures multiset(Walk(n, i, level))
            == AtLevel(n.items[i..], level) + LeveledAll(n.children[i..|n.items|], level + 1)
  {
    var L := |n.items|;
    var v, p, w := Visit(n.items[i], level), Preorder(n.children[i], level + 1), Walk(n, i + 1, level);
    InnerWalkUnfold(n, i, level);
    assert multiset([v] + p + w) == multiset{v} + multiset(p) + multiset(w);
    AtLevelFront(n.items, i, level);
    LeveledFront(n.children, i, L, level + 1);
    Shuffle(multiset{v}, Leveled(n.children[i], level + 1),
            AtLevel(n.items[i + 1..], level), LeveledAll(n.children[i + 1..L], level + 1));
  }

  /** The key loop of a shaped internal node from key `i` visits keys `i`
      on at the node's depth and the children before them one level
      deeper, each item at the depth of its own node. */
  lemma {:induction false} InnerWalkLeveled(n: Node, i: nat, level: nat)
    requires Shaped(n) && n.children != [] && i <= |n.items|
    ensures multiset(Walk(n, i, level))
            == AtLevel(n.items[i..], level) + LeveledAll(n.children[i..|n.items|], level + 1)
    decreases n, 0, |n.items| - i
  {
    var L := |n.items|;
    assert |n.children| == L + 1;
    if i < L {
      InnerWalkLeveled(n, i + 1, level);
      PreorderLeveled(n.children[i], level + 1);
      WalkLeveledStep(n, i, level);
    } else {
      assert n.items[i..] == [];
      assert n.children[i..L] == [];
    }
  }

  /** The traversal of an internal node, given what its key loop and its
      last child visit. */
  lemma InnerLeveled(n: Node, level: nat)
    requires n.children != [] && |n.children| == |n.items| + 1
    requires multiset(Walk(n, 0, level))
             == AtLevel(n.items[0..], level) + LeveledAll(n.children[0..|n.items|], level + 1)
    requires multiset(Preorder(n.children[|n.items|], level + 1))
             == Leveled(n.children[|n.items|], level + 1)
    ensures multiset(Preorder(n, level)) == Leveled(n, level)
  {
    var L, cs := |n.items|, n.children;
    var w, last := Walk(n, 0, level), Preorder(cs[L], level + 1);
    PreorderUnfold(n, level);
    LeveledLast(cs, L, level + 1);
    assert n.items[0..] == n.items;
    calc {
      multiset(Preorder(n, level));
      multiset(w + last);
      multiset(w) + multiset(last);
      AtLevel(n.items, level) + LeveledAll(cs[0..L], level + 1) + Leveled(cs[L], level + 1);
      Leveled(n, level);
    }
  }

  lemma LeveledLast(cs: seq<Node>, L: nat, level: nat)
    requires |cs| == L + 1
    ensures LeveledAll(cs[0..L], level) + Leveled(cs[L], level) == LeveledAll(cs, level)
  {
    LeveledAllSnoc(cs, L, level);
    assert cs[..L + 1] == cs;
    assert cs[0..L] == cs[..L];
  }

  /** Theorem: the traversal of a shaped tree lists every item exactly
      once, paired with the depth of the node that holds it. */
  lemma {:induction false} PreorderLeveled(n: Node, level: nat)
    requires Shaped(n)
    ensures multiset(Preorder(n, level)) == Leveled(n, level)
    decreases n, 1, 0
  {
    var L := |n.items|;
    if n.children != [] {
      assert |n.children| == L + 1;
      InnerWalkLeveled(n, 0, level);
      PreorderLeveled(n.children[L], level + 1);
      InnerLeveled(n, level);
    } else {
      LeafWalkLeveled(n, 0, level);
      assert n.items[0..] == n.items;
      assert Preorder(n, level) == Walk(n, 0, level) + [];
      assert Walk(n, 0, level) + [] == Walk(n, 0, level);
    }
  }

  /** The root's own keys are reported at the starting depth. */
  lemma RootKeysAtStart(n: Node, level: nat, x: Item)
    requires Shaped(n) && x in n.items
    ensures Visit(x, level) in Preorder(n, level)
  {
    PreorderLeveled(n, level);
    AtLevelHas(n.items, x, level);
    assert Visit(x, level) in multiset(Preorder(n, level));
  }

  /** Every visit of `vs` is at a depth between `lo` and `hi`. */
  predicate LevelsWithin(vs: seq<Visit>, lo: nat, hi: nat)
  {
    forall j :: 0 <= j < |vs| ==> lo <= vs[j].level <= hi
  }

  lemma LevelsJoin(a: seq<Visit>, b: seq<Visit>, lo: nat, hi: nat)
    requires LevelsWithin(a, lo, hi) && LevelsWithin(b, lo, hi)
    ensures LevelsWithin(a + b, lo, hi)
  {
    forall j | 0 <= j < |a + b|
      ensures lo <= (a + b)[j].level <= hi
    {
      if j >= |a| {
        assert (a + b)[j] == b[j - |a|];
      }
    }
  }

  /** The step of the loop at key `i`, given the depths of the rest of the
      loop and of child `i`. */
  lemma WalkLevelsStep(n: Node, i: nat, level: nat, hi: nat)
    requires i < |n.items| && level <= hi
    requires n.children != [] && i < |n.children|
             ==> LevelsWithin(Preorder(n.children[i], level + 1), level, hi)
    requires LevelsWithin(Walk(n, i + 1, level), level, hi)
    ensures LevelsWithin(Walk(n, i, level), level, hi)
  {
    var v := Visit(n.items[i], level);
    var sub := if n.children != [] && i < |n.children| then Preorder(n.children[i], level + 1) else [];
    assert Walk(n, i, level) == [v] + sub + Walk(n, i + 1, level);
    assert LevelsWithin([v], level, hi);
    LevelsJoin([v], sub, level, hi);
    LevelsJoin([v] + sub, Walk(n, i + 1, level), level, hi);
  }

  /** The loop of a shaped node from key `i` stays between the node's depth
      and the depth of its leaves. */
  lemma {:induction false} WalkLevels(n: Node, i: nat, level: nat)
    requires Shaped(n) && i <= |n.items|
    ensures LevelsWithin(Walk(n, i, level), level, level + Height(n))
    decreases n, 0, |n.items| - i
  {
    if i < |n.items| {
      WalkLevels(n, i + 1, level);
      if n.children != [] {
        assert |n.children| == |n.items| + 1;
        assert Height(n.children[i]) + 1 == Height(n);
        PreorderLevels(n.children[i], level + 1);
      }
      WalkLevelsStep(n, i, level, level + Height(n));
    }
  }

  /** The traversal of a shaped tree reports every key between the
      starting depth and the depth of the leaves; `PreorderLeveled` says
      at exactly which depth. */
  lemma {:induction false} PreorderLevels(n: Node, level: nat)
    requires Shaped(n)
    ensures LevelsWithin(Preorder(n, level), level, level + Height(n))
    decreases n, 1, 0
  {
    var L, hi := |n.items|, level + Height(n);
    WalkLevels(n, 0, level);
    if n.children != [] {
      assert |n.children| == L + 1;
      assert Height(n.children[L]) + 1 == Height(n);
      PreorderLevels(n.children[L], level + 1);
      LevelsJoin(Walk(n, 0, level), Preorder(n.children[L], level + 1), level, hi);
    } else {
      assert Walk(n, 0, level) + [] == Walk(n, 0, level);
    }
  }
}

=== FILE: containers.dfy ===
/** The singly linked containers of `git_sim/data_structures.py`: a FIFO
    `Queue` with `front`/`rear` pointers, a LIFO `Stack` with a `top`
    pointer, and a `LinkedList` with a `head` pointer.  Each keeps its
    elements in `Node(data, next)` cells.

    `Stack` and `LinkedList` never share cells, so their chains are
    modelled as immutable cons lists (`Chain`).  The queue's `rear`
    pointer aliases the last cell of the chain that starts at `front`, so
    the queue is modelled with an explicit arena of cells addressed by
    index; `front` and `rear` are indices into it. */
module Containers {
  import opened Options

  // ---------------------------------------------------------------------
  // Chains of cells (Stack and LinkedList)
  // ---------------------------------------------------------------------

  datatype Chain<T> = Nil | Link(data: T, next: Chain<T>)

  /** The data of a chain in link order: what `to_list` walks. */
  function Elems<T>(c: Chain<T>): seq<T>
  {
    match c
    case Nil => []
    case Link(d, n) => [d] + Elems(n)
  }

  function Length<T>(c: Chain<T>): nat
  {
    match c
    case Nil => 0
    case Link(_, n) => 1 + Length(n)
  }

  lemma {:induction false} LengthIsElemsLength<T>(c: Chain<T>)
    ensures Length(c) == |Elems(c)|
  {
    match c
    case Nil =>
    case Link(_, n) => LengthIsElemsLength(n);
  }

  // ---------------------------------------------------------------------
  // Stack
  // ---------------------------------------------------------------------

  /** `top` is the most recently pushed cell; `size` is a separate counter
      that the class keeps in step with the chain. */
  datatype Stack<T> = Stack(top: Chain<T>, size: int)

  ghost predicate StackValid<T>(s: Stack<T>)
  {
    s.size == Length(s.top)
  }

  function EmptyStack<T>(): (s: Stack<T>)
    ensures StackValid(s) && Elems(s.top) == []
  {
    Stack(Nil, 0)
  }

  function Push<T>(s: Stack<T>, x: T): (r: Stack<T>)
    ensures Elems(r.top) == [x] + Elems(s.top)
    ensures r.size == s.size + 1
    ensures StackValid(s) ==> StackValid(r)
  {
    Stack(Link(x, s.top), s.size + 1)
  }

  /** Removes and returns the top element; on an empty stack returns
      `None` and leaves the stack (and its counter) as it was. */
  function Pop<T>(s: Stack<T>): (r: (Option<T>, Stack<T>))
    ensures Elems(s.top) == [] ==> r.0 == None && r.1 == s
    ensures Elems(s.top) != [] ==>
              && r.0 == Some(Elems(s.top)[0])
              && Elems(r.1.top) == Elems(s.top)[1..]
              && r.1.size == s.size - 1
    ensures StackValid(s) ==> StackValid(r.1)
  {
    match s.top
    case Nil => (None, s)
    case Link(d, n) => (Some(d), Stack(n, s.size - 1))
  }

  function StackPeek<T>(s: Stack<T>): (r: Option<T>)
    ensures r.None? <==> Elems(s.top) == []
    ensures r.Some? ==> r.value == Elems(s.top)[0]
  {
    match s.top
    case Nil => None
    case Link(d, _) => Some(d)
  }

  function StackIsEmpty<T>(s: Stack<T>): (r: bool)
    requires StackValid(s)
    ensures r <==> Elems(s.top) == []
  {
    LengthIsElemsLength(s.top);
    s.size == 0
  }

  function StackClear<T>(s: Stack<T>): (r: Stack<T>)
    ensures StackValid(r) && Elems(r.top) == [] && r.size == 0
  {
    Stack(Nil, 0)
  }

  /** LIFO: popping right after a push gives back the pushed element and
      the stack as it was before the push. */
  lemma PopUndoesPush<T>(s: Stack<T>, x: T)
    ensures Pop(Push(s, x)) == (Some(x), s)
  {
  }

  // ---------------------------------------------------------------------
  // LinkedList
  // ---------------------------------------------------------------------

  datatype LinkedList<T> = LinkedList(head: Chain<T>)

  function AppendChain<T>(c: Chain<T>, x: T): (r: Chain<T>)
    ensures Elems(r) == Elems(c) + [x]
  {
    match c
    case Nil => Link(x, Nil)
    case Link(d, n) => Link(d, AppendChain(n, x))
  }

  /** `append` walks to the last cell and links a new one after it. */
  function Append<T>(l: LinkedList<T>, x: T): (r: LinkedList<T>)
    ensures Elems(r.head) == Elems(l.head) + [x]
  {
    LinkedList(AppendChain(l.head, x))
  }

  /** Position of the first occurrence of `x` in `s`. */
  function IndexOf<T(==)>(s: seq<T>, x: T): (i: nat)
    requires x in s
    ensures i < |s| && s[i] == x && x !in s[..i]
  {
    if s[0] == x then 0
    else
      var j := IndexOf(s[1..], x);
      assert s[..j + 1] == [s[0]] + s[1..][..j];
      j + 1
  }

  /** `s` without its first occurrence of `x`. */
  ghost function WithoutFirst<T>(s: seq<T>, x: T): seq<T>
    requires x in s
  {
    s[..IndexOf(s, x)] + s[IndexOf(s, x) + 1..]
  }

  lemma WithoutFirstCons<T>(d: T, s: seq<T>, x: T)
    requires d != x && x in s
    ensures WithoutFirst([d] + s, x) == [d] + WithoutFirst(s, x)
  {
    var i := IndexOf(s, x);
    assert ([d] + s)[1..] == s;
    assert ([d] + s)[..i + 1] == [d] + s[..i];
    assert ([d] + s)[i + 2..] == s[i + 1..];
  }

  /** Unlinks the first cell whose data equals `x`. */
  function RemoveChain<T(==)>(c: Chain<T>, x: T): (r: (bool, Chain<T>))
    ensures r.0 <==> x in Elems(c)
    ensures !r.0 ==> r.1 == c
    ensures r.0 ==> Elems(r.1) == WithoutFirst(Elems(c), x)
  {
    match c
    case Nil => (false, Nil)
    case Link(d, n) =>
      if d == x then (true, n)
      else
        var rest := RemoveChain(n, x);
        if rest.0 then
          WithoutFirstCons(d, Elems(n), x);
          (true, Link(d, rest.1))
        else (false, c)
  }

  /** `remove` reports whether a cell was unlinked: the first one holding
      `x`.  The list is unchanged when `x` does not occur. */
  function Remove<T(==)>(l: LinkedList<T>, x: T): (r: (bool, LinkedList<T>))
    ensures r.0 <==> x in Elems(l.head)
    ensures !r.0 ==> r.1 == l
    ensures r.0 ==> Elems(r.1.head) == WithoutFirst(Elems(l.head), x)
  {
    var (found, h) := RemoveChain(l.head, x);
    (found, LinkedList(h))
  }

  /** `find` walks the cells from `head` and returns the first whose data
      equals `x`; the returned cell is represented by the chain that starts
      at it. */
  method Find<T(==)>(l: LinkedList<T>, x: T) returns (r: Option<Chain<T>>)
    ensures r.None? <==> x !in Elems(l.head)
    ensures r.Some? ==> exists i :: 0 <= i < |Elems(l.head)| && x !in Elems(l.head)[..i]
                                    && r.value.Link? && r.value.data == x
                                    && Elems(r.value) == Elems(l.head)[i..]
  {
    var current := l.head;
    ghost var i := 0;
    while current.Link?
      invariant 0 <= i <= |Elems(l.head)|
      invariant Elems(current) == Elems(l.head)[i..]
      invariant x !in Elems(l.head)[..i]
      decreases Length(current)
    {
      if current.data == x {
        assert Elems(l.head)[i] == x;
        return Some(current);
      }
      assert Elems(l.head)[..i + 1] == Elems(l.head)[..i] + [current.data];
      current := current.next;
      i := i + 1;
    }
    assert Elems(l.head)[..i] == Elems(l.head);
    return None;
  }

  /** `to_list` copies the data of every cell, in link order. */
  method ToList<T>(l: LinkedList<T>) returns (r: seq<T>)
    ensures |r| == Length(l.head)
    ensures r == Elems(l.head)
  {
    LengthIsElemsLength(l.head);
    r := [];
    var current := l.head;
    while current.Link?
      invariant r + Elems(current) == Elems(l.head)
      decreases Length(current)
    {
      r := r + [current.data];
      current := current.next;
    }
  }

  // ---------------------------------------------------------------------
  // Queue
  // ---------------------------------------------------------------------

  datatype Cell<T> = Cell(data: T, next: Option<nat>)

  /** `heap` holds every cell ever enqueued (dequeued cells stay behind as
      garbage); `front` and `rear` are indices into it or `None`. */
  datatype Queue<T> = Queue(heap: seq<Cell<T>>, front: Option<nat>, rear: Option<nat>, size: int)

  /** Cells only ever link forward: a new cell is appended at the end of
      the heap and only the former last cell is made to point at it. */
  ghost predicate Forward<T>(heap: seq<Cell<T>>)
  {
    forall i :: 0 <= i < |heap| && heap[i].next.Some? ==> i < heap[i].next.value < |heap|
  }

  ghost predicate InHeap<T>(heap: seq<Cell<T>>, p: Option<nat>)
  {
    p.Some? ==> p.value < |heap|
  }

  function Rank<T>(heap: seq<Cell<T>>, p: Option<nat>): nat
  {
    if p.Some? && p.value < |heap| then |heap| - p.value else 0
  }

  /** The data reached by following `next` from `p`. */
  ghost function Walk<T>(heap: seq<Cell<T>>, p: Option<nat>): seq<T>
    requires Forward(heap) && InHeap(heap, p)
    decreases Rank(heap, p)
  {
    if p.None? then [] else [heap[p.value].data] + Walk(heap, heap[p.value].next)
  }

  /** Index of the cell where the walk from `p` stops. */
  ghost function LastOf<T>(heap: seq<Cell<T>>, p: nat): (r: nat)
    requires Forward(heap) && p < |heap|
    ensures p <= r < |heap| && heap[r].next.None?
    decreases |heap| - p
  {
    if heap[p].next.None? then p else LastOf(heap, heap[p].next.value)
  }

  ghost predicate QueueValid<T>(q: Queue<T>)
  {
    && Forward(q.heap)
    && InHeap(q.heap, q.front)
    && InHeap(q.heap, q.rear)
    && (q.front.None? <==> q.rear.None?)
    && (q.front.Some? ==> LastOf(q.heap, q.front.value) == q.rear.value)
    && q.size == |Walk(q.heap, q.front)|
  }

  /** The queue's elements from front to rear. */
  ghost function Contents<T>(q: Queue<T>): seq<T>
    requires QueueValid(q)
  {
    Walk(q.heap, q.front)
  }

  function EmptyQueue<T>(): (q: Queue<T>)
    ensures QueueValid(q) && Contents(q) == []
  {
    Queue([], None, None, 0)
  }

  /** Linking a new cell after the last cell of a chain extends every walk
      that reaches that last cell by the new element. */
  lemma {:induction false} LinkExtendsWalk<T>(heap: seq<Cell<T>>, p: nat, x: T)
    requires Forward(heap) && p < |heap|
    ensures var last := LastOf(heap, p);
            var n := |heap|;
            var heap' := (heap + [Cell(x, None)])[last := Cell(heap[last].data, Some(n))];
            && Forward(heap')
            && Walk(heap', Some(p)) == Walk(heap, Some(p)) + [x]
            && LastOf(heap', p) == n
    decreases |heap| - p
  {
    var last := LastOf(heap, p);
    var n := |heap|;
    var heap' := (heap + [Cell(x, None)])[last := Cell(heap[last].data, Some(n))];
    assert Forward(heap') by {
      forall i | 0 <= i < |heap'| && heap'[i].next.Some?
        ensures i < heap'[i].next.value < |heap'|
      {
        if i != last && i < n {
          assert heap'[i] == heap[i];
        }
      }
    }
    if heap[p].next.None? {
      assert last == p;
      assert Walk(heap', Some(n)) == [x];
      assert LastOf(heap', n) == n;
    } else {
      var q := heap[p].next.value;
      LinkExtendsWalk(heap, q, x);
      assert heap'[p] == heap[p];
    }
  }

  /** `enqueue` links a new cell after `rear` (or makes it both `front` and
      `rear` when the queue is empty). */
  function Enqueue<T>(q: Queue<T>, x: T): (r: Queue<T>)
    requires QueueValid(q)
    ensures QueueValid(r)
    ensures Contents(r) == Contents(q) + [x]
    ensures r.size == q.size + 1
  {
    var n := |q.heap|;
    var heap := q.heap + [Cell(x, None)];
    if q.rear.None? then
      assert Walk(heap, Some(n)) == [x];
      Queue(heap, Some(n), Some(n), q.size + 1)
    else
      var last := q.rear.value;
      LinkExtendsWalk(q.heap, q.front.value, x);
      Queue(heap[last := Cell(heap[last].data, Some(n))], q.front, Some(n), q.size + 1)
  }

  /** `dequeue` advances `front`; when that empties the queue it also
      resets `rear`.  On an empty queue it returns `None` and changes
      nothing. */
  function Dequeue<T>(q: Queue<T>): (r: (Option<T>, Queue<T>))
    requires QueueValid(q)
    ensures QueueValid(r.1)
    ensures Contents(q) == [] ==> r.0 == None && r.1 == q
    ensures Contents(q) != [] ==>
              && r.0 == Some(Contents(q)[0])
              && Contents(r.1) == Contents(q)[1..]
              && r.1.size == q.size - 1
  {
    if q.front.None? then (None, q)
    else
      var f := q.front.value;
      var front := q.heap[f].next;
      var rear := if front.None? then None else q.rear;
      (Some(q.heap[f].data), Queue(q.heap, front, rear, q.size - 1))
  }

  function QueuePeek<T>(q: Queue<T>): (r: Option<T>)
    requires QueueValid(q)
    ensures r.None? <==> Contents(q) == []
    ensures r.Some? ==> r.value == Contents(q)[0]
  {
    if q.front.None? then None else Some(q.heap[q.front.value].data)
  }

  function QueueIsEmpty<T>(q: Queue<T>): (r: bool)
    requires QueueValid(q)
    ensures r <==> Contents(q) == []
  {
    q.size == 0
  }

  function QueueClear<T>(q: Queue<T>): (r: Queue<T>)
    requires QueueValid(q)
    ensures QueueValid(r) && Contents(r) == [] && r.size == 0
    ensures r.front.None? && r.rear.None?
  {
    Queue(q.heap, None, None, 0)
  }

  /** FIFO: whatever is already queued comes out before an element
      enqueued now, and the element itself comes out last. */
  lemma EnqueueThenDequeue<T>(q: Queue<T>, x: T)
    requires QueueValid(q)
    ensures var (y, q') := Dequeue(Enqueue(q, x));
            if Contents(q) == [] then y == Some(x) && Contents(q') == []
            else y == Some(Contents(q)[0]) && Contents(q') == Contents(q)[1..] + [x]
  {
  }
}

=== FILE: contributor_tree.dfy ===
/** The contributor directory of `git_sim/tree_structures.py`
    (`ContributorNode`): an unbalanced binary search tree keyed by
    contributor name.  Names that compare equal are routed to the right, so
    inserting a duplicate name adds a second node rather than replacing the
    first.

    Names are Python strings in the source; here they are integers, which
    are ordered the way the source orders its names.  The source's tree is
    a node or Python `None`; `Empty` stands for `None` (the repository
    starts with no contributor tree at all). */
module ContributorTree {
  import opened Options

  type Name = int

  datatype Contributor = Contributor(name: Name, email: string, role: string)

  datatype Tree = Empty | Node(left: Tree, entry: Contributor, right: Tree)

  /** The contributors stored in the tree, with multiplicity. */
  function Entries(t: Tree): multiset<Contributor>
  {
    match t
    case Empty => multiset{}
    case Node(l, e, r) => Entries(l) + multiset{e} + Entries(r)
  }

  /** Binary-search-tree order with ties to the right: every name in a left
      subtree is smaller than the node's name, and every name in a right
      subtree is at least the node's name. */
  ghost predicate Ordered(t: Tree)
  {
    match t
    case Empty => true
    case Node(l, e, r) =>
      && Ordered(l) && Ordered(r)
      && (forall c :: c in Entries(l) ==> c.name < e.name)
      && (forall c :: c in Entries(r) ==> e.name <= c.name)
  }

  ghost predicate HasName(t: Tree, name: Name)
  {
    exists c :: c in Entries(t) && c.name == name
  }

  // ---------------------------------------------------------------------
  // insert
  // ---------------------------------------------------------------------

  /** `insert`: descend left when the new name is smaller, otherwise right,
      and hang a new node where the walk falls off the tree.  The root of a
      non-empty tree is returned unchanged; an empty tree becomes a single
      node (the repository's `add_contributor` does that for the first
      contributor). */
  function Insert(t: Tree, name: Name, email: string, role: string): (r: Tree)
    ensures Entries(r) == Entries(t) + multiset{Contributor(name, email, role)}
    ensures t.Node? ==> r.Node? && r.entry == t.entry
    ensures Ordered(t) ==> Ordered(r)
  {
    match t
    case Empty => Node(Empty, Contributor(name, email, role), Empty)
    case Node(l, e, rt) =>
      if name < e.name then Node(Insert(l, name, email, role), e, rt)
      else Node(l, e, Insert(rt, name, email, role))
  }

  // ---------------------------------------------------------------------
  // find
  // ---------------------------------------------------------------------

  /** `find`: stop at a node with the name, else go left for a smaller name
      and right for a larger one; falling off the tree gives `None`. */
  function Find(t: Tree, name: Name): (r: Option<Contributor>)
    ensures r.Some? ==> r.value.name == name && r.value in Entries(t)
    ensures Ordered(t) ==> (r.Some? <==> HasName(t, name))
  {
    match t
    case Empty => None
    case Node(l, e, rt) =>
      if e.name == name then Some(e)
      else if name < e.name then Find(l, name)
      else Find(rt, name)
  }

  // ---------------------------------------------------------------------
  // get_all_contributors
  // ---------------------------------------------------------------------

  /** `get_all_contributors` as written: node, then left subtree, then
      right subtree (preorder). */
  function ListAll(t: Tree): (r: seq<Contributor>)
    ensures multiset(r) == Entries(t)
    ensures t.Node? ==> |r| > 0 && r[0] == t.entry
  {
    match t
    case Empty => []
    case Node(l, e, rt) => [e] + ListAll(l) + ListAll(rt)
  }

  ghost predicate SortedByName(s: seq<Contributor>)
  {
    forall i, j :: 0 <= i < j < |s| ==> s[i].name <= s[j].name
  }

  lemma SortedAround(a: seq<Contributor>, e: Contributor, b: seq<Contributor>)
    requires SortedByName(a) && SortedByName(b)
    requires forall c :: c in multiset(a) ==> c.name < e.name
    requires forall c :: c in multiset(b) ==> e.name <= c.name
    ensures SortedByName(a + [e] + b)
  {
    assert forall i :: 0 <= i < |a| ==> a[i] in multiset(a);
    assert forall i :: 0 <= i < |b| ==> b[i] in multiset(b);
  }

  /** The alphabetical listing the repository's `list_contributors`
      promises: left subtree, node, right subtree (in order). */
  function ListAlphabetical(t: Tree): (r: seq<Contributor>)
    ensures multiset(r) == Entries(t)
    ensures Ordered(t) ==> SortedByName(r)
  {
    match t
    case Empty => []
    case Node(l, e, rt) =>
      var a, b := ListAlphabetical(l), ListAlphabetical(rt);
      assert Ordered(t) ==> SortedByName(a + [e] + b) by {
        if Ordered(t) {
          SortedAround(a, e, b);
        }
      }
      a + [e] + b
  }

  /** Adding contributor 2 and then contributor 1 gives a tree whose
      preorder listing puts 2 before 1: the listing is not alphabetical,
      while the in-order listing is. */
  lemma PreorderListingIsNotAlphabetical()
    ensures var t := Insert(Insert(Empty, 2, "b@x", "guest"), 1, "a@x", "guest");
            && !SortedByName(ListAll(t))
            && SortedByName(ListAlphabetical(t))
  {
    var t := Insert(Insert(Empty, 2, "b@x", "guest"), 1, "a@x", "guest");
    assert t == Node(Node(Empty, Contributor(1, "a@x", "guest"), Empty), Contributor(2, "b@x", "guest"), Empty);
    assert ListAll(t)[0].name == 2 && ListAll(t)[1].name == 1;
    assert Ordered(t);
  }

  // ---------------------------------------------------------------------
  // get_min_value_node and delete
  // ---------------------------------------------------------------------

  /** `get_min_value_node`: follow left links to the end. */
  function MinEntry(t: Tree): (r: Contributor)
    requires t.Node?
    ensures r in Entries(t)
    ensures Ordered(t) ==> forall c :: c in Entries(t) ==> r.name <= c.name
  {
    if t.left.Empty? then t.entry else MinEntry(t.left)
  }

  /** In an ordered tree, searching for the smallest name finds exactly the
      node that `get_min_value_node` returns. */
  lemma {:induction false} FindMinEntry(t: Tree)
    requires t.Node? && Ordered(t)
    ensures Find(t, MinEntry(t).name) == Some(MinEntry(t))
  {
    if t.left.Node? {
      FindMinEntry(t.left);
      assert MinEntry(t.left) in Entries(t.left);
    }
  }

  /** The entry `delete` takes out: the one `find` reports, if any. */
  function Removed(t: Tree, name: Name): multiset<Contributor>
  {
    var f := Find(t, name);
    if f.Some? then multiset{f.value} else multiset{}
  }

  /** `delete` returns the new root of the subtree.  A node holding the
      name is replaced by nothing (a leaf), by its only child, or, when it
      has two children, by its in-order successor's data, after which the
      successor is deleted from the right subtree. */
  function Delete(t: Tree, name: Name): (r: Tree)
    ensures Find(t, name).None? ==> r == t
    ensures t.Node? && t.left.Empty? && t.right.Empty? && t.entry.name == name ==> r.Empty?
  {
    match t
    case Empty => Empty
    case Node(l, e, rt) =>
      if name < e.name then Node(Delete(l, name), e, rt)
      else if name > e.name then Node(l, e, Delete(rt, name))
      else if l.Empty? then rt
      else if rt.Empty? then l
      else
        var s := MinEntry(rt);
        Node(l, s, Delete(rt, s.name))
  }

  lemma RemovedIsStored(t: Tree, name: Name)
    ensures Removed(t, name) <= Entries(t)
  {
  }

  lemma ReplaceBySuccessor(a: multiset<Contributor>, e: Contributor, s: Contributor, b: multiset<Contributor>)
    requires s in b
    ensures a + multiset{s} + (b - multiset{s}) == (a + multiset{e} + b) - multiset{e}
  {
    assert (a + multiset{e} + b) - multiset{e} == a + b;
    assert multiset{s} + (b - multiset{s}) == b;
  }

  /** `delete` keeps the tree ordered and takes out exactly the contributor
      that `find` reports for the name (nothing when the name is absent). */
  lemma {:induction false} DeleteKeepsOrder(t: Tree, name: Name)
    requires Ordered(t)
    ensures Ordered(Delete(t, name))
    ensures Entries(Delete(t, name)) == Entries(t) - Removed(t, name)
    decreases t, 1
  {
    match t
    case Empty =>
    case Node(l, e, rt) =>
      if name < e.name {
        DeleteLeftKeepsOrder(t, name);
      } else if name > e.name {
        DeleteRightKeepsOrder(t, name);
      } else if l.Empty? {
        DeleteTrivial(t, name);
      } else if rt.Empty? {
        DeleteTrivial(t, name);
      } else {
        DeleteBySuccessorKeepsOrder(t, name);
      }
  }

  /** A node holding the name with at most one child is replaced by that child. */
  lemma DeleteTrivial(t: Tree, name: Name)
    requires Ordered(t) && t.Node? && name == t.entry.name && (t.left.Empty? || t.right.Empty?)
    ensures Ordered(Delete(t, name))
    ensures Entries(Delete(t, name)) == Entries(t) - Removed(t, name)
  {
    assert Removed(t, name) == multiset{t.entry};
  }

  lemma {:induction false} DeleteLeftKeepsOrder(t: Tree, name: Name)
    requires Ordered(t) && t.Node? && name < t.entry.name
    ensures Ordered(Delete(t, name))
    ensures Entries(Delete(t, name)) == Entries(t) - Removed(t, name)
    decreases t, 0
  {
    var Node(l, e, rt) := t;
    var l' := Delete(l, name);
    assert Delete(t, name) == Node(l', e, rt);
    assert Removed(t, name) == Removed(l, name);
    DeleteKeepsOrder(l, name);
    RemovedIsStored(l, name);
    SubtreeAfterDelete(Entries(l), Removed(l, name), Entries(l'), e, Entries(rt));
  }

  /** Multiset bookkeeping for a deletion inside one subtree. */
  lemma SubtreeAfterDelete(a: multiset<Contributor>, x: multiset<Contributor>, a': multiset<Contributor>, e: Contributor, b: multiset<Contributor>)
    requires x <= a && a' == a - x
    ensures a' + multiset{e} + b == (a + multiset{e} + b) - x
    ensures b + multiset{e} + a' == (b + multiset{e} + a) - x
    ensures forall c :: c in a' ==> c in a
  {
  }

  lemma {:induction false} DeleteRightKeepsOrder(t: Tree, name: Name)
    requires Ordered(t) && t.Node? && name > t.entry.name
    ensures Ordered(Delete(t, name))
    ensures Entries(Delete(t, name)) == Entries(t) - Removed(t, name)
    decreases t, 0
  {
    var Node(l, e, rt) := t;
    var rt' := Delete(rt, name);
    assert Delete(t, name) == Node(l, e, rt');
    assert Removed(t, name) == Removed(rt, name);
    DeleteKeepsOrder(rt, name);
    RemovedIsStored(rt, name);
    SubtreeAfterDelete(Entries(rt), Removed(rt, name), Entries(rt'), e, Entries(l));
  }

  lemma {:induction false} DeleteBySuccessorKeepsOrder(t: Tree, name: Name)
    requires Ordered(t) && t.Node? && name == t.entry.name && t.left.Node? && t.right.Node?
    ensures Ordered(Delete(t, name))
    ensures Entries(Delete(t, name)) == Entries(t) - Removed(t, name)
    decreases t, 0
  {
    var Node(l, e, rt) := t;
    var s := MinEntry(rt);
    var rt' := Delete(rt, s.name);
    DeleteKeepsOrder(rt, s.name);
    FindMinEntry(rt);
    assert Removed(rt, s.name) == multiset{s};
    assert Removed(t, name) == multiset{e};
    assert Entries(rt') == Entries(rt) - multiset{s};
    assert forall c :: c in Entries(rt') ==> c in Entries(rt);
    assert forall c :: c in Entries(l) ==> c.name < s.name;
    assert Ordered(Node(l, s, rt'));
    ReplaceBySuccessor(Entries(l), e, s, Entries(rt));
    assert Entries(Node(l, s, rt')) == Entries(l) + multiset{s} + (Entries(rt) - multiset{s});
    assert Entries(Node(l, s, rt')) == Entries(t) - Removed(t, name);
    assert Delete(t, name) == Node(l, s, rt');
  }

  /** Deleting a name that is stored removes exactly one contributor with
      that name; deleting an absent name leaves the tree as it was. */
  lemma DeleteRemovesOneEntry(t: Tree, name: Name)
    requires Ordered(t)
    ensures HasName(t, name) ==> exists c :: c in Entries(t) && c.name == name
                                            && Entries(Delete(t, name)) == Entries(t) - multiset{c}
    ensures !HasName(t, name) ==> Delete(t, name) == t
  {
    DeleteKeepsOrder(t, name);
  }
}

=== FILE: options.dfy ===
/** Optional results shared by every structure of the model: the source
    signals "not found" with Python's `None` and a rejected request with an
    exception; both become values here. */
module Options {

  datatype Option<+T> = None | Some(value: T)

  datatype Result<+R, +E> = Success(value: R) | Failure(error: E)
}

=== FILE: role_manager.dfy ===
/** `RoleManager` of `git_sim/tree_structures.py`: a table from role names
    to permission sets, and an AVL tree from user e-mails to the role name
    each user holds. */
module RoleManager {
  import opened Options
  import opened AvlTree

  type Email = AvlTree.Key

  datatype Manager = Manager(roles: map<string, set<string>>, userRoles: Tree<string>)

  /** The invariant every operation keeps: the user table is an ordered
      AVL tree. */
  ghost predicate Valid(m: Manager)
  {
    Avl(m.userRoles) && Ordered(m.userRoles)
  }

  /** A new manager: no roles, no users. */
  function NewManager(): (m: Manager)
    ensures Valid(m) && m.roles == map[]
    ensures forall e :: GetUserRole(m, e).None?
    ensures ListUsersWithRoles(m) == []
  {
    Manager(map[], Leaf)
  }

  /** `add_role`: define (or redefine) a role by the set of the given
      permissions. */
  function AddRole(m: Manager, role: string, permissions: seq<string>): (r: Manager)
    ensures role in r.roles && forall p :: p in r.roles[role] <==> p in permissions
    ensures forall q :: q != role ==> (q in r.roles <==> q in m.roles)
    ensures forall q :: q != role && q in m.roles ==> r.roles[q] == m.roles[q]
    ensures r.userRoles == m.userRoles
  {
    m.(roles := m.roles[role := set p | p in permissions])
  }

  /** The message of the `ValueError` raised for an undefined role. */
  function UndefinedRole(role: string): string
  {
    "El rol '" + role + "' no está definido."
  }

  /** `assign_role`: only a defined role can be assigned; the user's entry
      is inserted into (or updated in) the AVL tree. */
  function AssignRole(m: Manager, email: Email, role: string): (r: Result<Manager, string>)
    requires Valid(m)
    ensures r.Failure? <==> role !in m.roles
    ensures r.Failure? ==> r.error == UndefinedRole(role)
    ensures r.Success? ==> Valid(r.value) && r.value.roles == m.roles
  {
    if role !in m.roles then Failure(UndefinedRole(role))
    else
      InsertIsUpsert(m.userRoles, email, role);
      Success(m.(userRoles := Insert(m.userRoles, email, role)))
  }

  /** `get_user_role`: the role of the user's node, `None` without one. */
  function GetUserRole(m: Manager, email: Email): (r: Option<string>)
    ensures r.Some? ==> Pair(email, r.value) in InOrder(m.userRoles)
  {
    Search(m.userRoles, email)
  }

  /** `check_permission`: a user without a role, or whose role is the empty
      string (false in Python), has no permission; otherwise the role's
      permissions decide, an unknown role counting as none. */
  function CheckPermission(m: Manager, email: Email, permission: string): (b: bool)
    ensures b <==> exists role :: GetUserRole(m, email) == Some(role) && role != ""
                                   && role in m.roles && permission in m.roles[role]
  {
    var role := GetUserRole(m, email);
    if role.None? || role.value == "" then false
    else permission in (if role.value in m.roles then m.roles[role.value] else {})
  }

  /** `list_users_with_roles`: every (e-mail, role) entry, in postorder. */
  function ListUsersWithRoles(m: Manager): (r: seq<Pair<string>>)
    ensures multiset(r) == multiset(InOrder(m.userRoles))
  {
    Postorder(m.userRoles)
  }

  /** Assigning a defined role makes it the user's role and leaves every
      other user's role as it was. */
  lemma AssignThenGet(m: Manager, email: Email, role: string, other: Email)
    requires Valid(m) && role in m.roles
    ensures AssignRole(m, email, role).Success?
    ensures GetUserRole(AssignRole(m, email, role).value, email) == Some(role)
    ensures other != email ==>
              GetUserRole(AssignRole(m, email, role).value, other) == GetUserRole(m, other)
  {
    InsertThenSearch(m.userRoles, email, role, email);
    InsertThenSearch(m.userRoles, email, role, other);
  }

  /** Re-assigning a user who already has a role only rewrites that user's
      node: the user table keeps its shape, and the listing changes in
      that user's pair alone, staying in the same order. */
  lemma ReassignOnlyRelabels(m: Manager, email: Email, role: string)
    requires Valid(m) && role in m.roles && GetUserRole(m, email).Some?
    ensures AssignRole(m, email, role).Success?
    ensures AssignRole(m, email, role).value.userRoles == SetValue(m.userRoles, email, role)
    ensures ListUsersWithRoles(AssignRole(m, email, role).value)
            == Relabel(ListUsersWithRoles(m), email, role)
  {
    InsertPresentIsSetValue(m.userRoles, email, role);
    SetValuePostorder(m.userRoles, email, role);
  }

  /** A user given a role named by a non-empty string holds exactly the
      permissions the role was defined with. */
  lemma DefinedRoleGrantsItsPermissions(m: Manager, role: string, permissions: seq<string>,
                                        email: Email, p: string)
    requires Valid(m) && role != ""
    ensures var m1 := AddRole(m, role, permissions);
            && AssignRole(m1, email, role).Success?
            && (CheckPermission(AssignRole(m1, email, role).value, email, p) <==> p in permissions)
  {
    var m1 := AddRole(m, role, permissions);
    AssignThenGet(m1, email, role, email);
  }

  /** A role named by the empty string grants nothing, whatever its
      permissions. */
  lemma EmptyRoleNameGrantsNothing(m: Manager, permissions: seq<string>, email: Email, p: string)
    requires Valid(m)
    ensures var m1 := AddRole(m, "", permissions);
            && AssignRole(m1, email, "").Success?
            && !CheckPermission(AssignRole(m1, email, "").value, email, p)
  {
    AssignThenGet(AddRole(m, "", permissions), email, "", email);
  }

  /** Every assigned user appears in the listing with the role they hold. */
  lemma ListedUsersHoldTheirRoles(m: Manager, email: Email, role: string)
    requires Valid(m)
    ensures Pair(email, role) in ListUsersWithRoles(m) <==> GetUserRole(m, email) == Some(role)
  {
    var s := InOrder(m.userRoles);
    SearchIsLookup(m.userRoles, email);
    assert Pair(email, role) in ListUsersWithRoles(m) <==> Pair(email, role) in s by {
      assert Pair(email, role) in multiset(ListUsersWithRoles(m)) <==> Pair(email, role) in multiset(s);
    }
    SortedLookup(s, email, role);
  }
}
